=== FILE: README.md ===
# cdx-summary, modelled in Dafny

cdx-summary reads a web archive capture index (CDX) file and summarises it. It turns each
CDX line into a record. It counts captures, distinct URLs and hosts, bytes, the first and
last capture time, and the captures per host. It also fills three two-level grids:
MIME type by status, path segments by query parameters, and year by month. It keeps a
random sample of HTML captures.

The summarizer re-buckets the MIME/status grid into fixed MIME groups and status code
groups. It derives the totals and the "OTHERS" line of the printed tables. The command line
turns its argument into the URL of the CDX file to read. The `<cdx-summary>` web component
loads a summary JSON file and renders the same figures in a page.

The model is split into these modules:

- `Parser` (parser.dfy): the CDX record pattern, as a deterministic scanner. It includes
  the path and query segment counts and a round trip from a record written as a line back
  to the record.
- `Sampler` (sampler.dfy): the base sampler and the dynamic random stream sampler. The
  value of `random()` is a parameter.
- `Analyzer` (analyzer.dfy): the single pass over the lines and the report it produces.
  Each property of the report is stated against an independent definition over the parsed
  records: runs, sums, minimum and maximum, counts per cell.
- `Summarizer` (summarizer.dfy): MIME and status classification, the re-bucketed grid, and
  the figures of the printed grid and top hosts tables.
- `Cli` (cli.dfy): `get_input_url` with its item URL pattern and its URL pattern.
- `WebComponent` (webcomponent.dfy): `toDate`, `numSum`, the grid and top hosts table
  figures, the choice of source and message when the element connects, and what
  `renderSummary` shows.
- `Wrappers`, `Strings`, `Counts`, `Streams`: helper modules. They cover `Option`/`Result`,
  the Python string operations used (`strip`, `split`, `partition`, `lower`, string
  order), and insertion-ordered dictionaries and `Counter`s. `Streams` has runs, changes,
  distinct values and occurrences.

Python dictionaries and JavaScript objects are sequences of key/value pairs in insertion
order. Randomness, files, the network, JSON and the terminal are not modelled. What
`random()` returns for each line is a parameter `draws`, and the fetched summary of the web
component is a parameter too.

## Model

| member | source | states |
|---|---|---|
| Parser.SegmentLength | cdxsummary/parser.py:20-21 | 0 exactly when the segment is all separators, otherwise the number of pieces between separators once leading and trailing separators are stripped; never more than the segment's length |
| Parser.SegmentLengthLeading | cdxsummary/parser.py:20-21 | a leading separator does not change the segment count (`/a/b` and `a/b` both have 2) |
| Parser.SegmentLengthTrailing | cdxsummary/parser.py:20-21 | a trailing separator does not change the segment count |
| Parser.SegmentLengthInner | cdxsummary/parser.py:20-21 | with no separator at either end, the count is the number of separators plus one |
| Parser.Field | cdxsummary/parser.py:7-10 | a required field is one whitespace character followed by a non-empty non-space token, and what follows it is empty or starts with whitespace |
| Parser.OptWord | cdxsummary/parser.py:11-12 | the optional redirect and meta-tags fields hold no space or digit; when absent the input is left untouched |
| Parser.OptNumber | cdxsummary/parser.py:13-14 | the optional bytes and offset fields are `-` or digits; when absent the input is left untouched |
| Parser.ScanTrailer | cdxsummary/parser.py:11-15 | each of the five optional trailing fields is empty or of its own character class |
| Parser.SplitSurt | cdxsummary/parser.py:5 | the SURT splits into a non-empty host without `)`, a path without `?`, and a query, and is rebuilt from them |
| Parser.ScanRequired | cdxsummary/parser.py:6-10 | the timestamp is 14 digits, the URL, MIME type and digest are non-space tokens, and the status is `-` or three digits |
| Parser.Scan | cdxsummary/parser.py:4-16 | every record the pattern yields is well formed: field classes, the timestamp split into its six parts, and the segment counts of path and query |
| Parser.Parse | cdxsummary/parser.py:28-35 | a line that matches gives a well-formed record; one that does not gives the error `Invalid CDX line: '<stripped line>'` |
| Parser.SplitSurtOf | cdxsummary/parser.py:5 | a SURT assembled from host, path and query is split back into exactly those parts |
| Parser.ScanRequiredOf | cdxsummary/parser.py:6-10 | five valid required fields written with single spaces are read back exactly |
| Parser.ScanTrailerOf | cdxsummary/parser.py:11-15 | the optional fields of a canonical record, written out, are read back exactly |
| Parser.FormatStripped | cdxsummary/parser.py:29 | stripping the line of a canonical record changes nothing |
| Parser.ScanFormat | cdxsummary/parser.py:4-16 | the pattern reads a canonical record's line back as that record |
| Parser.ParseFormat | cdxsummary/parser.py:28-35 | round trip: parsing the line of any canonical record gives the record back |
| Sampler.New | cdxsummary/sampler.py:5-8 | a new sampler has `size` empty slots and has processed nothing |
| Sampler.DivModIsDivision | cdxsummary/sampler.py:29 | `divmod(processed, size)` gives a quotient and a remainder below `size` with `quotient * size + remainder == processed` |
| Sampler.TimesIsProduct | cdxsummary/sampler.py:30 | the draw test multiplies the draw by `quotient + 1`, so `random() < 1/(q+1)` is read as `random() * (q+1) < 1` |
| Sampler.Offer | cdxsummary/sampler.py:26-32 | the base sampler and invalid items change nothing; a valid item counts as processed, and only slot `processed mod size` can change, to the transformed item, exactly when the draw times (quotient+1) is below 1 |
| Sampler.Samples | cdxsummary/sampler.py:17-18 | every filled slot's value is among the samples, every sample is the value of a filled slot, and there are never more samples than slots |
| Sampler.PresentOne | cdxsummary/sampler.py:18 | one slot yields its value when it is filled and nothing when it is `None` |
| Sampler.PresentConcat | cdxsummary/sampler.py:18 | the samples of two consecutive runs of slots are the first run's followed by the second's, so `samples()` lists the filled slots one by one in slot order |
| Sampler.PresentPrefix | cdxsummary/sampler.py:17-18 | filled slots followed by empty ones yield exactly the filled values, in order |
| Sampler.OfferAll | cdxsummary/sampler.py:26-32 | a stream of offers keeps the slot count and the sampler kind |
| Sampler.OfferAllProcessed | cdxsummary/sampler.py:27-32 | a dynamic sampler's `processed` grows by the number of valid items in the stream; a base sampler is left unchanged |
| Sampler.BaseYieldsNothing | cdxsummary/sampler.py:13-18 | a default base sampler yields no samples whatever it is offered |
| Sampler.OfferWithRoom | cdxsummary/sampler.py:29-31 | while fewer items were processed than there are slots, a valid item always lands in the next empty slot |
| Sampler.FirstItemsStored | cdxsummary/sampler.py:26-32 | with no more valid items than slots, the slots hold the transformed valid items in order, then empty slots |
| Sampler.SamplesOfShortStream | cdxsummary/sampler.py:17-32 | with no more valid items than slots, `samples()` is exactly the transformed valid items in stream order |
| Analyzer.SamplePartsAsWritten | cdxsummary/analyzer.py:21-22 | the sample keeps the timestamp; a URL without `:80/` is kept as is, and one with it becomes four characters shorter |
| Analyzer.SamplePartsAsWrittenRemoves | cdxsummary/analyzer.py:22 | the four characters removed are exactly the first `:80/`: putting them back at its position gives the URL |
| Analyzer.SampleParts | cdxsummary/analyzer.py:21-22 | the corrected sample keeps the timestamp and any URL without `:80/` |
| Analyzer.SamplePartsDropsPort | cdxsummary/analyzer.py:22 | the corrected sample removes exactly `:80` at the first `:80/` and keeps the slash: putting `:80` back gives the URL |
| Analyzer.SamplePartsAsWrittenGluesPath | cdxsummary/analyzer.py:22 | as written, `http://h:80/p` is sampled as `http://hp`, while the corrected sample gives `http://h/p` |
| Analyzer.SurtHostOfName | cdxsummary/analyzer.py:26 | a dot-free SURT host is recovered from its display name, so the renaming loses nothing |
| Analyzer.TopHostNameInjective | cdxsummary/analyzer.py:26 | distinct dot-free SURT hosts get distinct display names |
| Analyzer.Rekey | cdxsummary/analyzer.py:26 | assigning ranked pairs into a dictionary under new names never adds entries or counts |
| Analyzer.RekeyKeys | cdxsummary/analyzer.py:26 | every new name becomes a key of the result |
| Analyzer.RekeyDistinct | cdxsummary/analyzer.py:26 | with distinct names, each pair keeps its count and its rank under its new name |
| Analyzer.TopHosts | cdxsummary/analyzer.py:25-26 | every ranked host's display name is a key; nothing is added |
| Analyzer.TopHostsRenames | cdxsummary/analyzer.py:25-26 | when names are distinct, `_top_hosts` renames each ranked host in place and keeps its count |
| Analyzer.Init | cdxsummary/analyzer.py:29-43 | a new analyzer has zero counts, the all-nines and all-zeros sentinels, empty grids, and a dynamic sampler exactly when the sample size is not 0 |
| Analyzer.BytesValue | cdxsummary/analyzer.py:95-98 | a digit string adds its value; `-` and an absent field add nothing |
| Analyzer.Record | cdxsummary/analyzer.py:87-106 | one parsed record makes itself the previous SURT and host for the next line, and keeps the sampler usable and the host limit |
| Analyzer.ParseLine | cdxsummary/analyzer.py:83-86 | a line is skipped exactly when parsing it fails; otherwise its record is well formed |
| Analyzer.Step | cdxsummary/analyzer.py:82-106 | a skipped line changes nothing, not even the previous SURT and host; a parsed one adds one capture |
| Analyzer.Call | cdxsummary/analyzer.py:79-107 | the pass over the lines keeps the sampler usable and the host limit |
| Analyzer.ParsedRecords | cdxsummary/analyzer.py:83-86 | every record the pass counts is well formed |
| Analyzer.RunTotals | cdxsummary/analyzer.py:87-105 | each grid and the host counter gain one count per parsed record, matching the captures |
| Analyzer.RunCells | cdxsummary/analyzer.py:103-105 | each grid cell grows by the number of records whose row and column it is |
| Analyzer.RunHostCounts | cdxsummary/analyzer.py:99 | each host's count grows by the number of records from that host |
| Analyzer.RunHostKeysUnique | cdxsummary/analyzer.py:99 | the host counter never holds a host twice |
| Analyzer.RunHostKeys | cdxsummary/analyzer.py:99 | every host of a parsed record is a key of the host counter |
| Analyzer.RunChanges | cdxsummary/analyzer.py:88-102 | `urls` and `hosts` grow by the number of changes from the previous SURT and host |
| Analyzer.RunBytes | cdxsummary/analyzer.py:95-98 | `bytes` grows by the sum of the numeric byte fields |
| Analyzer.RunFirst | cdxsummary/analyzer.py:91-92 | `first` is the smallest of its start and the timestamps seen, and is one of them |
| Analyzer.RunLast | cdxsummary/analyzer.py:93-94 | `last` is the largest of its start and the timestamps seen, and is one of them |
| Analyzer.RunSampler | cdxsummary/analyzer.py:106 | the sampler is offered exactly the parsed records, each with its own line's draw, and keeps what `_sample_parts` makes of them as written (so `http://h:80/p` is kept as `http://hp`) |
| Analyzer.MakeReport | cdxsummary/analyzer.py:47-60 | an untouched sentinel is reported as "" and any other 14-character value as is; the host list is cut to at most the host limit and never gains counts; with distinct display names it is `most_common(maxhosts)` renamed, entry by entry in rank order |
| Analyzer.AnalyzeTotals | cdxsummary/analyzer.py:79-107 | `captures` is the number of lines that parse, and every grid and the host counter add up to it |
| Analyzer.AnalyzeCells | cdxsummary/analyzer.py:103-105 | each cell of each grid holds the number of captures with that row and column |
| Analyzer.AnalyzeHostCounter | cdxsummary/analyzer.py:99 | the host counter holds each host's number of captures, and its keys are distinct |
| Analyzer.HostKeysAreHosts | cdxsummary/analyzer.py:99 | the counter's keys are exactly the hosts seen |
| Analyzer.AnalyzeUrls | cdxsummary/analyzer.py:80-90 | `urls` is the number of runs of equal consecutive SURTs: at most the captures, at least the distinct SURTs, and at least 1 exactly when something was captured |
| Analyzer.AnalyzeHosts | cdxsummary/analyzer.py:81-102 | `hosts` is the number of runs of equal consecutive hosts: at most the captures, at least 1 exactly when something was captured, and at least the number of hosts in the counter |
| Analyzer.DatetimeBetween | cdxsummary/analyzer.py:38-39 | every parsed timestamp lies between the two sentinels |
| Analyzer.AnalyzeFirst | cdxsummary/analyzer.py:38-92 | the reported `first` is "" when nothing was captured; otherwise it is the smallest timestamp, or "" only when every timestamp equals the all-nines sentinel |
| Analyzer.AnalyzeLast | cdxsummary/analyzer.py:39-94 | the reported `last` is "" when nothing was captured; otherwise it is the largest timestamp, or "" only when every timestamp equals the all-zeros sentinel |
| Analyzer.AnalyzeBytes | cdxsummary/analyzer.py:95-98 | `bytes` is the sum of the numeric byte fields of the parsed records |
| Analyzer.AnalyzeSampler | cdxsummary/analyzer.py:29-106 | the sampler ends as a new sampler of the sample size offered every parsed record with its draw, through the as-written `_sample_parts` |
| Analyzer.AnalyzeProcessed | cdxsummary/analyzer.py:17-32 | with a sample size, `processed` is the number of sampling candidates: status 200, `text/html`, not a robots.txt |
| Analyzer.AnalyzeNoSamples | cdxsummary/analyzer.py:32 | a sample size of 0 gives no samples |
| Analyzer.AnalyzeShortSamples | cdxsummary/analyzer.py:17-59 | with no more candidates than the sample size, the samples are every candidate's timestamp and URL in order, with the first `:80/` deleted as written |
| Analyzer.AnalyzeTopHosts | cdxsummary/analyzer.py:55-102 | the reported top hosts are no more than `hosts` nor than a non-negative host limit, and their counts add up to at most `captures`; with distinct display names they are exactly the ranked hosts, renamed, in rank order, each with its number of captures |
| Analyzer.AnalyzeRanking | cdxsummary/analyzer.py:55-99 | the ranking behind the report keeps hosts of the input with their numbers of captures, and no host left out has more captures than a host kept |
| Counts.Get | cdxsummary/summarizer.py:61 | a lookup succeeds exactly when the key is one of the keys |
| Counts.GetEntry | cdxsummary/summarizer.py:61 | a lookup that succeeds returns the value of an entry with that key |
| Counts.GetFirst | cdxsummary/summarizer.py:61 | the lookup returns the value of the first entry with the key; a later entry with the same key is never seen |
| Counts.Put | cdxsummary/analyzer.py:26 | assignment sets the key's value and leaves every other key's value alone |
| Counts.PutKeys | cdxsummary/analyzer.py:26 | a new key goes last among the keys, and an existing key keeps its place, so no key appears twice |
| Counts.Add | cdxsummary/analyzer.py:99 | `counter[k] += n` raises that key's count by `n`, leaves the others alone, and raises the total by `n` |
| Counts.GridAdd | cdxsummary/analyzer.py:103-105 | `grid[row][col] += n` on nested defaultdicts creates the row if needed, changes only that row, and raises the grid total by `n` |
| Counts.GridAddCell | cdxsummary/analyzer.py:103-105 | adding to one cell changes no other cell |
| Counts.ColumnsTotalIsGridTotal | cdxsummary/summarizer.py:104-110 | when every row has exactly the distinct columns, the column sums add up to the grid total |
| Counts.SortDesc | cdxsummary/analyzer.py:55 | the ranking is by descending count and is a permutation of the counter, with the same total |
| Counts.Kept | cdxsummary/analyzer.py:55 | `most_common(n)` never keeps more entries than the counter holds |
| Counts.MostCommon | cdxsummary/analyzer.py:55 | `most_common(n)` keeps `Kept` entries, in descending order, drawn from the counter, with at most its total |
| Counts.MostCommonKeepsLargest | cdxsummary/analyzer.py:55 | nothing left out outranks anything kept |
| Counts.MostCommonEntries | cdxsummary/analyzer.py:55 | with distinct keys, every entry `most_common(n)` keeps is a key of the counter with that key's count |
| Counts.MostCommonLeftOut | cdxsummary/analyzer.py:55 | with distinct keys, a key that `most_common(n)` leaves out counts no more than any entry it keeps |
| Summarizer.MapsToLabels | cdxsummary/summarizer.py:16-30 | every value of the MIME map is one of the grid's rows |
| Summarizer.LabelsUnique | cdxsummary/summarizer.py:14-30 | no MIME group and no code group is listed twice |
| Summarizer.MimeGroup | cdxsummary/summarizer.py:33-44 | every MIME type is classified into one of the thirteen groups |
| Summarizer.MimeGroupIgnoresCase | cdxsummary/summarizer.py:34 | case does not matter to the classification |
| Summarizer.SubtypeWins | cdxsummary/summarizer.py:35-37 | a known subtype decides whatever the type is |
| Summarizer.TypeWhenSubtypeUnknown | cdxsummary/summarizer.py:35-37 | with an unknown subtype, a known type decides, before the XHTML and XML rules |
| Summarizer.FallbackRules | cdxsummary/summarizer.py:40-44 | when neither side is a key: an `xhtml` subtype is HTML, `+xml` or `xml-` is XML, and the rest is Other |
| Summarizer.NoSubtype | cdxsummary/summarizer.py:34-44 | a MIME type without `/` is its own type: a key gives its group, anything else Other |
| Summarizer.SvgIsImage | cdxsummary/summarizer.py:35-42 | `image/svg+xml` is an Image, because the type lookup comes before the `+xml` rule |
| Summarizer.StatusGroup | cdxsummary/summarizer.py:47-52 | the group is "Other" exactly when the code is outside "200" to "600" in string order |
| Summarizer.StatusGroupOfStatus | cdxsummary/summarizer.py:47-52 | a parsed status is valid exactly when it is three digits starting with 2 to 5; its group is then the column of its first digit (`4xx` under "4XX"), and otherwise "Other" |
| Summarizer.StatusSixOutsideColumns | cdxsummary/summarizer.py:47-52 | the string "6" counts as valid and gets the group "6XX", which is not a column |
| Summarizer.MimeStatusGrid | cdxsummary/summarizer.py:55-62 | succeeds exactly when every status falls in a column (otherwise a KeyError); the result has every MIME group as a row with the five columns, and the same total as its input |
| Summarizer.MimeStatusGridCells | cdxsummary/summarizer.py:55-62 | each cell holds exactly the input counts whose MIME type and status classify to it |
| Summarizer.Footers | cdxsummary/summarizer.py:104-105 | each column footer is that column's sum over the rows |
| Summarizer.ShownRows | cdxsummary/summarizer.py:107-110 | only rows with a non-zero total are shown |
| Summarizer.ShownRowsAreNonZero | cdxsummary/summarizer.py:107-110 | a grid row is shown exactly when its total is not zero |
| Summarizer.ShownRowsTotal | cdxsummary/summarizer.py:107-110 | the shown row totals add up to the grid total |
| Summarizer.MimeStatusFigures | cdxsummary/summarizer.py:100-111 | the figures exist exactly when every row has every code group (otherwise a KeyError); the footer under each code group is that group's column sum over all rows, in code group order, the TOTAL footer is the captures, and the rows are exactly the rows with a non-zero total |
| Summarizer.GridFiguresAddUp | cdxsummary/summarizer.py:55-111 | on a re-bucketed grid the figures exist, and both the footers and the shown row totals add up to the grid total |
| Summarizer.ReportHostFigures | cdxsummary/summarizer.py:116-120 | on an analyzer's report the OTHERS host count and its captures are never negative |
| Cli.IdOf | cdxsummary/__main__.py:23 | the item id is non-empty and slash-free, followed by at most a slash and a final newline |
| Cli.ItemIdAsWritten | cdxsummary/__main__.py:23 | as written, a matched item id is non-empty and slash-free |
| Cli.ItemIdRefines | cdxsummary/__main__.py:23 | whatever the pattern matches with a literal dot it also matches as written, with the same id, since the wildcard accepts the dot |
| Cli.ItemId | cdxsummary/__main__.py:23 | with the dot read literally, an item id is found only after the scheme and `archive.org/` |
| Cli.ItemIdIsArchive | cdxsummary/__main__.py:23 | an item URL starts with `http://archive.org/` or `https://archive.org/`, ignoring case |
| Cli.GetInputUrlAsWritten | cdxsummary/__main__.py:45-58 | as written: no input gives nothing; a match of the item pattern, read with its unescaped dot, gives the item's CDX file; otherwise `--item` treats the input as an id; otherwise an http(s) URL is kept, and anything else gives nothing |
| Cli.GetInputUrl | cdxsummary/__main__.py:45-58 | with the dot of the item pattern read literally (the corrected reading): no input gives nothing; an item URL gives the item's CDX file; otherwise `--item` treats the input as an id; otherwise an http(s) URL is kept, and anything else gives nothing |
| Cli.LookalikeResolved | cdxsummary/__main__.py:23-51 | as written, `https://archive` + any character other than a dot or newline + `org/download/<id>` is taken as the item `<id>`; with the literal dot it is kept as a plain URL |
| Cli.IdOfDownloadTail | cdxsummary/__main__.py:23-51 | what follows the section in a CDX file URL is no item id |
| Cli.DownloadUrlIsPlainUrl | cdxsummary/__main__.py:23-51 | the CDX file URL of any id is an http(s) URL and not an item page, under either reading of the dot |
| Cli.ResultIsUrl | cdxsummary/__main__.py:45-58 | every URL the command line resolves to is an http(s) URL |
| Cli.ResolveIdempotent | cdxsummary/__main__.py:45-58 | resolving a resolved URL again, without `--item`, gives the same URL |
| Cli.ResultIsUrlAsWritten | cdxsummary/__main__.py:45-58 | as written too, every URL the command line resolves to is an http(s) URL |
| Cli.ResolveIdempotentAsWritten | cdxsummary/__main__.py:45-58 | as written too, resolving a resolved URL again, without `--item`, gives the same URL |
| Cli.IdOfIdentifier | cdxsummary/__main__.py:23 | an id followed by nothing or one slash is taken whole |
| Cli.ItemPageId | cdxsummary/__main__.py:23 | the details or download page of an id, with or without a trailing slash, matches with that id |
| Cli.ItemPageResolves | cdxsummary/__main__.py:48-51 | an item's https details or download page, with or without a trailing slash, resolves to that item's CDX file, with or without `--item` |
| Cli.ItemPageResolvesAsWritten | cdxsummary/__main__.py:45-51 | as written too, an item's https details or download page, with or without a trailing slash, resolves to that item's CDX file, with or without `--item` |
| WebComponent.NumSumValues | webcomponent/cdxsummary.js:33-35 | `numSum(Object.values(row))` is the row's total |
| WebComponent.NumSumConcat | webcomponent/cdxsummary.js:33-35 | the sum of a concatenation is the sum of the sums |
| WebComponent.Substring | webcomponent/cdxsummary.js:18 | `substring` of an in-range span is that slice, and both ends past the end give "" |
| WebComponent.ToDate | webcomponent/cdxsummary.js:17-19 | a timestamp of 8 or more characters gives YYYY-MM-DD from its first eight; an empty one gives `--` |
| WebComponent.DateSplits | webcomponent/cdxsummary.js:17-19 | splitting the date at its dashes gives back year, month and day |
| WebComponent.RecordDate | webcomponent/cdxsummary.js:17-19 | on a well-formed record, the date shows the record's year, month and day fields |
| WebComponent.AddCells | webcomponent/cdxsummary.js:89-90 | adding one row to the column sums adds no column and drops none |
| WebComponent.AddCellsValue | webcomponent/cdxsummary.js:89-90 | a row adds its cell to a column sum once for every time the column is listed |
| WebComponent.RepeatedValue | webcomponent/cdxsummary.js:90 | adding a number k times adds k times that number, unless NaN is involved |
| WebComponent.ColSums | webcomponent/cdxsummary.js:74-92 | the column sums have exactly the listed columns as keys |
| WebComponent.ColSumsValue | webcomponent/cdxsummary.js:74-92 | a column sum is NaN if any row lacks the column, and otherwise the column's sum times how often the column is listed |
| WebComponent.HasColumnEvery | webcomponent/cdxsummary.js:90 | a column is present throughout exactly when every row has the key |
| WebComponent.RowOf | webcomponent/cdxsummary.js:86-94 | a row's cells are its lookups under the columns, and its TOTAL is the sum of all its values |
| WebComponent.GridTable | webcomponent/cdxsummary.js:70-107 | throws exactly when no columns are given and the grid is empty; the columns are the given ones or the first row's keys; the footer shows exactly when there is more than one row, with the column sums and the captures |
| WebComponent.RowsTotal | webcomponent/cdxsummary.js:93 | the TOTAL column adds up to the grid total |
| WebComponent.FooterIsColumnSums | webcomponent/cdxsummary.js:74-101 | with distinct columns that every row has, each footer cell is that column's sum |
| WebComponent.FooterSum | webcomponent/cdxsummary.js:101 | footer cells that are the column sums add up to the columns' total |
| WebComponent.GridTotalsAgree | webcomponent/cdxsummary.js:89-102 | when every row has exactly the distinct columns, the footer cells and the TOTAL column both add up to the grid total |
| WebComponent.MissingCellIsNaN | webcomponent/cdxsummary.js:90-101 | a row lacking a listed column turns that column's footer into NaN |
| WebComponent.SortStrings | webcomponent/cdxsummary.js:194 | `sort()` gives an ascending permutation of the keys |
| WebComponent.YearMonthTable | webcomponent/cdxsummary.js:194 | throws exactly when there is no year; the columns are the first year's months, sorted ascending |
| WebComponent.SameLongTailAsCli | webcomponent/cdxsummary.js:109-135 | the OTHERS count, its captures and whether the row shows are those of the command-line summary for the same figures |
| WebComponent.ReportUrl | webcomponent/cdxsummary.js:158 | a source ending in `.summary.json` gets `.report.json.gz` in place of that suffix, and any other source is left as is |
| WebComponent.ItemReportUrl | webcomponent/cdxsummary.js:158-226 | an item's report URL sits beside its summary URL |
| WebComponent.ItemFromSummaryUrl | webcomponent/cdxsummary.js:226 | a slash-free item is read back from its summary URL |
| WebComponent.Connect | webcomponent/cdxsummary.js:222-228 | a non-empty `src` wins, otherwise a non-empty `item` names its summary; the message is the loading one exactly when one of them is given, and otherwise the missing-attribute one |
| WebComponent.Fetched | webcomponent/cdxsummary.js:213-218 | a fetched summary replaces the data and so clears the message; a failed fetch sets the unavailable message; without a source nothing is fetched |
| WebComponent.PageOf | webcomponent/cdxsummary.js:155-210 | the page renders exactly when all three grids have a row; it shows the summary and report URLs, the `toDate` of the first and last captures, the three grid tables (the year grid with its sorted months), the top hosts figures and the counts of hosts and samples |
| WebComponent.Render | webcomponent/cdxsummary.js:148-153 | a set message is shown alone, exactly when it is non-empty; otherwise the summary's page when it renders, and a throw exactly when there is no summary or its page does not render |
| WebComponent.Lifecycle | webcomponent/cdxsummary.js:222-284 | without a source the one render shows the missing-attribute message and nothing is fetched; with one the first render shows "Loading summary...", and the render after the fetch shows the page or the unavailable message |

## Left out

- Reading the input is not modelled: files, standard input, gzip and bz2, HTTP sessions and
  the API server. The analyzer takes the lines as strings, so `line.decode()` is not modelled.
- Argument parsing and the main program's exit paths are not modelled. `get_input_url` takes
  the input and the `--item` flag as parameters.
- Terminal and HTML presentation is left out: rich tables, markup, and the literal text
  `false` that `cond && ...` writes into the page when the condition fails.
- Number and date formatting is left out: `intcomma`, `naturalsize`, `naturaldate`, `toFs`,
  `toPerc` and `Intl.NumberFormat`. These involve floating point and locale rules.
- JSON loading and dumping is not modelled, including `CDXAnalyzer.load`. The web component
  takes the fetched summary as an already parsed `Summary`, or as nothing when the fetch or
  the JSON parse fails, and assumes it has no `msg` key.
- `\s` follows Python's whitespace set. `\d`, `int()`, `lower()` and the pattern's IGNORECASE
  are modelled on ASCII only, so Unicode digits and case folding are not covered.
- Analyzer.Init: a negative sample size and a caller-supplied `urlsampler` are not modelled.
  The sample size is a `nat`.
- Sampler.Offer: the draw of `random()` is a parameter, and no claim is made about the
  distribution of the samples.
- Sampler.Offer: the source's test `random() < 1 / (quotient + 1)` divides in floating
  point. The model compares exactly, as `r * (quotient + 1) < 1` (Sampler.Accepts, with the
  product from Sampler.TimesIsProduct), so a draw within rounding of the bound may be
  accepted in one and refused in the other.
- The summarizer reads `report["media"]` while the analyzer's report names that grid
  `mimestatus` (summarizer.py:76 against analyzer.py:56). The model feeds the MIME/status
  grid to the summarizer directly and does not model the `KeyError` that key mismatch raises.
- Analyzer.MakeReport: the source removes every occurrence of the sentinel (`replace("9" * 14, "")`),
  and the model tests for the whole sentinel. The two agree on every value `first` and `last`
  can hold, which is the sentinel or a 14-digit timestamp.
- Cli.ItemIdAsWritten: its own contract says only that a matched id is non-empty and
  slash-free. That it returns the same id as Cli.ItemId wherever Cli.ItemId matches is the
  separate lemma Cli.ItemIdRefines.
- Counts.MostCommon: among hosts with equal counts the model keeps them in insertion order
  (a stable sort), as CPython does. The source documents no tie order.
- WebComponent: JavaScript numbers are modelled as exact integers (or NaN). Counts beyond
  2^53 are not modelled.
- WebComponent: JavaScript puts integer-like object keys first, in numeric order. The model
  keeps every key in insertion order. Years are such keys, so in WebComponent.GridTable and
  WebComponent.YearMonthTable the page takes its year columns from the numerically smallest
  year, where the model takes the first year inserted. The raw status codes ("200", "404")
  are such keys too, so in WebComponent.GridTable the page puts the MIME/status columns in
  numeric order, ahead of "-", where the model keeps the first row's order.
- WebComponent.SortStrings: JavaScript's default `sort` compares UTF-16 code units, and the
  model compares code points. They differ only on characters outside the Basic
  Multilingual Plane.
- WebComponent: the sample list, the overview table and the `toFs` sizes are markup and
  formatting only, and are not modelled.

## Findings

| source | as written | input that shows it | evidently intended | confidence | as-written member | corrected member |
|---|---|---|---|---|---|---|
| cdxsummary/analyzer.py:22 | `url.replace(":80/", "", 1)` deletes the default port together with the slash after it | `http://h:80/p` is sampled as `http://hp` | remove only `:80`, giving `http://h/p` | not executed | Analyzer.SamplePartsAsWrittenGluesPath | Analyzer.SamplePartsDropsPort |
| cdxsummary/__main__.py:23 | the `.` in `archive.org` of ITEMURL is unescaped, so it matches any character but a newline | `https://archiveXorg/download/x` resolves to `https://archive.org/download/x/x.cdx.gz` | only the host `archive.org` is an item URL | not executed | Cli.LookalikeResolved | Cli.ItemIdIsArchive |

=== FILE: analyzer.dfy ===
/** The streaming summary of a CDX file (cdxsummary/analyzer.py): one pass over the lines,
    counting captures, runs of SURTs and hosts, the first and last capture times, the bytes,
    the captures per host and three two-level count grids, and offering HTML captures to the
    URL sampler. `Run` is that pass; `MakeReport` is `_report`. */
module Analyzer {
  import opened Wrappers
  import opened Strings
  import opened Counts
  import opened Streams
  import opened Parser
  import S = Sampler

  /** A sampled capture: its timestamp and its URL. */
  type Sample = (string, string)

  /** The sentinels `first` and `last` start from, above and below every timestamp. */
  const NoFirst: string := Repeat('9', 14)
  const NoLast: string := Repeat('0', 14)

  // ------------------------------------------------------------------ sampling helpers

  /** `_sample_candidate`: a successful HTML capture that is not a robots.txt file. */
  predicate SampleCandidate(r: CdxRecord) {
    r.status == "200" && r.mime == "text/html" && !EndsWith(r.surt, "/robots.txt")
  }

  /** `_sample_parts` as written: the first `:80/` is deleted together with its slash. */
  function SamplePartsAsWritten(r: CdxRecord): (p: Sample)
    ensures p.0 == r.datetime
    ensures Find(r.url, ":80/").None? ==> p.1 == r.url
    ensures Find(r.url, ":80/").Some? ==> |p.1| == |r.url| - 4
  {
    (r.datetime, ReplaceFirst(r.url, ":80/", ""))
  }

  /** `_sample_parts` with the default port removed and the path's slash kept. */
  function SampleParts(r: CdxRecord): (p: Sample)
    ensures p.0 == r.datetime
    ensures Find(r.url, ":80/").None? ==> p.1 == r.url
  {
    (r.datetime, ReplaceFirst(r.url, ":80/", "/"))
  }

  /** The corrected parts drop exactly the three characters `:80` at the first `:80/`: putting
      them back gives the URL, and what follows the host still starts with `/`. */
  lemma SamplePartsDropsPort(r: CdxRecord, i: nat)
    requires Find(r.url, ":80/") == Some(i)
    ensures var u := SampleParts(r).1;
            && |u| == |r.url| - 3
            && u[..i] + ":80" + u[i..] == r.url
            && u[i] == '/'
  {
    assert ":80/" == ":80" + ['/'];
    ReplaceKeepsLast(r.url, ":80", '/', i);
  }

  /** As written, the four characters removed are exactly the first `:80/`: putting them back
      at that position gives the URL. */
  lemma SamplePartsAsWrittenRemoves(r: CdxRecord, i: nat)
    requires Find(r.url, ":80/") == Some(i)
    ensures var u := SamplePartsAsWritten(r).1;
            && |u| == |r.url| - 4
            && u[..i] + ":80/" + u[i..] == r.url
  {
    ReplaceRemoves(r.url, ":80/", i);
  }

  /** As written, the slash goes too: `http://h:80/p` is sampled as `http://hp`, where the
      corrected reading gives `http://h/p`. */
  lemma SamplePartsAsWrittenGluesPath(r: CdxRecord)
    requires r.url == "http://h:80/p"
    ensures SamplePartsAsWritten(r).1 == "http://hp"
    ensures SampleParts(r).1 == "http://h/p"
  {
    var u := r.url;
    assert OccursAt(u, ":80/", 8);
    forall j | 0 <= j < 8 ensures !OccursAt(u, ":80/", j) {
      assert u[j..j + 4][0] == u[j] && u[j..j + 4][1] == u[j + 1];
    }
    assert Find(u, ":80/") == Some(8);
  }

  // ------------------------------------------------------------------ top hosts

  /** A SURT host `com,example,www` as a domain name `www.example.com`. */
  function TopHostName(host: string): string {
    Join(Reverse(Split(host, ',')), '.')
  }

  /** The inverse mapping, back from a domain name to a SURT host. */
  function SurtHost(name: string): string {
    Join(Reverse(Split(name, '.')), ',')
  }

  /** A host without dots is recovered from its domain name, so distinct dot-free hosts get
      distinct names. */
  lemma SurtHostOfName(host: string)
    requires '.' !in host
    ensures SurtHost(TopHostName(host)) == host
  {
    var parts := Split(host, ',');
    JoinWithout(parts, ',', '.');
    var rev := Reverse(parts);
    assert forall i :: 0 <= i < |rev| ==> '.' !in rev[i];
    SplitJoin(rev, '.');
    assert Reverse(rev) == parts;
  }

  lemma TopHostNameInjective(h1: string, h2: string)
    requires '.' !in h1 && '.' !in h2 && TopHostName(h1) == TopHostName(h2)
    ensures h1 == h2
  {
    SurtHostOfName(h1);
    SurtHostOfName(h2);
  }

  /** The ranked pairs keyed by `names` instead, assigned in order into a dictionary: a
      repeated name keeps its first place and takes the later count, so the result is never
      longer than its input and its total never larger. */
  function Rekey(th: Counter, names: seq<string>): (r: Counter)
    requires |names| == |th|
    ensures |r| <= |th|
    ensures Total(r) <= Total(th)
  {
    if |th| == 0 then []
    else
      var m := |th| - 1;
      var prev := Rekey(th[..m], names[..m]);
      TotalSnoc(th[..m], th[m]);
      assert th == th[..m] + [th[m]];
      TotalPut(prev, names[m], th[m].1);
      PutKeys(prev, names[m], th[m].1);
      var r := Put<nat>(prev, names[m], th[m].1);
      assert |r| == |Keys(r)| && |prev| == |Keys(prev)|;
      r
  }

  lemma RekeyStep(th: Counter, names: seq<string>)
    requires |names| == |th| > 0
    ensures Rekey(th, names)
            == Put<nat>(Rekey(th[..|th| - 1], names[..|th| - 1]), names[|th| - 1], th[|th| - 1].1)
  {
  }

  /** Every name is a key of the result. */
  lemma {:induction false} RekeyKeys(th: Counter, names: seq<string>, i: nat)
    requires |names| == |th| && i < |names|
    ensures Get(Rekey(th, names), names[i]).Some?
  {
    var m := |th| - 1;
    RekeyStep(th, names);
    if i == m || names[i] == names[m] {
      PutGetSame(Rekey(th[..m], names[..m]), names[m], th[m].1);
    } else {
      assert i < m;
      RekeyKeys(th[..m], names[..m], i);
      PutGetOther(Rekey(th[..m], names[..m]), names[m], th[m].1, names[i]);
    }
  }

  /** With distinct names, every pair keeps its count and its place under its new name. */
  lemma {:induction false} RekeyDistinct(th: Counter, names: seq<string>)
    requires |names| == |th| && Unique(names)
    ensures |Rekey(th, names)| == |th|
    ensures forall i :: 0 <= i < |th| ==> Rekey(th, names)[i] == (names[i], th[i].1)
  {
    if |th| > 0 {
      var m := |th| - 1;
      assert Unique(names[..m]);
      RekeyDistinct(th[..m], names[..m]);
      var prev := Rekey(th[..m], names[..m]);
      assert Keys(prev) == names[..m];
      assert names[m] !in names[..m];
      PutAppends(prev, names[m], th[m].1);
      RekeyStep(th, names);
      RekeyLast(th, names, prev);
    }
  }

  /** The last pair appended to the renamed prefix keeps every pair in place. */
  lemma RekeyLast(th: Counter, names: seq<string>, prev: Counter)
    requires |names| == |th| > 0
    requires |prev| == |th| - 1
    requires forall i :: 0 <= i < |th| - 1 ==> prev[i] == (names[..|th| - 1][i], th[..|th| - 1][i].1)
    ensures forall i :: 0 <= i < |th| ==>
              (prev + [(names[|th| - 1], th[|th| - 1].1)])[i] == (names[i], th[i].1)
  {
  }

  /** The display names of the ranked hosts, in rank order. */
  function Names(th: Counter): (ns: seq<string>)
    ensures |ns| == |th|
    ensures forall i :: 0 <= i < |th| ==> ns[i] == TopHostName(th[i].0)
  {
    seq(|th|, i requires 0 <= i < |th| => TopHostName(th[i].0))
  }

  /** `_top_hosts`: the ranked pairs keyed by display name. Every ranked host's name is a
      key; the result is never longer than the ranking and never holds more captures. */
  function TopHosts(th: Counter): (r: Counter)
    ensures |r| <= |th|
    ensures Total(r) <= Total(th)
    ensures forall i :: 0 <= i < |th| ==> Get(r, Names(th)[i]).Some?
  {
    forall i | 0 <= i < |th| ensures Get(Rekey(th, Names(th)), Names(th)[i]).Some? {
      RekeyKeys(th, Names(th), i);
    }
    Rekey(th, Names(th))
  }

  /** When the hosts give distinct names (as distinct dot-free hosts do), `_top_hosts` renames
      each host and keeps every count, in the same order. */
  lemma TopHostsRenames(th: Counter)
    requires Unique(Names(th))
    ensures |TopHosts(th)| == |th|
    ensures forall i :: 0 <= i < |th| ==> TopHosts(th)[i] == (TopHostName(th[i].0), th[i].1)
  {
    RekeyDistinct(th, Names(th));
  }

  // ------------------------------------------------------------------ the analyzer

  datatype Analyzer = Analyzer(
    maxhosts: Option<int>,
    captures: nat, urls: nat, hosts: nat, bytes: nat,
    first: string, last: string,
    tophosts: Counter,
    mimestatus: Grid, pathquery: Grid, yearmonth: Grid,
    sampler: S.Sampler<Sample>)

  /** `CDXAnalyzer(samplesize, maxhosts=...)`: zero counts, the timestamp sentinels, empty
      grids, and a dynamic sampler of `samplesize` slots, or a slotless base sampler when
      `samplesize` is 0. */
  function Init(samplesize: nat, maxhosts: Option<int>): (a: Analyzer)
    ensures a.maxhosts == maxhosts
    ensures a.captures == 0 && a.urls == 0 && a.hosts == 0 && a.bytes == 0
    ensures a.first == NoFirst && a.last == NoLast
    ensures a.tophosts == [] && a.mimestatus == [] && a.pathquery == [] && a.yearmonth == []
    ensures S.Ready(a.sampler) && (a.sampler.dynamic <==> samplesize != 0)
    ensures |a.sampler.slots| == samplesize && S.Samples(a.sampler) == []
  {
    var sampler := S.New<Sample>(samplesize, samplesize != 0);
    S.PresentPrefix(sampler.slots, []);
    Analyzer(maxhosts, 0, 0, 0, 0, NoFirst, NoLast, [], [], [], [], sampler)
  }

  /** The three grids the analyzer fills. */
  datatype GridKind = MimeStatus | PathQuery | YearMonth

  function GridOf(a: Analyzer, kind: GridKind): Grid {
    match kind
    case MimeStatus => a.mimestatus
    case PathQuery => a.pathquery
    case YearMonth => a.yearmonth
  }

  /** The row and column a record is counted under in each grid: MIME type and status;
      `P<pathlen>` and `Q<querylen>`; year and month. */
  function Cell(kind: GridKind, r: CdxRecord): (string, string) {
    match kind
    case MimeStatus => (r.mime, r.status)
    case PathQuery => ("P" + NatToString(r.pathlen), "Q" + NatToString(r.querylen))
    case YearMonth => (r.year, r.month)
  }

  /** `int(cr.bytes)` when it succeeds, and nothing otherwise. */
  function BytesValue(f: string): (n: nat)
    ensures f == "" || f == "-" ==> n == 0
    ensures IsDigits(f) ==> n == NatValue(f)
  {
    if IsDigits(f) then NatValue(f) else 0
  }

  /** The loop's state: the analyzer and the previous SURT and host. */
  datatype Pass = Pass(a: Analyzer, prevSurt: string, prevHost: string)

  /** The body of the loop for a parsed record. */
  function Record(p: Pass, cr: CdxRecord, r: real): (q: Pass)
    requires S.Ready(p.a.sampler)
    ensures S.Ready(q.a.sampler) && q.a.maxhosts == p.a.maxhosts
    ensures q.prevSurt == cr.surt && q.prevHost == cr.host
  {
    var a := p.a;
    var pq := Cell(PathQuery, cr);
    Pass(
      a.(captures := a.captures + 1,
         urls := if p.prevSurt != cr.surt then a.urls + 1 else a.urls,
         first := if LexLess(cr.datetime, a.first) then cr.datetime else a.first,
         last := if LexLess(a.last, cr.datetime) then cr.datetime else a.last,
         bytes := a.bytes + BytesValue(cr.bytes),
         tophosts := Add(a.tophosts, cr.host, 1),
         hosts := if p.prevHost != cr.host then a.hosts + 1 else a.hosts,
         pathquery := GridAdd(a.pathquery, pq.0, pq.1, 1),
         yearmonth := GridAdd(a.yearmonth, cr.year, cr.month, 1),
         mimestatus := GridAdd(a.mimestatus, cr.mime, cr.status, 1),
         sampler := S.Offer(a.sampler, SampleCandidate, SamplePartsAsWritten, cr, r)),
      cr.surt, cr.host)
  }

  /** One line, read as `CDXRecord(line)` reads it; a line that raises is skipped. */
  function ParseLine(line: string): (item: Option<CdxRecord>)
    ensures item.None? <==> Parse(line).Err?
    ensures item.Some? ==> item.value == Parse(line).value && WellFormed(item.value)
  {
    match Parse(line)
    case Ok(cr) => Some(cr)
    case Err(_) => None
  }

  function ParseLines(lines: seq<string>): (items: seq<Option<CdxRecord>>)
    ensures |items| == |lines|
    ensures forall i :: 0 <= i < |lines| ==> items[i] == ParseLine(lines[i])
  {
    seq(|lines|, i requires 0 <= i < |lines| => ParseLine(lines[i]))
  }

  /** One iteration: a line that did not parse changes nothing at all, not even the
      previous SURT or host. */
  function Step(p: Pass, item: Option<CdxRecord>, r: real): (q: Pass)
    requires S.Ready(p.a.sampler)
    ensures S.Ready(q.a.sampler) && q.a.maxhosts == p.a.maxhosts
    ensures item.None? ==> q == p
    ensures item.Some? ==> q.a.captures == p.a.captures + 1
  {
    match item
    case None => p
    case Some(cr) => Record(p, cr, r)
  }

  /** The loop over the lines, `draws[i]` being what `random()` returns if the `i`th line
      reaches the sampler's draw. */
  function Run(p: Pass, items: seq<Option<CdxRecord>>, draws: seq<real>): (q: Pass)
    requires S.Ready(p.a.sampler) && |draws| == |items|
    ensures S.Ready(q.a.sampler) && q.a.maxhosts == p.a.maxhosts
  {
    if |items| == 0 then p
    else
      var m := |items| - 1;
      Step(Run(p, items[..m], draws[..m]), items[m], draws[m])
  }

  /** `analyzer(cdx)`: the loop starts with no previous SURT or host. */
  function Call(a: Analyzer, lines: seq<string>, draws: seq<real>): (b: Analyzer)
    requires S.Ready(a.sampler) && |draws| == |lines|
    ensures S.Ready(b.sampler) && b.maxhosts == a.maxhosts
  {
    Run(Pass(a, "", ""), ParseLines(lines), draws).a
  }

  // ------------------------------------------------------------------ reference views

  /** The records of the lines that parse, in order. */
  function Records(items: seq<Option<CdxRecord>>): (recs: seq<CdxRecord>)
    ensures |recs| <= |items|
  {
    if |items| == 0 then []
    else
      var m := |items| - 1;
      match items[m]
      case Some(cr) => Records(items[..m]) + [cr]
      case None => Records(items[..m])
  }

  /** Every record kept is one of the items. */
  lemma {:induction false} RecordsFrom(items: seq<Option<CdxRecord>>, i: nat)
    requires i < |Records(items)|
    ensures Some(Records(items)[i]) in items
  {
    var m := |items| - 1;
    RecordsSnoc(items);
    if i < |Records(items[..m])| {
      RecordsFrom(items[..m], i);
      assert items[..m] <= items;
    }
  }

  /** Every record read from the lines is well formed. */
  lemma ParsedRecords(lines: seq<string>)
    ensures forall i :: 0 <= i < |Records(ParseLines(lines))| ==> WellFormed(Records(ParseLines(lines))[i])
  {
    var items := ParseLines(lines);
    var recs := Records(items);
    forall i | 0 <= i < |recs| ensures WellFormed(recs[i]) {
      RecordsFrom(items, i);
      var j :| 0 <= j < |items| && items[j] == Some(recs[i]);
      assert items[j] == ParseLine(lines[j]);
    }
  }

  /** The draws that belong to the lines that parse. */
  function RecordDraws(items: seq<Option<CdxRecord>>, draws: seq<real>): (ds: seq<real>)
    requires |draws| == |items|
    ensures |ds| == |Records(items)|
    ensures forall d :: d in ds ==> d in draws
  {
    if |items| == 0 then []
    else
      var m := |items| - 1;
      assert forall d :: d in draws[..m] ==> d in draws;
      match items[m]
      case Some(cr) => RecordDraws(items[..m], draws[..m]) + [draws[m]]
      case None => RecordDraws(items[..m], draws[..m])
  }

  function Surts(recs: seq<CdxRecord>): (xs: seq<string>)
    ensures |xs| == |recs| && forall i :: 0 <= i < |recs| ==> xs[i] == recs[i].surt
  {
    seq(|recs|, i requires 0 <= i < |recs| => recs[i].surt)
  }

  function Hosts(recs: seq<CdxRecord>): (xs: seq<string>)
    ensures |xs| == |recs| && forall i :: 0 <= i < |recs| ==> xs[i] == recs[i].host
  {
    seq(|recs|, i requires 0 <= i < |recs| => recs[i].host)
  }

  function Datetimes(recs: seq<CdxRecord>): (xs: seq<string>)
    ensures |xs| == |recs| && forall i :: 0 <= i < |recs| ==> xs[i] == recs[i].datetime
  {
    seq(|recs|, i requires 0 <= i < |recs| => recs[i].datetime)
  }

  function Cells(kind: GridKind, recs: seq<CdxRecord>): (xs: seq<(string, string)>)
    ensures |xs| == |recs| && forall i :: 0 <= i < |recs| ==> xs[i] == Cell(kind, recs[i])
  {
    seq(|recs|, i requires 0 <= i < |recs| => Cell(kind, recs[i]))
  }

  /** The sum of the byte fields that `int()` accepts. */
  function SumBytes(recs: seq<CdxRecord>): nat {
    if |recs| == 0 then 0 else SumBytes(recs[..|recs| - 1]) + BytesValue(recs[|recs| - 1].bytes)
  }

  // ------------------------------------------------------------------ the loop, step by step

  /** The last iteration of `Run`, field by field: a line that did not parse changes
      nothing, and a record updates each field as the loop body does. */
  lemma SnocCaptures(p: Pass, items: seq<Option<CdxRecord>>, draws: seq<real>)
    requires S.Ready(p.a.sampler) && |draws| == |items| && |items| > 0
    ensures var m := |items| - 1;
            Run(p, items, draws).a.captures
            == Run(p, items[..m], draws[..m]).a.captures + (if items[m].Some? then 1 else 0)
  {
  }

  lemma SnocUrls(p: Pass, items: seq<Option<CdxRecord>>, draws: seq<real>)
    requires S.Ready(p.a.sampler) && |draws| == |items| && |items| > 0
    ensures var m := |items| - 1;
            var prev := Run(p, items[..m], draws[..m]);
            Run(p, items, draws).a.urls
            == prev.a.urls + (if items[m].Some? && items[m].value.surt != prev.prevSurt then 1 else 0)
  {
  }

  lemma SnocPrevSurt(p: Pass, items: seq<Option<CdxRecord>>, draws: seq<real>)
    requires S.Ready(p.a.sampler) && |draws| == |items| && |items| > 0
    ensures var m := |items| - 1;
            Run(p, items, draws).prevSurt
            == if items[m].Some? then items[m].value.surt else Run(p, items[..m], draws[..m]).prevSurt
  {
    var m := |items| - 1;
    StepPrev(Run(p, items[..m], draws[..m]), items[m], draws[m]);
  }

  lemma StepPrev(p: Pass, item: Option<CdxRecord>, r: real)
    requires S.Ready(p.a.sampler)
    ensures item.Some? ==> Step(p, item, r).prevSurt == item.value.surt && Step(p, item, r).prevHost == item.value.host
  {
  }

  lemma SnocHostRuns(p: Pass, items: seq<Option<CdxRecord>>, draws: seq<real>)
    requires S.Ready(p.a.sampler) && |draws| == |items| && |items| > 0
    ensures var m := |items| - 1;
            var prev := Run(p, items[..m], draws[..m]);
            Run(p, items, draws).a.hosts
            == prev.a.hosts + (if items[m].Some? && items[m].value.host != prev.prevHost then 1 else 0)
  {
  }

  lemma SnocPrevHost(p: Pass, items: seq<Option<CdxRecord>>, draws: seq<real>)
    requires S.Ready(p.a.sampler) && |draws| == |items| && |items| > 0
    ensures var m := |items| - 1;
            Run(p, items, draws).prevHost
            == if items[m].Some? then items[m].value.host else Run(p, items[..m], draws[..m]).prevHost
  {
    var m := |items| - 1;
    StepPrev(Run(p, items[..m], draws[..m]), items[m], draws[m]);
  }

  lemma SnocBytes(p: Pass, items: seq<Option<CdxRecord>>, draws: seq<real>)
    requires S.Ready(p.a.sampler) && |draws| == |items| && |items| > 0
    ensures var m := |items| - 1;
            var prev := Run(p, items[..m], draws[..m]).a;
            var q := Run(p, items, draws).a;
            q.bytes == prev.bytes + (if items[m].Some? then BytesValue(items[m].value.bytes) else 0)
  {
  }

  lemma SnocFirst(p: Pass, items: seq<Option<CdxRecord>>, draws: seq<real>)
    requires S.Ready(p.a.sampler) && |draws| == |items| && |items| > 0
    ensures var m := |items| - 1;
            var prev := Run(p, items[..m], draws[..m]).a;
            Run(p, items, draws).a.first
            == if items[m].Some? && LexLess(items[m].value.datetime, prev.first) then items[m].value.datetime else prev.first
  {
  }

  lemma SnocLast(p: Pass, items: seq<Option<CdxRecord>>, draws: seq<real>)
    requires S.Ready(p.a.sampler) && |draws| == |items| && |items| > 0
    ensures var m := |items| - 1;
            var prev := Run(p, items[..m], draws[..m]).a;
            Run(p, items, draws).a.last
            == if items[m].Some? && LexLess(prev.last, items[m].value.datetime) then items[m].value.datetime else prev.last
  {
  }

  lemma SnocHosts(p: Pass, items: seq<Option<CdxRecord>>, draws: seq<real>)
    requires S.Ready(p.a.sampler) && |draws| == |items| && |items| > 0
    ensures var m := |items| - 1;
            var prev := Run(p, items[..m], draws[..m]).a;
            var q := Run(p, items, draws).a;
            && (items[m].None? ==> q.tophosts == prev.tophosts)
            && (items[m].Some? ==> q.tophosts == Add(prev.tophosts, items[m].value.host, 1))
  {
  }

  lemma SnocGrid(p: Pass, items: seq<Option<CdxRecord>>, draws: seq<real>, kind: GridKind)
    requires S.Ready(p.a.sampler) && |draws| == |items| && |items| > 0
    ensures var m := |items| - 1;
            var prev := Run(p, items[..m], draws[..m]).a;
            var q := Run(p, items, draws).a;
            && (items[m].None? ==> GridOf(q, kind) == GridOf(prev, kind))
            && (items[m].Some? ==>
                  var c := Cell(kind, items[m].value);
                  GridOf(q, kind) == GridAdd(GridOf(prev, kind), c.0, c.1, 1))
  {
  }

  lemma SnocSampler(p: Pass, items: seq<Option<CdxRecord>>, draws: seq<real>)
    requires S.Ready(p.a.sampler) && |draws| == |items| && |items| > 0
    ensures var m := |items| - 1;
            var prev := Run(p, items[..m], draws[..m]).a;
            var q := Run(p, items, draws).a;
            && (items[m].None? ==> q.sampler == prev.sampler)
            && (items[m].Some? ==>
                  q.sampler == S.Offer(prev.sampler, SampleCandidate, SamplePartsAsWritten, items[m].value, draws[m]))
  {
  }

  /** The last line seen through `Records`. */
  lemma RecordsSnoc(items: seq<Option<CdxRecord>>)
    requires |items| > 0
    ensures var m := |items| - 1;
            && (items[m].None? ==> Records(items) == Records(items[..m]))
            && (items[m].Some? ==> Records(items) == Records(items[..m]) + [items[m].value])
  {
  }

  // The last line's effect on each reference view, stated without sequence equalities.

  lemma RecordsCount(items: seq<Option<CdxRecord>>)
    requires |items| > 0
    ensures var m := |items| - 1;
            |Records(items)| == |Records(items[..m])| + (if items[m].Some? then 1 else 0)
  {
    RecordsSnoc(items);
  }

  lemma HostsOccSnoc(items: seq<Option<CdxRecord>>, h: string)
    requires |items| > 0
    ensures var m := |items| - 1;
            Occ(Hosts(Records(items)), h)
            == Occ(Hosts(Records(items[..m])), h) + (if items[m].Some? && items[m].value.host == h then 1 else 0)
  {
    var m := |items| - 1;
    RecordsSnoc(items);
    if items[m].Some? {
      var recs := Records(items[..m]);
      HostsSnoc(recs, items[m].value);
      OccSnoc(Hosts(recs), items[m].value.host, h);
    }
  }

  lemma HostsInSnoc(items: seq<Option<CdxRecord>>, h: string)
    requires |items| > 0
    ensures var m := |items| - 1;
            h in Hosts(Records(items))
            <==> h in Hosts(Records(items[..m])) || (items[m].Some? && items[m].value.host == h)
  {
    var m := |items| - 1;
    RecordsSnoc(items);
    if items[m].Some? {
      var recs := Records(items[..m]);
      HostsSnoc(recs, items[m].value);
      assert h in Hosts(recs) + [items[m].value.host] <==> h in Hosts(recs) || h == items[m].value.host;
    }
  }

  lemma CellsOccSnoc(items: seq<Option<CdxRecord>>, kind: GridKind, x: (string, string))
    requires |items| > 0
    ensures var m := |items| - 1;
            Occ(Cells(kind, Records(items)), x)
            == Occ(Cells(kind, Records(items[..m])), x)
               + (if items[m].Some? && Cell(kind, items[m].value) == x then 1 else 0)
  {
    var m := |items| - 1;
    var recs := Records(items[..m]);
    RecordsSnoc(items);
    if items[m].Some? {
      var cr := items[m].value;
      assert Records(items) == recs + [cr];
      CellsOccAppend(recs, cr, kind, x);
    } else {
      assert Records(items) == recs;
    }
  }

  lemma CellsOccAppend(recs: seq<CdxRecord>, cr: CdxRecord, kind: GridKind, x: (string, string))
    ensures Occ(Cells(kind, recs + [cr]), x) == Occ(Cells(kind, recs), x) + (if Cell(kind, cr) == x then 1 else 0)
  {
    CellsSnoc(recs, cr, kind);
    OccSnoc(Cells(kind, recs), Cell(kind, cr), x);
  }

  lemma SurtsViewSnoc(items: seq<Option<CdxRecord>>, prev: string)
    requires |items| > 0
    ensures var m := |items| - 1;
            var xs := Surts(Records(items[..m]));
            && (items[m].None? ==> Surts(Records(items)) == xs)
            && (items[m].Some? ==>
                  var x := items[m].value.surt;
                  && Changes(prev, Surts(Records(items))) == Changes(prev, xs) + (if x != LastOr(prev, xs) then 1 else 0)
                  && LastOr(prev, Surts(Records(items))) == x)
  {
    var m := |items| - 1;
    RecordsSnoc(items);
    if items[m].Some? {
      var recs := Records(items[..m]);
      SurtsSnoc(recs, items[m].value);
      ChangesSnoc(prev, Surts(recs), items[m].value.surt);
    }
  }

  lemma HostsViewSnoc(items: seq<Option<CdxRecord>>, prev: string)
    requires |items| > 0
    ensures var m := |items| - 1;
            var xs := Hosts(Records(items[..m]));
            && (items[m].None? ==> Hosts(Records(items)) == xs)
            && (items[m].Some? ==>
                  var x := items[m].value.host;
                  && Changes(prev, Hosts(Records(items))) == Changes(prev, xs) + (if x != LastOr(prev, xs) then 1 else 0)
                  && LastOr(prev, Hosts(Records(items))) == x)
  {
    var m := |items| - 1;
    RecordsSnoc(items);
    if items[m].Some? {
      var recs := Records(items[..m]);
      HostsSnoc(recs, items[m].value);
      ChangesSnoc(prev, Hosts(recs), items[m].value.host);
    }
  }

  lemma SumBytesViewSnoc(items: seq<Option<CdxRecord>>)
    requires |items| > 0
    ensures var m := |items| - 1;
            SumBytes(Records(items))
            == SumBytes(Records(items[..m])) + (if items[m].Some? then BytesValue(items[m].value.bytes) else 0)
  {
    var m := |items| - 1;
    RecordsSnoc(items);
    if items[m].Some? {
      var recs := Records(items[..m]);
      assert (recs + [items[m].value])[..|recs|] == recs;
    }
  }

  lemma DatetimesViewSnoc(items: seq<Option<CdxRecord>>)
    requires |items| > 0
    ensures var m := |items| - 1;
            var dts := Datetimes(Records(items[..m]));
            && (items[m].None? ==> Datetimes(Records(items)) == dts)
            && (items[m].Some? ==> Datetimes(Records(items)) == dts + [items[m].value.datetime])
  {
    var m := |items| - 1;
    RecordsSnoc(items);
    if items[m].Some? {
      DatetimesSnoc(Records(items[..m]), items[m].value);
    }
  }

  lemma OfferViewSnoc(items: seq<Option<CdxRecord>>, draws: seq<real>)
    requires |draws| == |items| > 0
    ensures var m := |items| - 1;
            var recs := Records(items[..m]);
            var ds := RecordDraws(items[..m], draws[..m]);
            && (items[m].None? ==> Records(items) == recs && RecordDraws(items, draws) == ds)
            && (items[m].Some? ==>
                  var n := |Records(items)| - 1;
                  && Records(items)[..n] == recs && Records(items)[n] == items[m].value
                  && RecordDraws(items, draws)[..n] == ds && RecordDraws(items, draws)[n] == draws[m])
  {
    var m := |items| - 1;
    RecordsSnoc(items);
    if items[m].Some? {
      var recs := Records(items[..m]);
      var ds := RecordDraws(items[..m], draws[..m]);
      assert (recs + [items[m].value])[..|recs|] == recs;
      assert (ds + [draws[m]])[..|ds|] == ds;
    }
  }

  lemma SurtsSnoc(recs: seq<CdxRecord>, cr: CdxRecord)
    ensures Surts(recs + [cr]) == Surts(recs) + [cr.surt]
  {
  }

  lemma HostsSnoc(recs: seq<CdxRecord>, cr: CdxRecord)
    ensures Hosts(recs + [cr]) == Hosts(recs) + [cr.host]
  {
  }

  lemma DatetimesSnoc(recs: seq<CdxRecord>, cr: CdxRecord)
    ensures Datetimes(recs + [cr]) == Datetimes(recs) + [cr.datetime]
  {
  }

  lemma CellsSnoc(recs: seq<CdxRecord>, cr: CdxRecord, kind: GridKind)
    ensures Cells(kind, recs + [cr]) == Cells(kind, recs) + [Cell(kind, cr)]
  {
  }

  // ------------------------------------------------------------------ the loop against the views

  lemma {:induction false} RunCaptures(p: Pass, items: seq<Option<CdxRecord>>, draws: seq<real>)
    requires S.Ready(p.a.sampler) && |draws| == |items|
    ensures Run(p, items, draws).a.captures == p.a.captures + |Records(items)|
  {
    if |items| > 0 {
      var m := |items| - 1;
      RunCaptures(p, items[..m], draws[..m]);
      RecordsCount(items);
      SnocCaptures(p, items, draws);
    }
  }

  lemma {:induction false} RunHostTotal(p: Pass, items: seq<Option<CdxRecord>>, draws: seq<real>)
    requires S.Ready(p.a.sampler) && |draws| == |items|
    ensures Total(Run(p, items, draws).a.tophosts) == Total(p.a.tophosts) + |Records(items)|
  {
    if |items| > 0 {
      var m := |items| - 1;
      RunHostTotal(p, items[..m], draws[..m]);
      RecordsCount(items);
      SnocHosts(p, items, draws);
    }
  }

  lemma {:induction false} RunGridTotal(p: Pass, items: seq<Option<CdxRecord>>, draws: seq<real>,
                                        kind: GridKind)
    requires S.Ready(p.a.sampler) && |draws| == |items|
    ensures GridTotal(GridOf(Run(p, items, draws).a, kind)) == GridTotal(GridOf(p.a, kind)) + |Records(items)|
  {
    if |items| > 0 {
      var m := |items| - 1;
      RunGridTotal(p, items[..m], draws[..m], kind);
      RecordsCount(items);
      SnocGrid(p, items, draws, kind);
    }
  }

  /** Each grid gains one capture per record, and the host counter one per record. */
  lemma RunTotals(p: Pass, items: seq<Option<CdxRecord>>, draws: seq<real>)
    requires S.Ready(p.a.sampler) && |draws| == |items|
    ensures var q := Run(p, items, draws).a;
            var n := |Records(items)|;
            && q.captures == p.a.captures + n
            && Total(q.tophosts) == Total(p.a.tophosts) + n
            && GridTotal(q.mimestatus) == GridTotal(p.a.mimestatus) + n
            && GridTotal(q.pathquery) == GridTotal(p.a.pathquery) + n
            && GridTotal(q.yearmonth) == GridTotal(p.a.yearmonth) + n
  {
    RunCaptures(p, items, draws);
    RunHostTotal(p, items, draws);
    RunGridTotal(p, items, draws, MimeStatus);
    RunGridTotal(p, items, draws, PathQuery);
    RunGridTotal(p, items, draws, YearMonth);
  }

  /** How many of the lines parsed into a record counted under cell `x`. */
  function CellHits(kind: GridKind, items: seq<Option<CdxRecord>>, x: (string, string)): nat {
    if |items| == 0 then 0
    else
      var m := |items| - 1;
      CellHits(kind, items[..m], x) + (if items[m].Some? && Cell(kind, items[m].value) == x then 1 else 0)
  }

  lemma {:induction false} CellHitsOcc(kind: GridKind, items: seq<Option<CdxRecord>>, x: (string, string))
    ensures CellHits(kind, items, x) == Occ(Cells(kind, Records(items)), x)
  {
    if |items| > 0 {
      CellHitsOcc(kind, items[..|items| - 1], x);
      CellsOccSnoc(items, kind, x);
    }
  }

  lemma {:induction false} RunCellHits(p: Pass, items: seq<Option<CdxRecord>>, draws: seq<real>,
                                       kind: GridKind, row: string, col: string)
    requires S.Ready(p.a.sampler) && |draws| == |items|
    ensures CellCount(GridOf(Run(p, items, draws).a, kind), row, col)
            == CellCount(GridOf(p.a, kind), row, col) + CellHits(kind, items, (row, col))
  {
    if |items| > 0 {
      var m := |items| - 1;
      RunCellHits(p, items[..m], draws[..m], kind, row, col);
      SnocGrid(p, items, draws, kind);
      CellStep(GridOf(Run(p, items[..m], draws[..m]).a, kind), GridOf(Run(p, items, draws).a, kind),
               items[m], kind, row, col);
    }
  }

  /** Every grid cell counts exactly the records that fall in it. */
  lemma RunCells(p: Pass, items: seq<Option<CdxRecord>>, draws: seq<real>,
                 kind: GridKind, row: string, col: string)
    requires S.Ready(p.a.sampler) && |draws| == |items|
    ensures CellCount(GridOf(Run(p, items, draws).a, kind), row, col)
            == CellCount(GridOf(p.a, kind), row, col) + Occ(Cells(kind, Records(items)), (row, col))
  {
    RunCellHits(p, items, draws, kind, row, col);
    CellHitsOcc(kind, items, (row, col));
  }

  lemma CellStep(before: Grid, after: Grid, item: Option<CdxRecord>, kind: GridKind, row: string, col: string)
    requires item.None? ==> after == before
    requires item.Some? ==> var c := Cell(kind, item.value); after == GridAdd(before, c.0, c.1, 1)
    ensures CellCount(after, row, col)
            == CellCount(before, row, col) + (if item.Some? && Cell(kind, item.value) == (row, col) then 1 else 0)
  {
    if item.Some? {
      var c := Cell(kind, item.value);
      GridAddCell(before, c.0, c.1, 1, row, col);
    }
  }

  /** How many of the lines parsed into a record of host `h`. */
  function HostHits(items: seq<Option<CdxRecord>>, h: string): nat {
    if |items| == 0 then 0
    else
      var m := |items| - 1;
      HostHits(items[..m], h) + (if items[m].Some? && items[m].value.host == h then 1 else 0)
  }

  lemma {:induction false} HostHitsOcc(items: seq<Option<CdxRecord>>, h: string)
    ensures HostHits(items, h) == Occ(Hosts(Records(items)), h)
  {
    if |items| > 0 {
      HostHitsOcc(items[..|items| - 1], h);
      HostsOccSnoc(items, h);
    }
  }

  lemma HostCountStep(before: Counter, after: Counter, item: Option<CdxRecord>, h: string)
    requires item.None? ==> after == before
    requires item.Some? ==> after == Add(before, item.value.host, 1)
    ensures CountFor(after, h) == CountFor(before, h) + (if item.Some? && item.value.host == h then 1 else 0)
  {
  }

  lemma {:induction false} RunHostHits(p: Pass, items: seq<Option<CdxRecord>>, draws: seq<real>, h: string)
    requires S.Ready(p.a.sampler) && |draws| == |items|
    ensures CountFor(Run(p, items, draws).a.tophosts, h) == CountFor(p.a.tophosts, h) + HostHits(items, h)
  {
    if |items| > 0 {
      var m := |items| - 1;
      RunHostHits(p, items[..m], draws[..m], h);
      SnocHosts(p, items, draws);
      HostCountStep(Run(p, items[..m], draws[..m]).a.tophosts, Run(p, items, draws).a.tophosts, items[m], h);
    }
  }

  /** The host counter counts each host's captures. */
  lemma RunHostCounts(p: Pass, items: seq<Option<CdxRecord>>, draws: seq<real>, h: string)
    requires S.Ready(p.a.sampler) && |draws| == |items|
    ensures CountFor(Run(p, items, draws).a.tophosts, h)
            == CountFor(p.a.tophosts, h) + Occ(Hosts(Records(items)), h)
  {
    RunHostHits(p, items, draws, h);
    HostHitsOcc(items, h);
  }

  /** The counter never holds a host twice. */
  lemma {:induction false} RunHostKeysUnique(p: Pass, items: seq<Option<CdxRecord>>, draws: seq<real>)
    requires S.Ready(p.a.sampler) && |draws| == |items|
    requires Unique(Keys(p.a.tophosts))
    ensures Unique(Keys(Run(p, items, draws).a.tophosts))
  {
    if |items| > 0 {
      var m := |items| - 1;
      RunHostKeysUnique(p, items[..m], draws[..m]);
      SnocHosts(p, items, draws);
      HostKeysStep(Run(p, items[..m], draws[..m]).a.tophosts, Run(p, items, draws).a.tophosts, items[m]);
    }
  }

  lemma HostKeysStep(before: Counter, after: Counter, item: Option<CdxRecord>)
    requires Unique(Keys(before))
    requires item.None? ==> after == before
    requires item.Some? ==> after == Add(before, item.value.host, 1)
    ensures Unique(Keys(after))
  {
    if item.Some? {
      AddKeysUnique(before, item.value.host);
    }
  }

  /** Whether some line parsed into a record of host `h`. */
  predicate HostSeen(items: seq<Option<CdxRecord>>, h: string) {
    if |items| == 0 then false
    else
      var m := |items| - 1;
      HostSeen(items[..m], h) || (items[m].Some? && items[m].value.host == h)
  }

  lemma {:induction false} HostSeenIn(items: seq<Option<CdxRecord>>, h: string)
    ensures HostSeen(items, h) <==> h in Hosts(Records(items))
  {
    if |items| > 0 {
      HostSeenIn(items[..|items| - 1], h);
      HostsInSnoc(items, h);
    }
  }

  lemma HostKeyStep(before: Counter, after: Counter, item: Option<CdxRecord>, h: string)
    requires item.None? ==> after == before
    requires item.Some? ==> after == Add(before, item.value.host, 1)
    ensures h in Keys(after) <==> h in Keys(before) || (item.Some? && item.value.host == h)
  {
  }

  lemma {:induction false} RunHostSeen(p: Pass, items: seq<Option<CdxRecord>>, draws: seq<real>, h: string)
    requires S.Ready(p.a.sampler) && |draws| == |items|
    ensures h in Keys(Run(p, items, draws).a.tophosts) <==> h in Keys(p.a.tophosts) || HostSeen(items, h)
  {
    if |items| > 0 {
      var m := |items| - 1;
      RunHostSeen(p, items[..m], draws[..m], h);
      SnocHosts(p, items, draws);
      HostKeyStep(Run(p, items[..m], draws[..m]).a.tophosts, Run(p, items, draws).a.tophosts, items[m], h);
    }
  }

  /** The counter's keys are the hosts seen. */
  lemma RunHostKeys(p: Pass, items: seq<Option<CdxRecord>>, draws: seq<real>, h: string)
    requires S.Ready(p.a.sampler) && |draws| == |items|
    ensures h in Keys(Run(p, items, draws).a.tophosts)
            <==> h in Keys(p.a.tophosts) || h in Hosts(Records(items))
  {
    RunHostSeen(p, items, draws, h);
    HostSeenIn(items, h);
  }

  /** Counting a key keeps the keys unique. */
  lemma AddKeysUnique(c: Counter, k: string)
    requires Unique(Keys(c))
    ensures Unique(Keys(Add(c, k, 1)))
  {
    if k !in Keys(c) {
      UniqueSnoc(Keys(c), k);
    }
  }

  /** The surt of the last line parsed, or `prev` when none was. */
  function LastSurt(prev: string, items: seq<Option<CdxRecord>>): string {
    if |items| == 0 then prev
    else
      var m := |items| - 1;
      if items[m].Some? then items[m].value.surt else LastSurt(prev, items[..m])
  }

  /** How many parsed lines carry a surt other than the one before them. */
  function SurtChanges(prev: string, items: seq<Option<CdxRecord>>): nat {
    if |items| == 0 then 0
    else
      var m := |items| - 1;
      SurtChanges(prev, items[..m])
      + (if items[m].Some? && items[m].value.surt != LastSurt(prev, items[..m]) then 1 else 0)
  }

  lemma {:induction false} LastSurtView(prev: string, items: seq<Option<CdxRecord>>)
    ensures LastSurt(prev, items) == LastOr(prev, Surts(Records(items)))
  {
    if |items| > 0 {
      LastSurtView(prev, items[..|items| - 1]);
      SurtsViewSnoc(items, prev);
    }
  }

  lemma {:induction false} SurtChangesView(prev: string, items: seq<Option<CdxRecord>>)
    ensures SurtChanges(prev, items) == Changes(prev, Surts(Records(items)))
  {
    if |items| > 0 {
      var m := |items| - 1;
      SurtChangesView(prev, items[..m]);
      LastSurtView(prev, items[..m]);
      SurtsViewSnoc(items, prev);
    }
  }

  lemma {:induction false} RunLastSurt(p: Pass, items: seq<Option<CdxRecord>>, draws: seq<real>)
    requires S.Ready(p.a.sampler) && |draws| == |items|
    ensures Run(p, items, draws).prevSurt == LastSurt(p.prevSurt, items)
  {
    if |items| > 0 {
      var m := |items| - 1;
      RunLastSurt(p, items[..m], draws[..m]);
      SnocPrevSurt(p, items, draws);
    }
  }

  lemma {:induction false} RunSurtChanges(p: Pass, items: seq<Option<CdxRecord>>, draws: seq<real>)
    requires S.Ready(p.a.sampler) && |draws| == |items|
    ensures Run(p, items, draws).a.urls == p.a.urls + SurtChanges(p.prevSurt, items)
  {
    if |items| > 0 {
      var m := |items| - 1;
      RunSurtChanges(p, items[..m], draws[..m]);
      RunLastSurt(p, items[..m], draws[..m]);
      SnocUrls(p, items, draws);
    }
  }

  /** The host of the last line parsed, or `prev` when none was. */
  function LastHost(prev: string, items: seq<Option<CdxRecord>>): string {
    if |items| == 0 then prev
    else
      var m := |items| - 1;
      if items[m].Some? then items[m].value.host else LastHost(prev, items[..m])
  }

  /** How many parsed lines carry a host other than the one before them. */
  function HostChanges(prev: string, items: seq<Option<CdxRecord>>): nat {
    if |items| == 0 then 0
    else
      var m := |items| - 1;
      HostChanges(prev, items[..m])
      + (if items[m].Some? && items[m].value.host != LastHost(prev, items[..m]) then 1 else 0)
  }

  lemma {:induction false} LastHostView(prev: string, items: seq<Option<CdxRecord>>)
    ensures LastHost(prev, items) == LastOr(prev, Hosts(Records(items)))
  {
    if |items| > 0 {
      LastHostView(prev, items[..|items| - 1]);
      HostsViewSnoc(items, prev);
    }
  }

  lemma {:induction false} HostChangesView(prev: string, items: seq<Option<CdxRecord>>)
    ensures HostChanges(prev, items) == Changes(prev, Hosts(Records(items)))
  {
    if |items| > 0 {
      var m := |items| - 1;
      HostChangesView(prev, items[..m]);
      LastHostView(prev, items[..m]);
      HostsViewSnoc(items, prev);
    }
  }

  lemma {:induction false} RunLastHost(p: Pass, items: seq<Option<CdxRecord>>, draws: seq<real>)
    requires S.Ready(p.a.sampler) && |draws| == |items|
    ensures Run(p, items, draws).prevHost == LastHost(p.prevHost, items)
  {
    if |items| > 0 {
      var m := |items| - 1;
      RunLastHost(p, items[..m], draws[..m]);
      SnocPrevHost(p, items, draws);
    }
  }

  lemma {:induction false} RunHostChanges(p: Pass, items: seq<Option<CdxRecord>>, draws: seq<real>)
    requires S.Ready(p.a.sampler) && |draws| == |items|
    ensures Run(p, items, draws).a.hosts == p.a.hosts + HostChanges(p.prevHost, items)
  {
    if |items| > 0 {
      var m := |items| - 1;
      RunHostChanges(p, items[..m], draws[..m]);
      RunLastHost(p, items[..m], draws[..m]);
      SnocHostRuns(p, items, draws);
    }
  }

  /** `urls` and `hosts` count changes from the previous SURT and host. */
  lemma RunChanges(p: Pass, items: seq<Option<CdxRecord>>, draws: seq<real>)
    requires S.Ready(p.a.sampler) && |draws| == |items|
    ensures var q := Run(p, items, draws);
            var recs := Records(items);
            && q.a.urls == p.a.urls + Changes(p.prevSurt, Surts(recs))
            && q.a.hosts == p.a.hosts + Changes(p.prevHost, Hosts(recs))
            && q.prevSurt == LastOr(p.prevSurt, Surts(recs))
            && q.prevHost == LastOr(p.prevHost, Hosts(recs))
  {
    RunSurtChanges(p, items, draws);
    SurtChangesView(p.prevSurt, items);
    RunLastSurt(p, items, draws);
    LastSurtView(p.prevSurt, items);
    RunHostChanges(p, items, draws);
    HostChangesView(p.prevHost, items);
    RunLastHost(p, items, draws);
    LastHostView(p.prevHost, items);
  }

  /** `bytes` adds up the byte fields `int()` accepts. */
  lemma {:induction false} RunBytes(p: Pass, items: seq<Option<CdxRecord>>, draws: seq<real>)
    requires S.Ready(p.a.sampler) && |draws| == |items|
    ensures Run(p, items, draws).a.bytes == p.a.bytes + SumBytes(Records(items))
  {
    if |items| > 0 {
      var m := |items| - 1;
      RunBytes(p, items[..m], draws[..m]);
      SumBytesViewSnoc(items);
      SnocBytes(p, items, draws);
    }
  }

  /** Taking the smaller of a running minimum and a new value keeps it the minimum. */
  lemma MinStep(m0: string, start: string, dts: seq<string>, d: string)
    requires (m0 == start || m0 in dts) && LexLessEq(m0, start)
    requires forall x :: x in dts ==> LexLessEq(m0, x)
    ensures var m1 := if LexLess(d, m0) then d else m0;
            && (m1 == start || m1 in dts + [d])
            && LexLessEq(m1, start)
            && (forall x :: x in dts + [d] ==> LexLessEq(m1, x))
  {
    LexLessTotal(d, m0);
    if LexLess(d, m0) {
      forall x | x in dts + [d] && x != d ensures LexLess(d, x) {
        if x != m0 {
          LexLessTransitive(d, m0, x);
        }
      }
      if m0 != start {
        LexLessTransitive(d, m0, start);
      }
    }
  }

  /** Taking the larger of a running maximum and a new value keeps it the maximum. */
  lemma MaxStep(m0: string, start: string, dts: seq<string>, d: string)
    requires (m0 == start || m0 in dts) && LexLessEq(start, m0)
    requires forall x :: x in dts ==> LexLessEq(x, m0)
    ensures var m1 := if LexLess(m0, d) then d else m0;
            && (m1 == start || m1 in dts + [d])
            && LexLessEq(start, m1)
            && (forall x :: x in dts + [d] ==> LexLessEq(x, m1))
  {
    LexLessTotal(m0, d);
    if LexLess(m0, d) {
      forall x | x in dts + [d] && x != d ensures LexLess(x, d) {
        if x != m0 {
          LexLessTransitive(x, m0, d);
        }
      }
      if m0 != start {
        LexLessTransitive(start, m0, d);
      }
    }
  }

  /** The running minimum of `start` and the timestamps, kept as the loop keeps `first`. */
  function Earliest(start: string, dts: seq<string>): string {
    if |dts| == 0 then start
    else
      var e := Earliest(start, dts[..|dts| - 1]);
      if LexLess(dts[|dts| - 1], e) then dts[|dts| - 1] else e
  }

  /** The running maximum, kept as the loop keeps `last`. */
  function Latest(start: string, dts: seq<string>): string {
    if |dts| == 0 then start
    else
      var l := Latest(start, dts[..|dts| - 1]);
      if LexLess(l, dts[|dts| - 1]) then dts[|dts| - 1] else l
  }

  lemma EarliestSnoc(start: string, dts: seq<string>, d: string)
    ensures var e := Earliest(start, dts);
            Earliest(start, dts + [d]) == if LexLess(d, e) then d else e
  {
    assert (dts + [d])[..|dts|] == dts;
  }

  lemma LatestSnoc(start: string, dts: seq<string>, d: string)
    ensures var l := Latest(start, dts);
            Latest(start, dts + [d]) == if LexLess(l, d) then d else l
  {
    assert (dts + [d])[..|dts|] == dts;
  }

  /** The running minimum is the smallest of `start` and the timestamps, and one of them. */
  lemma {:induction false} EarliestIsLeast(start: string, dts: seq<string>)
    ensures var e := Earliest(start, dts);
            && (e == start || e in dts)
            && LexLessEq(e, start)
            && (forall d :: d in dts ==> LexLessEq(e, d))
  {
    if |dts| > 0 {
      var n := |dts| - 1;
      EarliestIsLeast(start, dts[..n]);
      assert dts == dts[..n] + [dts[n]];
      EarliestSnoc(start, dts[..n], dts[n]);
      MinStep(Earliest(start, dts[..n]), start, dts[..n], dts[n]);
    }
  }

  /** The running maximum is the largest of `start` and the timestamps, and one of them. */
  lemma {:induction false} LatestIsGreatest(start: string, dts: seq<string>)
    ensures var l := Latest(start, dts);
            && (l == start || l in dts)
            && LexLessEq(start, l)
            && (forall d :: d in dts ==> LexLessEq(d, l))
  {
    if |dts| > 0 {
      var n := |dts| - 1;
      LatestIsGreatest(start, dts[..n]);
      assert dts == dts[..n] + [dts[n]];
      LatestSnoc(start, dts[..n], dts[n]);
      MaxStep(Latest(start, dts[..n]), start, dts[..n], dts[n]);
    }
  }

  /** `first` kept over the lines directly. */
  function EarliestOf(start: string, items: seq<Option<CdxRecord>>): string {
    if |items| == 0 then start
    else
      var m := |items| - 1;
      if items[m].Some? && LexLess(items[m].value.datetime, EarliestOf(start, items[..m])) then items[m].value.datetime
      else EarliestOf(start, items[..m])
  }

  lemma {:induction false} EarliestOfView(start: string, items: seq<Option<CdxRecord>>)
    ensures EarliestOf(start, items) == Earliest(start, Datetimes(Records(items)))
  {
    if |items| > 0 {
      var m := |items| - 1;
      EarliestOfView(start, items[..m]);
      DatetimesViewSnoc(items);
      if items[m].Some? {
        EarliestSnoc(start, Datetimes(Records(items[..m])), items[m].value.datetime);
      }
    }
  }

  lemma {:induction false} RunEarliestOf(p: Pass, items: seq<Option<CdxRecord>>, draws: seq<real>)
    requires S.Ready(p.a.sampler) && |draws| == |items|
    ensures Run(p, items, draws).a.first == EarliestOf(p.a.first, items)
  {
    if |items| > 0 {
      var m := |items| - 1;
      RunEarliestOf(p, items[..m], draws[..m]);
      SnocFirst(p, items, draws);
    }
  }

  lemma RunEarliest(p: Pass, items: seq<Option<CdxRecord>>, draws: seq<real>)
    requires S.Ready(p.a.sampler) && |draws| == |items|
    ensures Run(p, items, draws).a.first == Earliest(p.a.first, Datetimes(Records(items)))
  {
    RunEarliestOf(p, items, draws);
    EarliestOfView(p.a.first, items);
  }

  /** `last` kept over the lines directly. */
  function LatestOf(start: string, items: seq<Option<CdxRecord>>): string {
    if |items| == 0 then start
    else
      var m := |items| - 1;
      if items[m].Some? && LexLess(LatestOf(start, items[..m]), items[m].value.datetime) then items[m].value.datetime
      else LatestOf(start, items[..m])
  }

  lemma {:induction false} LatestOfView(start: string, items: seq<Option<CdxRecord>>)
    ensures LatestOf(start, items) == Latest(start, Datetimes(Records(items)))
  {
    if |items| > 0 {
      var m := |items| - 1;
      LatestOfView(start, items[..m]);
      DatetimesViewSnoc(items);
      if items[m].Some? {
        LatestSnoc(start, Datetimes(Records(items[..m])), items[m].value.datetime);
      }
    }
  }

  lemma {:induction false} RunLatestOf(p: Pass, items: seq<Option<CdxRecord>>, draws: seq<real>)
    requires S.Ready(p.a.sampler) && |draws| == |items|
    ensures Run(p, items, draws).a.last == LatestOf(p.a.last, items)
  {
    if |items| > 0 {
      var m := |items| - 1;
      RunLatestOf(p, items[..m], draws[..m]);
      SnocLast(p, items, draws);
    }
  }

  lemma RunLatest(p: Pass, items: seq<Option<CdxRecord>>, draws: seq<real>)
    requires S.Ready(p.a.sampler) && |draws| == |items|
    ensures Run(p, items, draws).a.last == Latest(p.a.last, Datetimes(Records(items)))
  {
    RunLatestOf(p, items, draws);
    LatestOfView(p.a.last, items);
  }

  /** `first` is the smallest of its start and the timestamps seen, and one of them. */
  lemma RunFirst(p: Pass, items: seq<Option<CdxRecord>>, draws: seq<real>)
    requires S.Ready(p.a.sampler) && |draws| == |items|
    ensures var q := Run(p, items, draws).a;
            var dts := Datetimes(Records(items));
            && (q.first == p.a.first || q.first in dts)
            && LexLessEq(q.first, p.a.first)
            && (forall d :: d in dts ==> LexLessEq(q.first, d))
  {
    RunEarliest(p, items, draws);
    EarliestIsLeast(p.a.first, Datetimes(Records(items)));
  }

  /** `last` is the largest of its start and the timestamps seen, and one of them. */
  lemma RunLast(p: Pass, items: seq<Option<CdxRecord>>, draws: seq<real>)
    requires S.Ready(p.a.sampler) && |draws| == |items|
    ensures var q := Run(p, items, draws).a;
            var dts := Datetimes(Records(items));
            && (q.last == p.a.last || q.last in dts)
            && LexLessEq(p.a.last, q.last)
            && (forall d :: d in dts ==> LexLessEq(d, q.last))
  {
    RunLatest(p, items, draws);
    LatestIsGreatest(p.a.last, Datetimes(Records(items)));
  }

  /** The sampler fed over the lines directly. */
  function SamplerOf(s: S.Sampler<Sample>, items: seq<Option<CdxRecord>>, draws: seq<real>)
    : (t: S.Sampler<Sample>)
    requires S.Ready(s) && |draws| == |items|
    ensures S.Ready(t)
  {
    if |items| == 0 then s
    else
      var m := |items| - 1;
      var t := SamplerOf(s, items[..m], draws[..m]);
      if items[m].Some? then S.Offer(t, SampleCandidate, SamplePartsAsWritten, items[m].value, draws[m])
      else t
  }

  lemma {:induction false} SamplerOfView(s: S.Sampler<Sample>, items: seq<Option<CdxRecord>>, draws: seq<real>)
    requires S.Ready(s) && |draws| == |items|
    ensures SamplerOf(s, items, draws)
            == S.OfferAll(s, SampleCandidate, SamplePartsAsWritten, Records(items), RecordDraws(items, draws))
  {
    if |items| > 0 {
      var m := |items| - 1;
      SamplerOfView(s, items[..m], draws[..m]);
      OfferViewSnoc(items, draws);
    }
  }

  lemma {:induction false} RunSamplerOf(p: Pass, items: seq<Option<CdxRecord>>, draws: seq<real>)
    requires S.Ready(p.a.sampler) && |draws| == |items|
    ensures Run(p, items, draws).a.sampler == SamplerOf(p.a.sampler, items, draws)
  {
    if |items| > 0 {
      var m := |items| - 1;
      RunSamplerOf(p, items[..m], draws[..m]);
      SnocSampler(p, items, draws);
    }
  }

  /** The sampler sees exactly the parsed records, each with its line's draw. */
  lemma RunSampler(p: Pass, items: seq<Option<CdxRecord>>, draws: seq<real>)
    requires S.Ready(p.a.sampler) && |draws| == |items|
    ensures Run(p, items, draws).a.sampler
            == S.OfferAll(p.a.sampler, SampleCandidate, SamplePartsAsWritten, Records(items),
                          RecordDraws(items, draws))
  {
    RunSamplerOf(p, items, draws);
    SamplerOfView(p.a.sampler, items, draws);
  }

  // ------------------------------------------------------------------ timestamps

  /** A string of digits is at most the all-nines string of its length. */
  lemma {:induction false} AtMostNines(d: string, nines: string)
    requires |d| == |nines| && AllDigits(d) && forall i :: 0 <= i < |nines| ==> nines[i] == '9'
    ensures LexLessEq(d, nines)
  {
    if |d| > 0 && d[0] == '9' {
      AtMostNines(d[1..], nines[1..]);
      if d[1..] == nines[1..] {
        assert d == [d[0]] + d[1..] && nines == [nines[0]] + nines[1..];
      }
    }
  }

  /** A string of digits is at least the all-zeros string of its length. */
  lemma {:induction false} AtLeastZeros(d: string, zeros: string)
    requires |d| == |zeros| && AllDigits(d) && forall i :: 0 <= i < |zeros| ==> zeros[i] == '0'
    ensures LexLessEq(zeros, d)
  {
    if |d| > 0 && d[0] == '0' {
      AtLeastZeros(d[1..], zeros[1..]);
      if d[1..] == zeros[1..] {
        assert d == [d[0]] + d[1..] && zeros == [zeros[0]] + zeros[1..];
      }
    }
  }

  // ------------------------------------------------------------------ the report

  datatype Report = Report(
    captures: nat, urls: nat, hosts: nat, bytes: nat,
    first: string, last: string,
    tophosts: Counter,
    mimestatus: Grid, pathquery: Grid, yearmonth: Grid,
    samples: seq<Sample>)

  /** `_report`: an untouched sentinel is reported as "", and the host counter is cut to its
      `maxhosts` busiest hosts and renamed, never growing in length or total; when the
      display names are distinct, each ranked host appears in rank order under its name. */
  function MakeReport(a: Analyzer): (rep: Report)
    ensures rep.first == "" <==> a.first == NoFirst || a.first == ""
    ensures rep.first != "" ==> rep.first == a.first
    ensures rep.last == "" <==> a.last == NoLast || a.last == ""
    ensures rep.last != "" ==> rep.last == a.last
    ensures |rep.tophosts| <= Kept(|a.tophosts|, a.maxhosts)
    ensures Total(rep.tophosts) <= Total(a.tophosts)
    ensures var m := MostCommon(a.tophosts, a.maxhosts);
            Unique(Names(m)) ==>
              && |rep.tophosts| == |m|
              && forall i :: 0 <= i < |m| ==> rep.tophosts[i] == (TopHostName(m[i].0), m[i].1)
  {
    var ranked := MostCommon(a.tophosts, a.maxhosts);
    assert Unique(Names(ranked)) ==>
             && |TopHosts(ranked)| == |ranked|
             && forall i :: 0 <= i < |ranked| ==> TopHosts(ranked)[i] == (TopHostName(ranked[i].0), ranked[i].1)
    by {
      if Unique(Names(ranked)) {
        TopHostsRenames(ranked);
      }
    }
    Report(
      a.captures, a.urls, a.hosts, a.bytes,
      if a.first == NoFirst then "" else a.first,
      if a.last == NoLast then "" else a.last,
      TopHosts(ranked),
      a.mimestatus, a.pathquery, a.yearmonth,
      S.Samples(a.sampler))
  }

  /** `CDXAnalyzer(samplesize, maxhosts=maxhosts)(lines)`. */
  function Analyze(samplesize: nat, maxhosts: Option<int>, lines: seq<string>, draws: seq<real>)
    : Report
    requires |draws| == |lines|
  {
    MakeReport(Call(Init(samplesize, maxhosts), lines, draws))
  }

  /** Captures count the lines that parse, and every grid, as well as the host counter,
      sums to the captures. */
  lemma AnalyzeTotals(samplesize: nat, maxhosts: Option<int>, lines: seq<string>,
                      draws: seq<real>)
    requires |draws| == |lines|
    ensures var rep := Analyze(samplesize, maxhosts, lines, draws);
            var th := Call(Init(samplesize, maxhosts), lines, draws).tophosts;
            && rep.captures == |Records(ParseLines(lines))|
            && GridTotal(rep.mimestatus) == rep.captures
            && GridTotal(rep.pathquery) == rep.captures
            && GridTotal(rep.yearmonth) == rep.captures
            && Total(th) == rep.captures
  {
    RunTotals(Pass(Init(samplesize, maxhosts), "", ""), ParseLines(lines), draws);
  }

  /** Each cell of each grid holds the number of captures with that row and column. */
  lemma AnalyzeCells(samplesize: nat, maxhosts: Option<int>, lines: seq<string>,
                     draws: seq<real>, kind: GridKind, row: string, col: string)
    requires |draws| == |lines|
    ensures CellCount(GridOf(Call(Init(samplesize, maxhosts), lines, draws), kind), row, col)
            == Occ(Cells(kind, Records(ParseLines(lines))), (row, col))
  {
    RunCells(Pass(Init(samplesize, maxhosts), "", ""), ParseLines(lines), draws, kind, row, col);
  }

  /** The host counter counts each host's captures; its keys are the distinct hosts. */
  lemma AnalyzeHostCounter(samplesize: nat, maxhosts: Option<int>, lines: seq<string>,
                           draws: seq<real>, h: string)
    requires |draws| == |lines|
    ensures var th := Call(Init(samplesize, maxhosts), lines, draws).tophosts;
            var hs := Hosts(Records(ParseLines(lines)));
            && CountFor(th, h) == Occ(hs, h)
            && Unique(Keys(th)) && Elems(Keys(th)) == Elems(hs)
  {
    var p := Pass(Init(samplesize, maxhosts), "", "");
    var items := ParseLines(lines);
    RunHostCounts(p, items, draws, h);
    RunHostKeysUnique(p, items, draws);
    HostKeysAreHosts(p, items, draws);
  }

  /** From a fresh counter, the keys are exactly the hosts seen. */
  lemma HostKeysAreHosts(p: Pass, items: seq<Option<CdxRecord>>, draws: seq<real>)
    requires S.Ready(p.a.sampler) && |draws| == |items| && p.a.tophosts == []
    ensures Elems(Keys(Run(p, items, draws).a.tophosts)) == Elems(Hosts(Records(items)))
  {
    var keys := Keys(Run(p, items, draws).a.tophosts);
    var hs := Hosts(Records(items));
    forall x ensures x in Elems(keys) <==> x in Elems(hs) {
      RunHostKeys(p, items, draws, x);
    }
  }

  /** `urls` is the number of runs of equal consecutive SURTs: no more than the captures,
      at least one exactly when something was captured, and no fewer than the distinct
      SURTs. */
  lemma AnalyzeUrls(samplesize: nat, maxhosts: Option<int>, lines: seq<string>,
                    draws: seq<real>)
    requires |draws| == |lines|
    ensures var a := Call(Init(samplesize, maxhosts), lines, draws);
            var recs := Records(ParseLines(lines));
            && a.urls == Runs(Surts(recs))
            && a.urls <= a.captures
            && (a.urls >= 1 <==> a.captures >= 1)
            && |Elems(Surts(recs))| <= a.urls
  {
    var p := Pass(Init(samplesize, maxhosts), "", "");
    var items := ParseLines(lines);
    var recs := Records(items);
    ParsedRecords(lines);
    RunChanges(p, items, draws);
    RunTotals(p, items, draws);
    ChangesFromAbsent("", Surts(recs));
    DistinctAtMostRuns(Surts(recs));
  }

  /** `hosts` is the number of runs of equal consecutive hosts: no more than the captures,
      at least one exactly when something was captured, and no fewer than the hosts in the
      host counter. */
  lemma AnalyzeHosts(samplesize: nat, maxhosts: Option<int>, lines: seq<string>,
                     draws: seq<real>)
    requires |draws| == |lines|
    ensures var a := Call(Init(samplesize, maxhosts), lines, draws);
            var recs := Records(ParseLines(lines));
            && a.hosts == Runs(Hosts(recs))
            && a.hosts <= a.captures
            && (a.hosts >= 1 <==> a.captures >= 1)
            && |Keys(a.tophosts)| <= a.hosts
  {
    var p := Pass(Init(samplesize, maxhosts), "", "");
    var items := ParseLines(lines);
    var recs := Records(items);
    var keys := Keys(Run(p, items, draws).a.tophosts);
    ParsedRecords(lines);
    RunChanges(p, items, draws);
    RunTotals(p, items, draws);
    ChangesFromAbsent("", Hosts(recs));
    DistinctAtMostRuns(Hosts(recs));
    RunHostKeysUnique(p, items, draws);
    HostKeysAreHosts(p, items, draws);
    UniqueElems(keys);
  }

  /** A well-formed record's timestamp is 14 digits, so it lies between the two sentinels. */
  lemma DatetimeBetween(r: CdxRecord)
    requires WellFormed(r)
    ensures LexLessEq(r.datetime, NoFirst) && LexLessEq(NoLast, r.datetime)
  {
    AtMostNines(r.datetime, NoFirst);
    AtLeastZeros(r.datetime, NoLast);
  }

  lemma BetweenSentinels(recs: seq<CdxRecord>)
    requires forall i :: 0 <= i < |recs| ==> WellFormed(recs[i])
    ensures forall i :: 0 <= i < |recs| ==>
              LexLessEq(Datetimes(recs)[i], NoFirst) && LexLessEq(NoLast, Datetimes(recs)[i])
  {
    forall i | 0 <= i < |recs|
      ensures LexLessEq(Datetimes(recs)[i], NoFirst) && LexLessEq(NoLast, Datetimes(recs)[i])
    {
      DatetimeBetween(recs[i]);
    }
  }

  /** Reporting a running minimum that starts at the all-nines sentinel. */
  lemma ReportedFirst(first: string, dts: seq<string>)
    requires first == NoFirst || first in dts
    requires forall i :: 0 <= i < |dts| ==>
               LexLessEq(first, dts[i]) && LexLessEq(dts[i], NoFirst) && LexLessEq(NoLast, dts[i])
    ensures var f := if first == NoFirst then "" else first;
            && (|dts| == 0 ==> f == "")
            && (f != "" ==> f in dts && forall d :: d in dts ==> LexLessEq(f, d))
            && (|dts| > 0 && f == "" ==> forall d :: d in dts ==> d == NoFirst)
  {
    if first == NoFirst {
      forall d | d in dts ensures d == NoFirst {
        var i :| 0 <= i < |dts| && dts[i] == d;
        if d != NoFirst {
          LexLessAsymmetric(d, NoFirst);
        }
      }
    } else {
      forall d | d in dts ensures LexLessEq(first, d) && d != "" {
        var i :| 0 <= i < |dts| && dts[i] == d;
      }
    }
  }

  /** Reporting a running maximum that starts at the all-zeros sentinel. */
  lemma ReportedLast(last: string, dts: seq<string>)
    requires last == NoLast || last in dts
    requires forall i :: 0 <= i < |dts| ==> LexLessEq(dts[i], last) && LexLessEq(NoLast, dts[i])
    ensures var l := if last == NoLast then "" else last;
            && (|dts| == 0 ==> l == "")
            && (l != "" ==> l in dts && forall d :: d in dts ==> LexLessEq(d, l))
            && (|dts| > 0 && l == "" ==> forall d :: d in dts ==> d == NoLast)
  {
    if last == NoLast {
      forall d | d in dts ensures d == NoLast {
        var i :| 0 <= i < |dts| && dts[i] == d;
        if d != NoLast {
          LexLessAsymmetric(NoLast, d);
        }
      }
    } else {
      forall d | d in dts ensures LexLessEq(d, last) && d != "" {
        var i :| 0 <= i < |dts| && dts[i] == d;
      }
    }
  }

  /** The reported `first` is the smallest timestamp, "" when nothing was captured; it is
      also "" when every timestamp is the sentinel itself. */
  lemma AnalyzeFirst(samplesize: nat, maxhosts: Option<int>, lines: seq<string>,
                     draws: seq<real>)
    requires |draws| == |lines|
    ensures var rep := Analyze(samplesize, maxhosts, lines, draws);
            var dts := Datetimes(Records(ParseLines(lines)));
            && (|dts| == 0 ==> rep.first == "")
            && (rep.first != "" ==> rep.first in dts && forall d :: d in dts ==> LexLessEq(rep.first, d))
            && (|dts| > 0 && rep.first == "" ==> forall d :: d in dts ==> d == NoFirst)
  {
    var p := Pass(Init(samplesize, maxhosts), "", "");
    var items := ParseLines(lines);
    var dts := Datetimes(Records(items));
    var a := Run(p, items, draws).a;
    RunFirst(p, items, draws);
    ParsedRecords(lines);
    BetweenSentinels(Records(items));
    assert forall i :: 0 <= i < |dts| ==> LexLessEq(a.first, dts[i]);
    ReportedFirst(a.first, dts);
  }

  /** The reported `last` is the largest timestamp, "" when nothing was captured; it is
      also "" when every timestamp is the sentinel itself. */
  lemma AnalyzeLast(samplesize: nat, maxhosts: Option<int>, lines: seq<string>,
                    draws: seq<real>)
    requires |draws| == |lines|
    ensures var rep := Analyze(samplesize, maxhosts, lines, draws);
            var dts := Datetimes(Records(ParseLines(lines)));
            && (|dts| == 0 ==> rep.last == "")
            && (rep.last != "" ==> rep.last in dts && forall d :: d in dts ==> LexLessEq(d, rep.last))
            && (|dts| > 0 && rep.last == "" ==> forall d :: d in dts ==> d == NoLast)
  {
    var p := Pass(Init(samplesize, maxhosts), "", "");
    var items := ParseLines(lines);
    var dts := Datetimes(Records(items));
    var a := Run(p, items, draws).a;
    RunLast(p, items, draws);
    ParsedRecords(lines);
    BetweenSentinels(Records(items));
    assert forall i :: 0 <= i < |dts| ==> LexLessEq(dts[i], a.last);
    ReportedLast(a.last, dts);
  }

  /** `bytes` sums the numeric byte fields. */
  lemma AnalyzeBytes(samplesize: nat, maxhosts: Option<int>, lines: seq<string>,
                     draws: seq<real>)
    requires |draws| == |lines|
    ensures Analyze(samplesize, maxhosts, lines, draws).bytes == SumBytes(Records(ParseLines(lines)))
  {
    RunBytes(Pass(Init(samplesize, maxhosts), "", ""), ParseLines(lines), draws);
  }

  /** The sampler is offered every parsed record, each with its own line's draw. */
  lemma AnalyzeSampler(samplesize: nat, maxhosts: Option<int>, lines: seq<string>,
                       draws: seq<real>)
    requires |draws| == |lines|
    ensures var items := ParseLines(lines);
            Call(Init(samplesize, maxhosts), lines, draws).sampler
            == S.OfferAll(S.New(samplesize, samplesize != 0), SampleCandidate, SamplePartsAsWritten,
                          Records(items), RecordDraws(items, draws))
  {
    RunSampler(Pass(Init(samplesize, maxhosts), "", ""), ParseLines(lines), draws);
  }

  /** With a dynamic sampler, `processed` counts the sampling candidates among the
      parsed records. */
  lemma AnalyzeProcessed(samplesize: nat, maxhosts: Option<int>, lines: seq<string>,
                         draws: seq<real>)
    requires |draws| == |lines| && samplesize > 0
    ensures Call(Init(samplesize, maxhosts), lines, draws).sampler.processed
            == |S.Filter(SampleCandidate, Records(ParseLines(lines)))|
  {
    var items := ParseLines(lines);
    AnalyzeSampler(samplesize, maxhosts, lines, draws);
    S.OfferAllProcessed(S.New<Sample>(samplesize, true), SampleCandidate, SamplePartsAsWritten,
                        Records(items), RecordDraws(items, draws));
  }

  /** A sample size of 0 selects the base sampler, which yields no samples. */
  lemma AnalyzeNoSamples(maxhosts: Option<int>, lines: seq<string>, draws: seq<real>)
    requires |draws| == |lines|
    ensures S.Samples(Call(Init(0, maxhosts), lines, draws).sampler) == []
  {
    var items := ParseLines(lines);
    AnalyzeSampler(0, maxhosts, lines, draws);
    S.BaseYieldsNothing(SampleCandidate, SamplePartsAsWritten, Records(items), RecordDraws(items, draws));
  }

  /** While there are no more candidates than slots, the samples are every candidate's
      timestamp and URL, in input order, whatever the draws in [0, 1). */
  lemma AnalyzeShortSamples(samplesize: nat, maxhosts: Option<int>, lines: seq<string>,
                            draws: seq<real>)
    requires |draws| == |lines| && samplesize > 0
    requires forall i :: 0 <= i < |draws| ==> 0.0 <= draws[i] < 1.0
    requires |S.Filter(SampleCandidate, Records(ParseLines(lines)))| <= samplesize
    ensures S.Samples(Call(Init(samplesize, maxhosts), lines, draws).sampler)
            == S.Map(SamplePartsAsWritten, S.Filter(SampleCandidate, Records(ParseLines(lines))))
  {
    var items := ParseLines(lines);
    var ds := RecordDraws(items, draws);
    AnalyzeSampler(samplesize, maxhosts, lines, draws);
    assert forall i :: 0 <= i < |ds| ==> 0.0 <= ds[i] < 1.0 by {
      forall i | 0 <= i < |ds| ensures 0.0 <= ds[i] < 1.0 {
        assert ds[i] in draws;
      }
    }
    S.SamplesOfShortStream(samplesize, SampleCandidate, SamplePartsAsWritten, Records(items), ds);
  }

  /** The long tail the report leaves out is never negative: the kept hosts are no more than
      the hosts counted and their captures no more than all captures. With distinct display
      names the report lists exactly the ranked hosts, renamed, in rank order, each with its
      number of captures. */
  lemma AnalyzeTopHosts(samplesize: nat, maxhosts: Option<int>, lines: seq<string>,
                        draws: seq<real>)
    requires |draws| == |lines|
    ensures var rep := Analyze(samplesize, maxhosts, lines, draws);
            && |rep.tophosts| <= rep.hosts
            && Total(rep.tophosts) <= rep.captures
            && (maxhosts.Some? && maxhosts.value >= 0 ==> |rep.tophosts| <= maxhosts.value)
    ensures var th := Call(Init(samplesize, maxhosts), lines, draws).tophosts;
            var m := MostCommon(th, maxhosts);
            var hs := Hosts(Records(ParseLines(lines)));
            var rep := Analyze(samplesize, maxhosts, lines, draws);
            Unique(Names(m)) ==>
              && |rep.tophosts| == |m|
              && forall i :: 0 <= i < |m| ==> rep.tophosts[i] == (TopHostName(m[i].0), Occ(hs, m[i].0))
  {
    AnalyzeKept(samplesize, maxhosts, lines, draws);
    AnalyzeRenamed(samplesize, maxhosts, lines, draws);
  }

  /** The bounds half of AnalyzeTopHosts. */
  lemma AnalyzeKept(samplesize: nat, maxhosts: Option<int>, lines: seq<string>,
                    draws: seq<real>)
    requires |draws| == |lines|
    ensures var rep := Analyze(samplesize, maxhosts, lines, draws);
            && |rep.tophosts| <= rep.hosts
            && Total(rep.tophosts) <= rep.captures
            && (maxhosts.Some? && maxhosts.value >= 0 ==> |rep.tophosts| <= maxhosts.value)
  {
    AnalyzeTotals(samplesize, maxhosts, lines, draws);
    AnalyzeHosts(samplesize, maxhosts, lines, draws);
  }

  /** The ranking half of AnalyzeTopHosts: the report's hosts are the ranked ones, renamed. */
  lemma AnalyzeRenamed(samplesize: nat, maxhosts: Option<int>, lines: seq<string>,
                       draws: seq<real>)
    requires |draws| == |lines|
    ensures var th := Call(Init(samplesize, maxhosts), lines, draws).tophosts;
            var m := MostCommon(th, maxhosts);
            var hs := Hosts(Records(ParseLines(lines)));
            var rep := Analyze(samplesize, maxhosts, lines, draws);
            Unique(Names(m)) ==>
              && |rep.tophosts| == |m|
              && forall i :: 0 <= i < |m| ==> rep.tophosts[i] == (TopHostName(m[i].0), Occ(hs, m[i].0))
  {
    var a := Call(Init(samplesize, maxhosts), lines, draws);
    var rep := Analyze(samplesize, maxhosts, lines, draws);
    assert rep == MakeReport(a) && a.maxhosts == maxhosts;
    var m := MostCommon(a.tophosts, maxhosts);
    var hs := Hosts(Records(ParseLines(lines)));
    if Unique(Names(m)) {
      AnalyzeRanking(samplesize, maxhosts, lines, draws);
      forall i | 0 <= i < |m| ensures rep.tophosts[i] == (TopHostName(m[i].0), Occ(hs, m[i].0)) {
        assert m[i].1 == Occ(hs, m[i].0);
      }
    }
  }

  /** The ranking behind the reported hosts is that of the busiest hosts: every host kept is a
      host of the input with its number of captures, and no host left out has more captures
      than a host kept. */
  lemma AnalyzeRanking(samplesize: nat, maxhosts: Option<int>, lines: seq<string>,
                       draws: seq<real>)
    requires |draws| == |lines|
    ensures var th := Call(Init(samplesize, maxhosts), lines, draws).tophosts;
            var m := MostCommon(th, maxhosts);
            var hs := Hosts(Records(ParseLines(lines)));
            && (forall i :: 0 <= i < |m| ==> m[i].0 in hs && m[i].1 == Occ(hs, m[i].0))
            && (forall h, i :: h in hs && h !in Keys(m) && 0 <= i < |m| ==> Occ(hs, h) <= m[i].1)
  {
    var th := Call(Init(samplesize, maxhosts), lines, draws).tophosts;
    var m := MostCommon(th, maxhosts);
    var hs := Hosts(Records(ParseLines(lines)));
    AnalyzeHostCounter(samplesize, maxhosts, lines, draws, "");
    MostCommonEntries(th, maxhosts);
    forall i | 0 <= i < |m| ensures m[i].0 in hs && m[i].1 == Occ(hs, m[i].0) {
      AnalyzeHostCounter(samplesize, maxhosts, lines, draws, m[i].0);
      assert m[i].0 in Elems(Keys(th));
    }
    forall h, i | h in hs && h !in Keys(m) && 0 <= i < |m| ensures Occ(hs, h) <= m[i].1 {
      AnalyzeHostCounter(samplesize, maxhosts, lines, draws, h);
      assert h in Elems(hs);
      MostCommonLeftOut(th, maxhosts, h);
    }
  }
}

=== FILE: cli.dfy ===
/** Where the command line reads its input from (`get_input_url` in cdxsummary/__main__.py,
    with the `ITEMURL` and `URLRE` patterns): an archive item's page or download URL, or an
    item identifier under `--item`, names the item's CDX file; another http(s) URL is used
    as it is; anything else is a local path or standard input, and gives no URL. Both
    patterns ignore case; `$` matches at the end or before a final newline, and `.` matches
    any character but a newline. */
module Cli {
  import opened Wrappers
  import opened Strings

  /** The lower-case literal `lit` occurs at `i` in `s`, ignoring ASCII case. */
  predicate MatchesAt(s: string, i: nat, lit: string) {
    i + |lit| <= |s| && Lower(s[i..i + |lit|]) == lit
  }

  /** Two literals matched one after the other match as one. */
  lemma MatchesConcat(s: string, i: nat, a: string, b: string)
    requires MatchesAt(s, i, a) && MatchesAt(s, i + |a|, b)
    ensures MatchesAt(s, i, a + b)
  {
    assert s[i..i + |a + b|] == s[i..i + |a|] + s[i + |a|..i + |a| + |b|];
    LowerConcat(s[i..i + |a|], s[i + |a|..i + |a| + |b|]);
  }

  /** A match of two literals one after the other is a match of each. */
  lemma MatchesSplit(s: string, i: nat, a: string, b: string)
    requires MatchesAt(s, i, a + b)
    ensures MatchesAt(s, i, a) && MatchesAt(s, i + |a|, b)
  {
    var x, y := s[i..i + |a|], s[i + |a|..i + |a| + |b|];
    assert s[i..i + |a + b|] == x + y;
    LowerConcat(x, y);
    assert Lower(x) == (a + b)[..|a|] && Lower(y) == (a + b)[|a|..];
  }

  /** A literal without capitals matches itself wherever it occurs. */
  lemma MatchesInside(pre: string, lit: string, post: string)
    requires NoUpper(lit)
    ensures MatchesAt(pre + lit + post, |pre|, lit)
  {
    assert (pre + lit + post)[|pre|..|pre| + |lit|] == lit;
    LowerIdempotent(lit);
  }

  /** Where `^https?://` ends: after the `s` when there is one, the pattern's first choice. */
  function SchemeEnd(s: string): Option<nat> {
    if MatchesAt(s, 0, "https://") then Some(8)
    else if MatchesAt(s, 0, "http://") then Some(7)
    else None
  }

  /** `(?:download|details)/` at `i`, and where it ends. */
  function SectionEnd(s: string, i: nat): Option<nat> {
    if MatchesAt(s, i, "download/") then Some(i + 9)
    else if MatchesAt(s, i, "details/") then Some(i + 8)
    else None
  }

  /** `(?P<id>[^/]+)/?$` on what follows the section: the longest slash-free start, which
      must be followed by nothing, by one slash, or by a slash and a final newline. */
  function IdOf(rest: string): (id: Option<string>)
    ensures id.Some? ==> id.value != "" && '/' !in id.value
    ensures id.Some? ==> rest == id.value || rest == id.value + "/" || rest == id.value + "/\n"
  {
    if rest != "" && '/' !in rest then Some(rest)
    else
      var (first, tail) := Partition(rest, '/');
      if first != "" && (tail == "" || tail == "\n") then Some(first) else None
  }

  /** `ITEMURL.match(s)` as written: the `.` in `archive.org` is a wildcard. */
  function ItemIdAsWritten(s: string): (id: Option<string>)
    ensures id.Some? ==> id.value != "" && '/' !in id.value
  {
    match SchemeEnd(s)
    case None => None
    case Some(i) =>
      if MatchesAt(s, i, "archive") && i + 7 < |s| && s[i + 7] != '\n'
         && MatchesAt(s, i + 8, "org/")
      then
        match SectionEnd(s, i + 12)
        case None => None
        case Some(k) => IdOf(s[k..])
      else None
  }

  /** `ITEMURL.match(s)` with the dot read literally: the host must be archive.org itself. */
  function ItemId(s: string): (id: Option<string>)
    ensures id.Some? ==> id.value != "" && '/' !in id.value
    ensures id.Some? ==> SchemeEnd(s).Some? && MatchesAt(s, SchemeEnd(s).value, "archive.org/")
  {
    match SchemeEnd(s)
    case None => None
    case Some(i) =>
      if MatchesAt(s, i, "archive.org/") then
        match SectionEnd(s, i + 12)
        case None => None
        case Some(k) => IdOf(s[k..])
      else None
  }

  /** Whatever the literal-dot pattern matches, the pattern as written matches with the same
      identifier: the wildcard also accepts the dot. */
  lemma ItemIdRefines(s: string)
    requires ItemId(s).Some?
    ensures ItemIdAsWritten(s) == ItemId(s)
  {
    var i := SchemeEnd(s).value;
    assert "archive.org/" == "archive" + ("." + "org/");
    MatchesSplit(s, i, "archive", "." + "org/");
    MatchesSplit(s, i + 7, ".", "org/");
    assert Lower(s[i + 7..i + 8])[0] == LowerChar(s[i + 7]);
  }

  /** Hence an item URL starts with `http://archive.org/` or `https://archive.org/`. */
  lemma ItemIdIsArchive(s: string)
    requires ItemId(s).Some?
    ensures MatchesAt(s, 0, "https://" + "archive.org/") || MatchesAt(s, 0, "http://" + "archive.org/")
  {
    var i := SchemeEnd(s).value;
    assert MatchesAt(s, i, "archive.org/");
    if i == 8 {
      MatchesConcat(s, 0, "https://", "archive.org/");
    } else {
      MatchesConcat(s, 0, "http://", "archive.org/");
    }
  }

  /** `URLRE.match(s)`: an http or https scheme, ignoring case, followed by at least one
      character that is not a newline. */
  predicate IsUrl(s: string) {
    || (MatchesAt(s, 0, "https://") && |s| > 8 && s[8] != '\n')
    || (MatchesAt(s, 0, "http://") && |s| > 7 && s[7] != '\n')
  }

  /** The CDX file of an archive item. */
  function DownloadUrl(id: string): string {
    "https://" + "archive.org/" + "download/" + (id + "/" + id + ".cdx.gz")
  }

  /** The decision after the item-URL match: the item's CDX file for a match or under
      `--item`, the input itself for an http(s) URL, and nothing otherwise. */
  function Resolve(s: string, matched: Option<string>, item: bool): Option<string> {
    if matched.Some? then Some(DownloadUrl(matched.value))
    else if item then Some(DownloadUrl(s))
    else if IsUrl(s) then Some(s)
    else None
  }

  /** `get_input_url(args)` as written, `input` being absent or the argument. */
  function GetInputUrlAsWritten(input: Option<string>, item: bool): (r: Option<string>)
    ensures input.None? || input.value == "" ==> r.None?
    ensures input.Some? && ItemIdAsWritten(input.value).Some? ==>
              r == Some(DownloadUrl(ItemIdAsWritten(input.value).value))
    ensures input.Some? && input.value != "" && ItemIdAsWritten(input.value).None? && item ==>
              r == Some(DownloadUrl(input.value))
    ensures input.Some? && ItemIdAsWritten(input.value).None? && !item ==>
              (r.Some? <==> IsUrl(input.value)) && (r.Some? ==> r.value == input.value)
  {
    if input.None? || input.value == "" then None
    else Resolve(input.value, ItemIdAsWritten(input.value), item)
  }

  /** `get_input_url(args)` with the literal dot. No input gives no URL; an item URL gives
      the item's CDX file whatever the flag; otherwise `--item` takes the input as the
      identifier; otherwise only an http(s) URL is returned, unchanged. */
  function GetInputUrl(input: Option<string>, item: bool): (r: Option<string>)
    ensures input.None? || input.value == "" ==> r.None?
    ensures input.Some? && ItemId(input.value).Some? ==>
              r == Some(DownloadUrl(ItemId(input.value).value))
    ensures input.Some? && input.value != "" && ItemId(input.value).None? && item ==>
              r == Some(DownloadUrl(input.value))
    ensures input.Some? && ItemId(input.value).None? && !item ==>
              (r.Some? <==> IsUrl(input.value)) && (r.Some? ==> r.value == input.value)
  {
    if input.None? || input.value == "" then None
    else Resolve(input.value, ItemId(input.value), item)
  }

  /** `archive` and `org` around the character `c`, then a download section and `id`. */
  function Lookalike(c: char, id: string): string {
    "https://" + "archive" + [c] + "org/" + "download/" + id
  }

  lemma LookalikeParts(c: char, id: string)
    requires c != '.'
    ensures var s := Lookalike(c, id);
            && SchemeEnd(s) == Some(8)
            && MatchesAt(s, 8, "archive") && s[15] == c && MatchesAt(s, 16, "org/")
            && !MatchesAt(s, 8, "archive.org/")
            && SectionEnd(s, 20) == Some(29) && s[29..] == id
  {
    var s := Lookalike(c, id);
    assert SchemeEnd(s) == Some(8) by {
      MatchesInside("", "https://", "archive" + [c] + "org/" + "download/" + id);
    }
    assert MatchesAt(s, 8, "archive") by {
      MatchesInside("https://", "archive", [c] + "org/" + "download/" + id);
    }
    assert MatchesAt(s, 16, "org/") by {
      MatchesInside("https://" + "archive" + [c], "org/", "download/" + id);
    }
    assert SectionEnd(s, 20) == Some(29) by {
      MatchesInside("https://" + "archive" + [c] + "org/", "download/", id);
    }
    assert s[15] == c;
    assert !MatchesAt(s, 8, "archive.org/") by {
      assert Lower(s[8..20])[7] == LowerChar(c);
    }
  }

  /** A look-alike host, `archive` and `org` around any other character than a dot, is an
      item URL to the pattern as written, and an ordinary URL once the dot is literal. */
  lemma LookalikeResolved(c: char, id: string)
    requires c != '.' && c != '\n' && id != "" && '/' !in id
    ensures var s := Lookalike(c, id);
            && ItemIdAsWritten(s) == Some(id)
            && GetInputUrlAsWritten(Some(s), false) == Some(DownloadUrl(id))
            && ItemId(s) == None
            && GetInputUrl(Some(s), false) == Some(s)
  {
    LookalikeParts(c, id);
    assert IdOf(id) == Some(id);
  }

  // ------------------------------------------------------------------ properties

  /** What follows the section in a CDX file URL is no identifier: the slash after the
      identifier is followed by more than a newline. */
  lemma IdOfDownloadTail(x: string)
    ensures IdOf(x + "/" + x + ".cdx.gz") == None
  {
    var rest := x + "/" + x + ".cdx.gz";
    assert rest[|x|] == '/';
    var p := Partition(rest, '/');
    assert |p.1| >= |x| + 7;
  }

  lemma DownloadUrlScheme(x: string)
    ensures SchemeEnd(DownloadUrl(x)) == Some(8) && DownloadUrl(x)[8] == 'a'
  {
    assert DownloadUrl(x)[0..8] == "https://";
    LowerIdempotent("https://");
  }

  lemma DownloadUrlHost(x: string)
    ensures MatchesAt(DownloadUrl(x), 8, "archive.org/")
  {
    assert DownloadUrl(x)[8..20] == "archive.org/";
    LowerIdempotent("archive.org/");
  }

  lemma DownloadUrlSection(x: string)
    ensures SectionEnd(DownloadUrl(x), 20) == Some(29)
    ensures DownloadUrl(x)[29..] == x + "/" + x + ".cdx.gz"
  {
    assert DownloadUrl(x)[20..29] == "download/";
    LowerIdempotent("download/");
  }

  lemma DownloadUrlParts(x: string)
    ensures var s := DownloadUrl(x);
            && SchemeEnd(s) == Some(8) && s[8] == 'a' && MatchesAt(s, 8, "archive.org/")
            && SectionEnd(s, 20) == Some(29) && s[29..] == x + "/" + x + ".cdx.gz"
  {
    DownloadUrlScheme(x);
    DownloadUrlHost(x);
    DownloadUrlSection(x);
  }

  /** The CDX file URL of any identifier is itself an http(s) URL and no item page. */
  lemma DownloadUrlIsPlainUrl(x: string)
    ensures IsUrl(DownloadUrl(x))
    ensures ItemId(DownloadUrl(x)) == None
    ensures ItemIdAsWritten(DownloadUrl(x)) == None
  {
    DownloadUrlParts(x);
    IdOfDownloadTail(x);
  }

  /** The URL the command line resolves to is always an http(s) URL. */
  lemma ResultIsUrl(input: Option<string>, item: bool)
    ensures GetInputUrl(input, item).Some? ==> IsUrl(GetInputUrl(input, item).value)
  {
    if input.Some? && input.value != "" {
      match ItemId(input.value)
      case Some(id) => DownloadUrlIsPlainUrl(id);
      case None => DownloadUrlIsPlainUrl(input.value);
    }
  }

  /** Resolving the resolved URL again, without `--item`, changes nothing. */
  lemma ResolveIdempotent(input: Option<string>, item: bool)
    ensures var r := GetInputUrl(input, item);
            r.Some? ==> GetInputUrl(r, false) == r
  {
    var r := GetInputUrl(input, item);
    if r.Some? {
      ResultIsUrl(input, item);
      if input.value != "" {
        match ItemId(input.value)
        case Some(id) => DownloadUrlIsPlainUrl(id);
        case None =>
          if item {
            DownloadUrlIsPlainUrl(input.value);
          }
      }
    }
  }

  /** The same holds of the command line as written. */
  lemma ResultIsUrlAsWritten(input: Option<string>, item: bool)
    ensures GetInputUrlAsWritten(input, item).Some? ==> IsUrl(GetInputUrlAsWritten(input, item).value)
  {
    if input.Some? && input.value != "" {
      match ItemIdAsWritten(input.value)
      case Some(id) => DownloadUrlIsPlainUrl(id);
      case None => DownloadUrlIsPlainUrl(input.value);
    }
  }

  /** And resolving again as written changes nothing either. */
  lemma ResolveIdempotentAsWritten(input: Option<string>, item: bool)
    ensures var r := GetInputUrlAsWritten(input, item);
            r.Some? ==> GetInputUrlAsWritten(r, false) == r
  {
    var r := GetInputUrlAsWritten(input, item);
    if r.Some? {
      ResultIsUrlAsWritten(input, item);
      if input.value != "" {
        match ItemIdAsWritten(input.value)
        case Some(id) => DownloadUrlIsPlainUrl(id);
        case None =>
          if item {
            DownloadUrlIsPlainUrl(input.value);
          }
      }
    }
  }

  /** An identifier followed by nothing or by one slash is taken whole. */
  lemma IdOfIdentifier(id: string, slash: bool)
    requires id != "" && '/' !in id
    ensures IdOf(id + (if slash then "/" else "")) == Some(id)
  {
    if slash {
      PartitionAt(id, '/', "");
      assert id + "/" == id + ['/'] + "";
    } else {
      assert id + "" == id;
    }
  }

  /** A character that differs from the literal's, after lower-casing, rules the match out. */
  lemma MismatchAt(s: string, i: nat, lit: string, j: nat)
    requires j < |lit| && i + j < |s| && LowerChar(s[i + j]) != lit[j]
    ensures !MatchesAt(s, i, lit)
  {
    if i + |lit| <= |s| {
      assert Lower(s[i..i + |lit|])[j] == LowerChar(s[i + j]);
    }
  }

  /** A details page is not taken for a download page: the second letters differ. */
  lemma DetailsIsNotDownload(id: string, tail: string)
    ensures !MatchesAt("https://" + "archive.org/" + "details/" + id + tail, 20, "download/")
  {
    var page := "https://" + "archive.org/" + "details/" + id + tail;
    assert page[21] == 'e';
    MismatchAt(page, 20, "download/", 1);
  }

  /** The fixed parts of an item page match where the pattern expects them. */
  lemma PageParts(section: string, id: string, tail: string)
    requires NoUpper(section)
    ensures var page := "https://" + "archive.org/" + section + id + tail;
            && MatchesAt(page, 0, "https://") && MatchesAt(page, 8, "archive.org/")
            && MatchesAt(page, 20, section) && page[20 + |section|..] == id + tail
  {
    var page := "https://" + "archive.org/" + section + id + tail;
    assert page[0..8] == "https://";
    assert page[8..20] == "archive.org/";
    assert page[20..20 + |section|] == section;
    assert page[20 + |section|..] == id + tail;
    LowerIdempotent("https://");
    LowerIdempotent("archive.org/");
    LowerIdempotent(section);
  }

  /** The identifier of an item's details or download page. */
  lemma ItemPageId(id: string, section: string, slash: bool)
    requires id != "" && '/' !in id
    requires section == "details/" || section == "download/"
    ensures ItemId("https://" + "archive.org/" + section + id + (if slash then "/" else ""))
            == Some(id)
  {
    var tail := if slash then "/" else "";
    var page := "https://" + "archive.org/" + section + id + tail;
    PageParts(section, id, tail);
    if section == "details/" {
      DetailsIsNotDownload(id, tail);
    }
    IdOfIdentifier(id, slash);
  }

  /** An item's details or download page, with or without a trailing slash, resolves to the
      item's CDX file, with or without `--item`. */
  lemma ItemPageResolves(id: string, details: bool, slash: bool, item: bool)
    requires id != "" && '/' !in id
    ensures var page := "https://" + "archive.org/" + (if details then "details/" else "download/")
                        + id + (if slash then "/" else "");
            GetInputUrl(Some(page), item) == Some(DownloadUrl(id))
  {
    ItemPageId(id, if details then "details/" else "download/", slash);
  }

  /** The same pages resolve the same way as written, since the wildcard accepts the dot. */
  lemma ItemPageResolvesAsWritten(id: string, details: bool, slash: bool, item: bool)
    requires id != "" && '/' !in id
    ensures var page := "https://" + "archive.org/" + (if details then "details/" else "download/")
                        + id + (if slash then "/" else "");
            GetInputUrlAsWritten(Some(page), item) == Some(DownloadUrl(id))
  {
    var page := "https://" + "archive.org/" + (if details then "details/" else "download/")
                + id + (if slash then "/" else "");
    ItemPageId(id, if details then "details/" else "download/", slash);
    ItemIdRefines(page);
  }
}

=== FILE: counts.dfy ===
/** Insertion-ordered mappings: the shape of Python dicts, `Counter`s and two-level
    `defaultdict`s, and of JavaScript objects, all of which iterate in insertion order. */
module Counts {
  import opened Wrappers

  /** An ordered mapping from string keys; `Put` keeps keys unique. */
  type Assoc<V> = seq<(string, V)>

  /** A Python `Counter` / `defaultdict(int)`. */
  type Counter = Assoc<nat>

  /** A two-level count grid, `defaultdict(lambda: defaultdict(int))`. */
  type Grid = Assoc<Counter>

  function Keys<V>(a: Assoc<V>): (ks: seq<string>)
    ensures |ks| == |a|
    ensures forall i :: 0 <= i < |a| ==> ks[i] == a[i].0
  {
    if |a| == 0 then [] else [a[0].0] + Keys(a[1..])
  }

  function Values<V>(a: Assoc<V>): (vs: seq<V>)
    ensures |vs| == |a|
    ensures forall i :: 0 <= i < |a| ==> vs[i] == a[i].1
  {
    if |a| == 0 then [] else [a[0].1] + Values(a[1..])
  }

  predicate Unique<T(==)>(xs: seq<T>) {
    forall i, j :: 0 <= i < j < |xs| ==> xs[i] != xs[j]
  }

  /** Dictionary lookup: the value of the first entry with key `k`. */
  function Get<V(==)>(a: Assoc<V>, k: string): (r: Option<V>)
    ensures r.Some? <==> k in Keys(a)
  {
    if |a| == 0 then None
    else if a[0].0 == k then Some(a[0].1)
    else
      assert Keys(a) == [a[0].0] + Keys(a[1..]);
      Get(a[1..], k)
  }

  /** A lookup that succeeds finds an entry of the mapping. */
  lemma {:induction false} GetEntry<V>(a: Assoc<V>, k: string)
    requires Get(a, k).Some?
    ensures (k, Get(a, k).value) in a
  {
    if a[0].0 != k {
      GetEntry(a[1..], k);
    }
  }

  /** The lookup finds the first entry with key `k`: any later entry with that key is shadowed. */
  lemma {:induction false} GetFirst<V>(a: Assoc<V>, k: string, i: nat)
    requires i < |a| && a[i].0 == k
    requires forall j :: 0 <= j < i ==> a[j].0 != k
    ensures Get(a, k) == Some(a[i].1)
  {
    if i > 0 {
      assert a[0].0 != k;
      GetFirst(a[1..], k, i - 1);
    }
  }

  /** Dictionary assignment `a[k] = v`: an existing key keeps its place, a new key goes last. */
  function Put<V(==)>(a: Assoc<V>, k: string, v: V): (r: Assoc<V>)
    ensures Get(r, k) == Some(v)
    ensures forall j :: j != k ==> Get(r, j) == Get(a, j)
  {
    if |a| == 0 then [(k, v)]
    else if a[0].0 == k then
      var r := [(k, v)] + a[1..];
      assert r[1..] == a[1..];
      r
    else
      var rest := Put(a[1..], k, v);
      var r := [a[0]] + rest;
      assert r[1..] == rest;
      r
  }

  /** An existing key keeps its place among the keys; a new key is appended. */
  lemma {:induction false} PutKeys<V>(a: Assoc<V>, k: string, v: V)
    ensures k in Keys(a) ==> Keys(Put(a, k, v)) == Keys(a)
    ensures k !in Keys(a) ==> Keys(Put(a, k, v)) == Keys(a) + [k]
  {
    if |a| > 0 && a[0].0 != k {
      PutKeys(a[1..], k, v);
      assert Put(a, k, v)[1..] == Put(a[1..], k, v);
      assert Keys(a) == [a[0].0] + Keys(a[1..]);
    }
  }

  lemma PutGetSame<V>(a: Assoc<V>, k: string, v: V)
    ensures Get(Put(a, k, v), k) == Some(v)
  {
  }

  lemma PutGetOther<V>(a: Assoc<V>, k: string, v: V, j: string)
    requires j != k
    ensures Get(Put(a, k, v), j) == Get(a, j)
  {
  }

  /** A new element keeps a sequence free of repeats. */
  lemma UniqueSnoc<T>(xs: seq<T>, x: T)
    requires Unique(xs) && x !in xs
    ensures Unique(xs + [x])
  {
  }

  lemma PutUnique<V>(a: Assoc<V>, k: string, v: V)
    requires Unique(Keys(a))
    ensures Unique(Keys(Put(a, k, v)))
  {
    PutKeys(a, k, v);
  }

  /** `{k: v for k in keys}`. */
  function Constant<V>(keys: seq<string>, v: V): (a: Assoc<V>)
    ensures |a| == |keys|
    ensures forall i :: 0 <= i < |keys| ==> a[i] == (keys[i], v)
  {
    if |keys| == 0 then [] else [(keys[0], v)] + Constant(keys[1..], v)
  }

  lemma ConstantKeys<V>(keys: seq<string>, v: V)
    ensures Keys(Constant(keys, v)) == keys
  {
  }

  /** A lookup in a constant mapping finds the one value or nothing. */
  lemma {:induction false} ConstantGetValue<V>(keys: seq<string>, v: V, k: string)
    ensures Get(Constant(keys, v), k) == None || Get(Constant(keys, v), k) == Some(v)
  {
    if |keys| > 0 {
      var a := Constant(keys, v);
      assert a[1..] == Constant(keys[1..], v);
      ConstantGetValue(keys[1..], v, k);
    }
  }

  /** Every cell of a grid of zero rows is 0. */
  lemma ConstantZeroCell(rows: seq<string>, cols: seq<string>, l: string, c: string)
    ensures CellCount(Constant<Counter>(rows, Constant<nat>(cols, 0)), l, c) == 0
  {
    ConstantGetValue<Counter>(rows, Constant<nat>(cols, 0), l);
    ConstantGetValue<nat>(cols, 0, c);
  }

  /** Every key of a constant mapping finds the one value. */
  lemma ConstantGet<V>(keys: seq<string>, v: V, k: string)
    ensures Get(Constant(keys, v), k) == if k in keys then Some(v) else None
  {
    ConstantKeys(keys, v);
    var a := Constant(keys, v);
    if Get(a, k).Some? {
      GetEntry(a, k);
      var i :| 0 <= i < |a| && a[i] == (k, Get(a, k).value);
    }
  }

  // ------------------------------------------------------------------ sums

  /** The sum of a counter's values, `sum(c.values())`. */
  function Total(c: Counter): nat {
    if |c| == 0 then 0 else c[0].1 + Total(c[1..])
  }

  /** The sum of every cell of a grid. */
  function GridTotal(g: Grid): nat {
    if |g| == 0 then 0 else Total(g[0].1) + GridTotal(g[1..])
  }

  /** Assignment replaces the old count by the new one in the total. */
  lemma {:induction false} TotalPut(c: Counter, k: string, v: nat)
    ensures Total(Put(c, k, v)) + CountFor(c, k) == Total(c) + v
  {
    if |c| > 0 {
      if c[0].0 == k {
        assert ([(k, v)] + c[1..])[1..] == c[1..];
      } else {
        TotalPut(c[1..], k, v);
        assert ([c[0]] + Put(c[1..], k, v))[1..] == Put(c[1..], k, v);
      }
    }
  }

  /** Assignment replaces the old row by the new one in the grid total. */
  lemma {:induction false} GridTotalPut(g: Grid, k: string, row: Counter)
    ensures GridTotal(Put(g, k, row)) + Total(Get(g, k).GetOr([])) == GridTotal(g) + Total(row)
  {
    if |g| > 0 {
      if g[0].0 == k {
        assert ([(k, row)] + g[1..])[1..] == g[1..];
      } else {
        GridTotalPut(g[1..], k, row);
        assert ([g[0]] + Put(g[1..], k, row))[1..] == Put(g[1..], k, row);
      }
    }
  }

  lemma {:induction false} TotalPrefix(c: Counter, m: nat)
    requires m <= |c|
    ensures Total(c[..m]) <= Total(c)
  {
    if m > 0 {
      assert c[..m][1..] == c[1..][..m - 1];
      TotalPrefix(c[1..], m - 1);
    }
  }

  lemma {:induction false} ConstantZeroTotal(keys: seq<string>)
    ensures Total(Constant(keys, 0)) == 0
  {
    if |keys| > 0 {
      ConstantZeroTotal(keys[1..]);
    }
  }

  lemma {:induction false} ConstantGridTotal(keys: seq<string>, row: Counter)
    requires Total(row) == 0
    ensures GridTotal(Constant(keys, row)) == 0
  {
    if |keys| > 0 {
      ConstantGridTotal(keys[1..], row);
    }
  }

  /** Appending an entry adds its count to the total. */
  lemma {:induction false} TotalSnoc(c: Counter, e: (string, nat))
    ensures Total(c + [e]) == Total(c) + e.1
  {
    if |c| > 0 {
      assert (c + [e])[1..] == c[1..] + [e];
      TotalSnoc(c[1..], e);
    }
  }

  /** Appending a row adds its total to the grid total. */
  lemma {:induction false} GridTotalSnoc(g: Grid, e: (string, Counter))
    ensures GridTotal(g + [e]) == GridTotal(g) + Total(e.1)
  {
    if |g| > 0 {
      assert (g + [e])[1..] == g[1..] + [e];
      GridTotalSnoc(g[1..], e);
    }
  }

  /** The total is the total without the last entry plus its count. */
  lemma TotalLast(c: Counter)
    requires |c| > 0
    ensures Total(c) == Total(c[..|c| - 1]) + c[|c| - 1].1
  {
    assert c == c[..|c| - 1] + [c[|c| - 1]];
    TotalSnoc(c[..|c| - 1], c[|c| - 1]);
  }

  /** The grid total is the total without the last row plus that row's total. */
  lemma GridTotalLast(g: Grid)
    requires |g| > 0
    ensures GridTotal(g) == GridTotal(g[..|g| - 1]) + Total(g[|g| - 1].1)
  {
    assert g == g[..|g| - 1] + [g[|g| - 1]];
    GridTotalSnoc(g[..|g| - 1], g[|g| - 1]);
  }

  /** With unique keys, looking up an entry's key finds that entry. */
  lemma {:induction false} GetAt<V>(a: Assoc<V>, i: nat)
    requires i < |a| && Unique(Keys(a))
    ensures Get(a, a[i].0) == Some(a[i].1)
  {
    if i > 0 {
      assert Keys(a)[0] != Keys(a)[i];
      assert Keys(a[1..]) == Keys(a)[1..];
      GetAt(a[1..], i - 1);
    }
  }

  /** Assigning a new key appends it. */
  lemma {:induction false} PutAppends<V>(a: Assoc<V>, k: string, v: V)
    requires k !in Keys(a)
    ensures Put(a, k, v) == a + [(k, v)]
  {
    if |a| > 0 {
      assert Keys(a)[0] == a[0].0;
      KeysTail(a);
      PutAppends(a[1..], k, v);
      ConsAppend(a, (k, v));
    }
  }

  lemma KeysTail<V>(a: Assoc<V>)
    requires |a| > 0
    ensures Keys(a[1..]) == Keys(a)[1..]
  {
  }

  lemma ConsAppend<T>(a: seq<T>, e: T)
    requires |a| > 0
    ensures [a[0]] + (a[1..] + [e]) == a + [e]
  {
  }

  /** The count stored for `k`, zero when absent (`Counter.__getitem__`). */
  function CountFor(c: Counter, k: string): nat {
    Get(c, k).GetOr(0)
  }

  // ------------------------------------------------------------------ counting

  /** `counter[k] += n`: the key's count grows by `n`, every other key keeps its count,
      a new key is appended, and the total grows by exactly `n`. */
  function Add(c: Counter, k: string, n: nat): (r: Counter)
    ensures k in Keys(r) && CountFor(r, k) == CountFor(c, k) + n
    ensures forall j :: j != k ==> Get(r, j) == Get(c, j)
    ensures k in Keys(c) ==> Keys(r) == Keys(c)
    ensures k !in Keys(c) ==> Keys(r) == Keys(c) + [k]
    ensures Total(r) == Total(c) + n
  {
    var v: nat := CountFor(c, k) + n;
    var r := Put<nat>(c, k, v);
    TotalPut(c, k, v);
    PutKeys(c, k, v);
    assert Get(r, k) == Some(v);
    r
  }

  /** `grid[row][col] += n` on a two-level `defaultdict`: a missing row or cell starts at 0,
      only that one cell changes, and the grid total grows by exactly `n`. */
  function GridAdd(g: Grid, row: string, col: string, n: nat): (r: Grid)
    ensures Get(r, row) == Some(Add(Get(g, row).GetOr([]), col, n))
    ensures forall j :: j != row ==> Get(r, j) == Get(g, j)
    ensures row in Keys(g) ==> Keys(r) == Keys(g)
    ensures row !in Keys(g) ==> Keys(r) == Keys(g) + [row]
    ensures GridTotal(r) == GridTotal(g) + n
  {
    var old_row := Get(g, row).GetOr([]);
    var new_row := Add(old_row, col, n);
    GridTotalPut(g, row, new_row);
    PutKeys(g, row, new_row);
    Put<Counter>(g, row, new_row)
  }

  /** `grid[row][col]` on a two-level `defaultdict`: 0 for a missing row or cell. */
  function CellCount(g: Grid, row: string, col: string): nat {
    CountFor(Get(g, row).GetOr([]), col)
  }

  /** Adding to one cell changes no other cell. */
  lemma GridAddCell(g: Grid, row: string, col: string, n: nat, r2: string, c2: string)
    ensures CellCount(GridAdd(g, row, col, n), r2, c2)
            == CellCount(g, r2, c2) + (if r2 == row && c2 == col then n else 0)
  {
  }

  // ------------------------------------------------------------------ column sums

  /** The sum of column `col` over every row, a missing cell counting 0. */
  function ColumnSum(g: Grid, col: string): nat {
    if |g| == 0 then 0 else CountFor(g[0].1, col) + ColumnSum(g[1..], col)
  }

  /** The sum of a row's cells in the columns `cols`. */
  function RowSum(row: Counter, cols: seq<string>): nat {
    if |cols| == 0 then 0 else CountFor(row, cols[0]) + RowSum(row, cols[1..])
  }

  /** The column sums of `cols`, added up. */
  function ColumnsTotal(g: Grid, cols: seq<string>): nat {
    if |cols| == 0 then 0 else ColumnSum(g, cols[0]) + ColumnsTotal(g, cols[1..])
  }

  /** Whether each row has exactly the keys `cols`, in that order. */
  predicate Rectangular(g: Grid, cols: seq<string>) {
    forall i :: 0 <= i < |g| ==> Keys(g[i].1) == cols
  }

  /** Summing by columns is summing the first row and then the rest. */
  lemma {:induction false} ColumnsTotalSplit(g: Grid, cols: seq<string>)
    requires |g| > 0
    ensures ColumnsTotal(g, cols) == RowSum(g[0].1, cols) + ColumnsTotal(g[1..], cols)
  {
    if |cols| > 0 {
      ColumnsTotalSplit(g, cols[1..]);
    }
  }

  /** A key outside `cols` does not matter to a row's sum over `cols`. */
  lemma {:induction false} RowSumSkip(row: Counter, cols: seq<string>)
    requires |row| > 0 && row[0].0 !in cols
    ensures RowSum(row, cols) == RowSum(row[1..], cols)
  {
    if |cols| > 0 {
      assert Keys(row) == [row[0].0] + Keys(row[1..]);
      RowSumSkip(row, cols[1..]);
    }
  }

  /** A row whose keys are exactly the distinct `cols` sums, over `cols`, to its total. */
  lemma {:induction false} RowSumTotal(row: Counter, cols: seq<string>)
    requires Keys(row) == cols && Unique(cols)
    ensures RowSum(row, cols) == Total(row)
  {
    if |row| > 0 {
      assert Keys(row[1..]) == cols[1..];
      assert cols[0] !in cols[1..];
      RowSumSkip(row, cols[1..]);
      RowSumTotal(row[1..], cols[1..]);
    }
  }

  /** When every row has exactly the distinct keys `cols`, the column sums add up to the
      grid total: summing by columns or by rows gives the same number. */
  lemma {:induction false} ColumnsTotalIsGridTotal(g: Grid, cols: seq<string>)
    requires Rectangular(g, cols) && Unique(cols)
    ensures ColumnsTotal(g, cols) == GridTotal(g)
  {
    if |g| > 0 {
      ColumnsTotalSplit(g, cols);
      RowSumTotal(g[0].1, cols);
      assert Rectangular(g[1..], cols) by {
        forall i | 0 <= i < |g| - 1 ensures Keys(g[1..][i].1) == cols {
          assert g[1..][i] == g[i + 1];
        }
      }
      ColumnsTotalIsGridTotal(g[1..], cols);
    } else {
      NoRowsNoTotal(cols);
    }
  }

  lemma {:induction false} NoRowsNoTotal(cols: seq<string>)
    ensures ColumnsTotal([], cols) == 0
  {
    if |cols| > 0 {
      NoRowsNoTotal(cols[1..]);
    }
  }

  // ------------------------------------------------------------------ ranking

  predicate SortedDesc(c: Counter) {
    forall i, j :: 0 <= i < j < |c| ==> c[i].1 >= c[j].1
  }

  /** An entry counted at least as high as every entry of a sorted counter can go first. */
  lemma SortedCons(x: (string, nat), c: Counter)
    requires SortedDesc(c) && forall y :: y in c ==> y.1 <= x.1
    ensures SortedDesc([x] + c)
  {
    assert forall j :: 0 <= j < |c| ==> c[j] in c;
  }

  /** Inserts `e` before the first entry whose count does not exceed its own. */
  function InsertDesc(e: (string, nat), c: Counter): (r: Counter)
    requires SortedDesc(c)
    ensures |r| == |c| + 1
    ensures SortedDesc(r)
    ensures forall x :: x in r ==> x == e || x in c
  {
    if |c| == 0 || c[0].1 <= e.1 then
      var r := [e] + c;
      assert r[1..] == c;
      r
    else
      var rest := InsertDesc(e, c[1..]);
      assert c == [c[0]] + c[1..];
      assert forall x :: x in c[1..] ==> x.1 <= c[0].1;
      SortedCons(c[0], rest);
      [c[0]] + rest
  }

  /** Inserting adds the entry and keeps every other one. */
  lemma {:induction false} InsertDescPerm(e: (string, nat), c: Counter)
    requires SortedDesc(c)
    ensures multiset(InsertDesc(e, c)) == multiset(c) + multiset{e}
  {
    if |c| > 0 && c[0].1 > e.1 {
      InsertDescPerm(e, c[1..]);
      assert c == [c[0]] + c[1..];
    }
  }

  /** Inserting an entry adds its count to the total. */
  lemma {:induction false} InsertDescTotal(e: (string, nat), c: Counter)
    requires SortedDesc(c)
    ensures Total(InsertDesc(e, c)) == Total(c) + e.1
  {
    if |c| == 0 || c[0].1 <= e.1 {
      assert ([e] + c)[1..] == c;
    } else {
      InsertDescTotal(e, c[1..]);
      assert ([c[0]] + InsertDesc(e, c[1..]))[1..] == InsertDesc(e, c[1..]);
    }
  }

  /** A stable sort by descending count (the order `sorted(..., reverse=True)` gives). */
  function SortDesc(c: Counter): (r: Counter)
    ensures |r| == |c|
    ensures SortedDesc(r)
    ensures multiset(r) == multiset(c)
    ensures Total(r) == Total(c)
  {
    if |c| == 0 then []
    else
      assert c == [c[0]] + c[1..];
      InsertDescTotal(c[0], SortDesc(c[1..]));
      InsertDescPerm(c[0], SortDesc(c[1..]));
      InsertDesc(c[0], SortDesc(c[1..]))
  }

  /** How many entries `most_common(n)` keeps: all for `None`, none for `n <= 0`. */
  function Kept(size: nat, n: Option<int>): (m: nat)
    ensures m <= size
  {
    match n
    case None => size
    case Some(k) => if k <= 0 then 0 else if k < size then k else size
  }

  /** `Counter.most_common(n)`: the `Kept` largest entries by count, in descending order,
      a sub-multiset of the counter whose total does not exceed the counter's. */
  function MostCommon(c: Counter, n: Option<int>): (r: Counter)
    ensures |r| == Kept(|c|, n)
    ensures SortedDesc(r)
    ensures multiset(r) <= multiset(c)
    ensures Total(r) <= Total(c)
  {
    var s := SortDesc(c);
    var m := Kept(|c|, n);
    assert s == s[..m] + s[m..];
    TotalPrefix(s, m);
    s[..m]
  }

  /** Nothing left out of `most_common(n)` outranks anything kept. */
  lemma MostCommonKeepsLargest(c: Counter, n: Option<int>)
    ensures var r := MostCommon(c, n);
            var rest := SortDesc(c)[Kept(|c|, n)..];
            && multiset(r) + multiset(rest) == multiset(c)
            && forall i, j :: 0 <= i < |r| && 0 <= j < |rest| ==> rest[j].1 <= r[i].1
  {
    SplitSorted(SortDesc(c), Kept(|c|, n));
  }

  /** With distinct keys, every entry `most_common(n)` keeps is a key with its own count. */
  lemma MostCommonEntries(c: Counter, n: Option<int>)
    requires Unique(Keys(c))
    ensures var m := MostCommon(c, n);
            forall i :: 0 <= i < |m| ==> m[i].0 in Keys(c) && m[i].1 == CountFor(c, m[i].0)
  {
    var m := MostCommon(c, n);
    forall i | 0 <= i < |m| ensures m[i].0 in Keys(c) && m[i].1 == CountFor(c, m[i].0) {
      assert m[i] in multiset(m);
      var j :| 0 <= j < |c| && c[j] == m[i];
      GetAt(c, j);
      assert Keys(c)[j] == c[j].0;
    }
  }

  /** An entry whose key was not kept lies in the part cut off. */
  lemma CutEntry(c: Counter, m: Counter, rest: Counter, e: (string, nat))
    requires multiset(m) + multiset(rest) == multiset(c)
    requires e in c && e.0 !in Keys(m)
    ensures e in rest
  {
    forall l | 0 <= l < |m| ensures m[l] != e {
      assert Keys(m)[l] == m[l].0;
    }
    assert e in multiset(c);
    assert e !in multiset(m);
  }

  /** With distinct keys, a key that `most_common(n)` leaves out counts no more than any entry
      it keeps. */
  lemma MostCommonLeftOut(c: Counter, n: Option<int>, k: string)
    requires Unique(Keys(c)) && k in Keys(c) && k !in Keys(MostCommon(c, n))
    ensures var m := MostCommon(c, n);
            forall i :: 0 <= i < |m| ==> CountFor(c, k) <= m[i].1
  {
    var m := MostCommon(c, n);
    var rest := SortDesc(c)[Kept(|c|, n)..];
    MostCommonKeepsLargest(c, n);
    var j :| 0 <= j < |c| && Keys(c)[j] == k;
    GetAt(c, j);
    CutEntry(c, m, rest, c[j]);
    var l :| 0 <= l < |rest| && rest[l] == c[j];
  }

  /** Cutting a descending ranking leaves nothing after the cut above anything before it. */
  lemma SplitSorted(s: Counter, m: nat)
    requires SortedDesc(s) && m <= |s|
    ensures multiset(s[..m]) + multiset(s[m..]) == multiset(s)
    ensures forall i, j :: 0 <= i < m && 0 <= j < |s| - m ==> s[m..][j].1 <= s[..m][i].1
  {
    assert s == s[..m] + s[m..];
    forall i, j | 0 <= i < m && 0 <= j < |s| - m
      ensures s[m..][j].1 <= s[..m][i].1
    {
      assert s[..m][i] == s[i] && s[m..][j] == s[m + j];
    }
  }
}

=== FILE: parser.dfy ===
/** One line of a CDX capture index: the record pattern, the record it yields and the
    segment counts derived from its path and query (cdxsummary/parser.py).

    The record pattern is anchored only at the start, every required field is followed by a
    single whitespace character, and every optional trailing field is followed only by other
    optional fields. Backtracking therefore never changes the outcome of a match: each
    required field is the maximal non-space run at its position, and each optional field is
    taken greedily, with its first alternative, whenever it can start. `Scan` is that
    deterministic reading. */
module Parser {
  import opened Wrappers
  import opened Strings

  /** Every named group of the pattern (an absent optional group is ""), plus the segment
      counts of the path and of the query. */
  datatype CdxRecord = CdxRecord(
    surt: string, host: string, path: string, query: string,
    datetime: string, year: string, month: string, day: string,
    hour: string, minute: string, second: string,
    url: string, mime: string, status: string, digest: string,
    redirect: string, metatags: string, bytes: string, offset: string, warcfile: string,
    pathlen: nat, querylen: nat)

  // ------------------------------------------------------------------ character classes

  function NonSpace(c: char): bool {
    !IsSpace(c)
  }

  /** `[^\s\d]`, the class of the redirect and meta-tags fields. */
  function WordChar(c: char): bool {
    !IsSpace(c) && !IsDigit(c)
  }

  function Digit(c: char): bool {
    IsDigit(c)
  }

  function NotParen(c: char): bool {
    c != ')'
  }

  function NotQuery(c: char): bool {
    c != '?'
  }

  /** The separator set handed to `str.strip`. */
  function IsSep(sep: char): char -> bool {
    c => c == sep
  }

  // ------------------------------------------------------------------ field shapes

  /** `\S+` */
  predicate IsToken(s: string) {
    |s| > 0 && NoSpace(s)
  }

  /** `[^\s\d]+` */
  predicate IsWord(s: string) {
    |s| > 0 && forall i :: 0 <= i < |s| ==> WordChar(s[i])
  }

  /** `-|\d{3}` */
  predicate IsStatus(s: string) {
    s == "-" || (|s| == 3 && AllDigits(s))
  }

  /** `-|\d+` */
  predicate IsNumberField(s: string) {
    s == "-" || IsDigits(s)
  }

  /** The SURT as the pattern assembles it: host, `)`, path, and `?query` when there is a query. */
  function SurtOf(host: string, path: string, query: string): string {
    host + ")" + path + (if query == "" then "" else "?" + query)
  }

  /** What every record read from a line satisfies. */
  predicate WellFormed(r: CdxRecord) {
    && |r.host| > 0 && NoSpace(r.host) && ')' !in r.host
    && NoSpace(r.path) && '?' !in r.path
    && NoSpace(r.query)
    && r.surt == SurtOf(r.host, r.path, r.query)
    && |r.datetime| == 14 && AllDigits(r.datetime)
    && r.year == r.datetime[..4] && r.month == r.datetime[4..6] && r.day == r.datetime[6..8]
    && r.hour == r.datetime[8..10] && r.minute == r.datetime[10..12] && r.second == r.datetime[12..]
    && IsToken(r.url) && IsToken(r.mime) && IsStatus(r.status) && IsToken(r.digest)
    && (r.redirect == "" || IsWord(r.redirect))
    && (r.metatags == "" || IsWord(r.metatags))
    && (r.bytes == "" || IsNumberField(r.bytes))
    && (r.offset == "" || IsNumberField(r.offset))
    && NoSpace(r.warcfile)
    && r.pathlen == SegmentLength(r.path, '/')
    && r.querylen == SegmentLength(r.query, '&')
  }

  // ------------------------------------------------------------------ segment counts

  /** `_segment_length(seg, sep)`: the number of `sep`-separated pieces once leading and
      trailing separators are stripped, 0 when nothing is left. It is 0 exactly when `seg`
      holds nothing but separators, and otherwise it counts the pieces of the stripped
      segment and never exceeds the segment's length. */
  function SegmentLength(seg: string, sep: char): (n: nat)
    ensures n == 0 <==> forall i :: 0 <= i < |seg| ==> seg[i] == sep
    ensures n > 0 ==> n == |Split(Strip(seg, IsSep(sep)), sep)|
    ensures n <= |seg|
  {
    var t := Strip(seg, IsSep(sep));
    if |t| > 0 then
      assert t[0] != sep;
      assert CountChar(t, sep) == CountChar(t[1..], sep);
      CountChar(t, sep) + 1
    else
      0
  }

  /** A separator added in front of a segment does not change its length. */
  lemma SegmentLengthLeading(seg: string, sep: char)
    ensures SegmentLength([sep] + seg, sep) == SegmentLength(seg, sep)
  {
    StripPrepend(sep, seg, IsSep(sep));
  }

  /** A separator added after a segment does not change its length. */
  lemma SegmentLengthTrailing(seg: string, sep: char)
    ensures SegmentLength(seg + [sep], sep) == SegmentLength(seg, sep)
  {
    StripAppend(seg, sep, IsSep(sep));
  }

  /** Without stray separators, the count is one more than the number of separators. */
  lemma SegmentLengthInner(seg: string, sep: char)
    requires |seg| > 0 && seg[0] != sep && seg[|seg| - 1] != sep
    ensures SegmentLength(seg, sep) == CountChar(seg, sep) + 1
  {
    StripKeeps(seg, IsSep(sep));
  }

  // ------------------------------------------------------------------ scanning

  /** `\s(?P<x>\S+)`: one whitespace character, then the maximal non-space run. */
  function Field(s: string): (r: Option<(string, string)>)
    ensures r.Some? ==> IsToken(r.value.0)
    ensures r.Some? ==> |r.value.1| == 0 || IsSpace(r.value.1[0])
    ensures r.Some? ==> |s| > 0 && IsSpace(s[0]) && s == [s[0]] + r.value.0 + r.value.1
  {
    if |s| >= 2 && IsSpace(s[0]) && !IsSpace(s[1]) then
      var n := Span(s[1..], NonSpace);
      assert s == [s[0]] + s[1..1 + n] + s[1 + n..];
      var tok := s[1..1 + n];
      assert NoSpace(tok) by {
        forall i | 0 <= i < |tok| ensures !IsSpace(tok[i]) {
          assert tok[i] == s[1..][i];
          assert NonSpace(s[1..][i]);
        }
      }
      Some((s[1..1 + n], s[1 + n..]))
    else
      None
  }

  /** `(\s(?P<x>[^\s\d]+))?`, taken whenever it can start. */
  function OptWord(s: string): (r: (string, string))
    ensures r.0 == "" ==> r.1 == s
    ensures r.0 != "" ==> IsWord(r.0) && |s| > 0 && IsSpace(s[0]) && s == [s[0]] + r.0 + r.1
  {
    if |s| >= 2 && IsSpace(s[0]) && WordChar(s[1]) then
      var n := Span(s[1..], WordChar);
      assert s[1..][0] == s[1];
      var word := s[1..1 + n];
      assert IsWord(word) by {
        forall i | 0 <= i < |word| ensures WordChar(word[i]) {
          assert word[i] == s[1..][i];
        }
      }
      assert s == [s[0]] + s[1..1 + n] + s[1 + n..];
      (s[1..1 + n], s[1 + n..])
    else
      ("", s)
  }

  /** `(\s(?P<x>(-|\d+)))?`, taken whenever it can start, `-` tried first. */
  function OptNumber(s: string): (r: (string, string))
    ensures r.0 == "" ==> r.1 == s
    ensures r.0 != "" ==> IsNumberField(r.0) && |s| > 0 && IsSpace(s[0]) && s == [s[0]] + r.0 + r.1
  {
    if |s| >= 2 && IsSpace(s[0]) && s[1] == '-' then
      assert s == [s[0]] + "-" + s[2..];
      ("-", s[2..])
    else if |s| >= 2 && IsSpace(s[0]) && IsDigit(s[1]) then
      var n := Span(s[1..], Digit);
      assert s[1..][0] == s[1];
      var digits := s[1..1 + n];
      assert AllDigits(digits) by {
        forall i | 0 <= i < |digits| ensures IsDigit(digits[i]) {
          assert digits[i] == s[1..][i];
          assert Digit(s[1..][i]);
        }
      }
      assert s == [s[0]] + s[1..1 + n] + s[1 + n..];
      (s[1..1 + n], s[1 + n..])
    else
      ("", s)
  }

  /** `(\s(?P<x>\S+))?`, taken whenever it can start. */
  function OptToken(s: string): (r: (string, string))
    ensures r.0 == "" ==> r.1 == s
    ensures r.0 != "" ==> IsToken(r.0)
  {
    match Field(s)
    case Some(p) => p
    case None => ("", s)
  }

  /** `(?P<host>[^\)\s]+)\)(?P<path>[^\?\s]+)?(\?(?P<query>\S+))?` over the first token. */
  function SplitSurt(tok: string): (r: Option<(string, string, string)>)
    ensures r.Some? ==> var (host, path, query) := r.value;
      && |host| > 0 && ')' !in host && '?' !in path
      && tok == SurtOf(host, path, query)
  {
    var h := Span(tok, NotParen);
    if h == 0 || h == |tok| then None
    else
      var rest := tok[h + 1..];
      var p := Span(rest, NotQuery);
      assert ')' !in tok[..h];
      if p == |rest| then
        assert '?' !in rest;
        assert tok == tok[..h] + ")" + rest;
        Some((tok[..h], rest, ""))
      else if p + 1 == |rest| then None
      else
        assert '?' !in rest[..p];
        assert tok == tok[..h] + ")" + rest[..p] + ("?" + rest[p + 1..]);
        Some((tok[..h], rest[..p], rest[p + 1..]))
  }

  /** The parts of a space-free SURT are space-free. */
  lemma SurtPartsNoSpace(surt: string, host: string, path: string, query: string)
    requires NoSpace(surt) && surt == SurtOf(host, path, query)
    ensures NoSpace(host) && NoSpace(path) && NoSpace(query)
  {
    assert forall i :: 0 <= i < |host| ==> host[i] == surt[i];
    assert forall i :: 0 <= i < |path| ==> path[i] == surt[|host| + 1 + i];
    if query != "" {
      assert forall i :: 0 <= i < |query| ==> query[i] == surt[|host| + 1 + |path| + 1 + i];
    }
  }

  /** The five optional trailing fields, each read greedily in turn. */
  function ScanTrailer(s: string): (r: (string, string, string, string, string))
    ensures r.0 == "" || IsWord(r.0)
    ensures r.1 == "" || IsWord(r.1)
    ensures r.2 == "" || IsNumberField(r.2)
    ensures r.3 == "" || IsNumberField(r.3)
    ensures NoSpace(r.4)
  {
    var (redirect, s6) := OptWord(s);
    var (metatags, s7) := OptWord(s6);
    var (bytes, s8) := OptNumber(s7);
    var (offset, s9) := OptNumber(s8);
    var (warcfile, _) := OptToken(s9);
    (redirect, metatags, bytes, offset, warcfile)
  }

  /** The five required fields after the SURT and what follows the last of them. */
  datatype Required = Required(
    datetime: string, url: string, mime: string, status: string, digest: string, rest: string)

  /** `\s(?P<datetime>\d{14})\s(?P<url>\S+)\s(?P<mime>\S+)\s(?P<status>-|\d{3})\s(?P<digest>\S+)` */
  function ScanRequired(s: string): (r: Option<Required>)
    ensures r.Some? ==> |r.value.datetime| == 14 && AllDigits(r.value.datetime)
    ensures r.Some? ==> IsToken(r.value.url) && IsToken(r.value.mime) && IsToken(r.value.digest)
    ensures r.Some? ==> IsStatus(r.value.status)
  {
    var f1 := Field(s);
    if f1.None? || |f1.value.0| != 14 || !AllDigits(f1.value.0) then None
    else
      var f2 := Field(f1.value.1);
      if f2.None? then None
      else
        var f3 := Field(f2.value.1);
        if f3.None? then None
        else
          var f4 := Field(f3.value.1);
          if f4.None? || !IsStatus(f4.value.0) then None
          else
            var f5 := Field(f4.value.1);
            if f5.None? then None
            else Some(Required(f1.value.0, f2.value.0, f3.value.0, f4.value.0, f5.value.0, f5.value.1))
  }

  /** The record a SURT, its parts and the remaining fields make. */
  function Assemble(surt: string, host: string, path: string, query: string, f: Required): CdxRecord
    requires |f.datetime| == 14
  {
    var (redirect, metatags, bytes, offset, warcfile) := ScanTrailer(f.rest);
    var dt := f.datetime;
    CdxRecord(
      surt, host, path, query,
      dt, dt[..4], dt[4..6], dt[6..8], dt[8..10], dt[10..12], dt[12..],
      f.url, f.mime, f.status, f.digest,
      redirect, metatags, bytes, offset, warcfile,
      SegmentLength(path, '/'), SegmentLength(query, '&'))
  }

  /** The pattern applied to an already stripped line. */
  function Scan(t: string): (r: Option<CdxRecord>)
    ensures r.Some? ==> WellFormed(r.value)
  {
    var n := Span(t, NonSpace);
    var surt := t[..n];
    var parts := SplitSurt(surt);
    if parts.None? then None
    else
      var (host, path, query) := parts.value;
      SurtPartsNoSpace(surt, host, path, query);
      var f := ScanRequired(t[n..]);
      if f.None? then None
      else Some(Assemble(surt, host, path, query, f.value))
  }

  /** `CDXRecord(line)`: strips the line and reads it with the record pattern; a line that
      does not match is a `ValueError`, and every record read is well formed. */
  function Parse(line: string): (r: Result<CdxRecord>)
    ensures r.Ok? ==> WellFormed(r.value)
    ensures r.Err? ==> r.message == "Invalid CDX line: '" + Strip(line, IsSpace) + "'"
  {
    var t := Strip(line, IsSpace);
    match Scan(t)
    case Some(rec) => Ok(rec)
    case None => Err("Invalid CDX line: '" + t + "'")
  }

  // ------------------------------------------------------------------ writing a record back

  /** An optional field as a line carries it: an absent field leaves no trace. */
  function Opt(f: string): string {
    if f == "" then "" else " " + f
  }

  function Trailer(r: CdxRecord): string {
    Opt(r.redirect) + (Opt(r.metatags) + (Opt(r.bytes) + (Opt(r.offset) + Opt(r.warcfile))))
  }

  /** A record written as a line, its fields separated by single spaces. */
  function Format(r: CdxRecord): string {
    r.surt + (" " + r.datetime + (" " + r.url + (" " + r.mime + (" " + r.status
      + (" " + r.digest + Trailer(r))))))
  }

  /** A well-formed record whose optional fields are present only after every earlier one,
      as in the eleven-field CDX lines the tool is fed, so that each is read back in place. */
  predicate Canonical(r: CdxRecord) {
    && WellFormed(r)
    && (r.metatags != "" ==> r.redirect != "")
    && (r.bytes != "" ==> r.metatags != "")
    && (r.offset != "" ==> r.bytes != "")
    && (r.warcfile != "" ==> r.offset != "")
  }

  predicate StartsSpaced(s: string) {
    |s| == 0 || IsSpace(s[0])
  }

  lemma FieldOf(tok: string, rest: string)
    requires IsToken(tok) && StartsSpaced(rest)
    ensures Field(" " + tok + rest) == Some((tok, rest))
  {
    var s := " " + tok + rest;
    assert s[1..] == tok + rest;
    SpanConcat(tok, rest, NonSpace);
    assert s[1..1 + |tok|] == tok;
    assert s[1 + |tok|..] == rest;
  }

  lemma OptWordOf(w: string, rest: string)
    requires IsWord(w) && StartsSpaced(rest)
    ensures OptWord(" " + w + rest) == (w, rest)
  {
    var s := " " + w + rest;
    assert s[1..] == w + rest;
    SpanConcat(w, rest, WordChar);
    assert s[1..1 + |w|] == w;
    assert s[1 + |w|..] == rest;
  }

  lemma OptNumberOf(f: string, rest: string)
    requires IsNumberField(f) && StartsSpaced(rest)
    ensures OptNumber(" " + f + rest) == (f, rest)
  {
    var s := " " + f + rest;
    assert s[1..] == f + rest;
    if f != "-" {
      SpanConcat(f, rest, Digit);
      assert s[1..1 + |f|] == f;
    }
    assert s[1 + |f|..] == rest;
  }

  lemma ScanTrailerOf(r: CdxRecord)
    requires Canonical(r)
    ensures ScanTrailer(Trailer(r)) == (r.redirect, r.metatags, r.bytes, r.offset, r.warcfile)
  {
    var t5 := Opt(r.warcfile);
    var t4 := Opt(r.offset) + t5;
    var t3 := Opt(r.bytes) + t4;
    var t2 := Opt(r.metatags) + t3;
    if r.redirect != "" {
      OptWordOf(r.redirect, t2);
      if r.metatags != "" {
        OptWordOf(r.metatags, t3);
        if r.bytes != "" {
          OptNumberOf(r.bytes, t4);
          if r.offset != "" {
            OptNumberOf(r.offset, t5);
            if r.warcfile != "" {
              FieldOf(r.warcfile, "");
              assert " " + r.warcfile + "" == t5;
            }
          }
        }
      }
    }
  }

  /** The last character of a non-empty string. */
  predicate EndsUnspaced(s: string) {
    |s| > 0 && !IsSpace(s[|s| - 1])
  }

  lemma OptEnds(f: string)
    requires f == "" || EndsUnspaced(f)
    ensures Opt(f) == "" || EndsUnspaced(Opt(f))
  {
  }

  lemma AppendEnds(a: string, b: string)
    requires a == "" || EndsUnspaced(a)
    requires b == "" || EndsUnspaced(b)
    ensures a + b == "" || EndsUnspaced(a + b)
  {
    if b == "" {
      assert a + b == a;
    }
  }

  lemma FieldEnds(f: string)
    requires IsWord(f) || IsNumberField(f) || (f != "" && NoSpace(f))
    ensures EndsUnspaced(f)
  {
    if IsWord(f) {
      assert WordChar(f[|f| - 1]);
    } else if IsNumberField(f) && f != "-" {
      assert IsDigit(f[|f| - 1]);
    }
  }

  lemma OptionalFieldsEnd(redirect: string, metatags: string, bytes: string, offset: string,
                          warcfile: string)
    requires redirect == "" || IsWord(redirect)
    requires metatags == "" || IsWord(metatags)
    requires bytes == "" || IsNumberField(bytes)
    requires offset == "" || IsNumberField(offset)
    requires NoSpace(warcfile)
    ensures var t := Opt(redirect) + (Opt(metatags) + (Opt(bytes) + (Opt(offset) + Opt(warcfile))));
            t == "" || EndsUnspaced(t)
  {
    if redirect != "" { FieldEnds(redirect); }
    if metatags != "" { FieldEnds(metatags); }
    if bytes != "" { FieldEnds(bytes); }
    if offset != "" { FieldEnds(offset); }
    if warcfile != "" { FieldEnds(warcfile); }
    OptEnds(redirect);
    OptEnds(metatags);
    OptEnds(bytes);
    OptEnds(offset);
    OptEnds(warcfile);
    AppendEnds(Opt(offset), Opt(warcfile));
    AppendEnds(Opt(bytes), Opt(offset) + Opt(warcfile));
    AppendEnds(Opt(metatags), Opt(bytes) + (Opt(offset) + Opt(warcfile)));
    AppendEnds(Opt(redirect), Opt(metatags) + (Opt(bytes) + (Opt(offset) + Opt(warcfile))));
  }

  lemma TrailerEnds(r: CdxRecord)
    requires Canonical(r)
    ensures Trailer(r) == "" || EndsUnspaced(Trailer(r))
  {
    OptionalFieldsEnd(r.redirect, r.metatags, r.bytes, r.offset, r.warcfile);
  }

  lemma SurtNoSpace(host: string, path: string, query: string)
    requires NoSpace(host) && NoSpace(path) && NoSpace(query)
    ensures NoSpace(SurtOf(host, path, query))
  {
  }

  lemma SplitSurtOf(host: string, path: string, query: string)
    requires |host| > 0 && ')' !in host && '?' !in path
    ensures SplitSurt(SurtOf(host, path, query)) == Some((host, path, query))
  {
    var q := if query == "" then "" else "?" + query;
    var tok := SurtOf(host, path, query);
    assert tok == host + (")" + path + q);
    SpanConcat(host, ")" + path + q, NotParen);
    var rest := tok[|host| + 1..];
    assert rest == path + q;
    SpanConcat(path, q, NotQuery);
    assert tok[..|host|] == host;
    assert rest[..|path|] == path;
    if query == "" {
      assert rest == path + "" == path;
    } else {
      assert rest[|path| + 1..] == query;
    }
  }

  /** The text the five required fields occupy, followed by `rest`. */
  function RequiredText(dt: string, url: string, mime: string, status: string, digest: string,
                        rest: string): string {
    " " + dt + (" " + url + (" " + mime + (" " + status + (" " + digest + rest))))
  }

  lemma ScanRequiredOf(dt: string, url: string, mime: string, status: string, digest: string,
                       rest: string)
    requires |dt| == 14 && AllDigits(dt)
    requires IsToken(url) && IsToken(mime) && IsStatus(status) && IsToken(digest)
    requires StartsSpaced(rest)
    ensures ScanRequired(RequiredText(dt, url, mime, status, digest, rest))
      == Some(Required(dt, url, mime, status, digest, rest))
  {
    var rest6 := " " + digest + rest;
    var rest5 := " " + status + rest6;
    var rest4 := " " + mime + rest5;
    var rest3 := " " + url + rest4;
    FieldOf(dt, rest3);
    FieldOf(url, rest4);
    FieldOf(mime, rest5);
    assert IsToken(status);
    FieldOf(status, rest6);
    FieldOf(digest, rest);
  }

  lemma FormatStripped(r: CdxRecord)
    requires Canonical(r)
    ensures Strip(Format(r), IsSpace) == Format(r)
  {
    var line := Format(r);
    var rest6 := " " + r.digest + Trailer(r);
    TrailerEnds(r);
    assert EndsUnspaced(rest6);
    assert line[0] == r.host[0];
    assert line[|line| - 1] == rest6[|rest6| - 1];
    StripKeeps(line, IsSpace);
  }

  /** The fields of a canonical record, put back together, are the record. */
  lemma AssembleOf(r: CdxRecord)
    requires Canonical(r)
    ensures Assemble(r.surt, r.host, r.path, r.query,
                     Required(r.datetime, r.url, r.mime, r.status, r.digest, Trailer(r))) == r
  {
    ScanTrailerOf(r);
  }

  lemma ScanFormat(r: CdxRecord)
    requires Canonical(r)
    ensures Scan(Format(r)) == Some(r)
  {
    var line := Format(r);
    var rest2 := RequiredText(r.datetime, r.url, r.mime, r.status, r.digest, Trailer(r));
    assert line == r.surt + rest2;
    SurtNoSpace(r.host, r.path, r.query);
    SpanConcat(r.surt, rest2, NonSpace);
    assert line[..|r.surt|] == r.surt && line[|r.surt|..] == rest2;
    SplitSurtOf(r.host, r.path, r.query);
    TrailerEnds(r);
    ScanRequiredOf(r.datetime, r.url, r.mime, r.status, r.digest, Trailer(r));
    AssembleOf(r);
  }

  /** Reading a written record gives the record back. */
  lemma ParseFormat(r: CdxRecord)
    requires Canonical(r)
    ensures Parse(Format(r)) == Ok(r)
  {
    FormatStripped(r);
    ScanFormat(r);
  }
}

=== FILE: sampler.dfy ===
/** The URL sampler (cdxsummary/sampler.py): a fixed list of slots and a count of the valid
    items seen. The base sampler ignores every item; the dynamic one keeps each valid item in
    slot `processed mod size` with probability 1/(q+1), q being `processed div size`. The
    draw of `random()` is a parameter `r`. */
module Sampler {
  import opened Wrappers

  /** `dynamic` tells a `DynamicRandomStreamSampler` from a `BaseSampler`. */
  datatype Sampler<T> = Sampler(dynamic: bool, slots: seq<Option<T>>, processed: nat)

  /** `__init__(size)`: `size` empty slots and nothing processed. */
  function New<T>(size: nat, dynamic: bool): (s: Sampler<T>)
    ensures |s.slots| == size && s.processed == 0 && s.dynamic == dynamic
    ensures forall i :: 0 <= i < size ==> s.slots[i].None?
  {
    Sampler(dynamic, seq(size, _ => None), 0)
  }

  /** A dynamic sampler needs at least one slot to divide by. */
  predicate Ready<T>(s: Sampler<T>) {
    s.dynamic ==> |s.slots| > 0
  }

  /** Python's `divmod(a, b)` on non-negative numbers, by repeated subtraction: written this
      way, the analyzer's proofs never meet a division by a variable. */
  function DivMod(a: nat, b: nat): (qr: (nat, nat))
    requires b > 0
    ensures qr.1 < b
    decreases a
  {
    if a < b then (0, a)
    else
      var qr := DivMod(a - b, b);
      (qr.0 + 1, qr.1)
  }

  /** `DivMod` is the quotient and remainder of the division: the remainder is below `b`
      (in its contract) and `q * b + r` gives back `a`. */
  lemma {:induction false} DivModIsDivision(a: nat, b: nat)
    requires b > 0
    ensures DivMod(a, b).0 * b + DivMod(a, b).1 == a
    decreases a
  {
    if a >= b {
      DivModIsDivision(a - b, b);
      var qr := DivMod(a - b, b);
      assert (qr.0 + 1) * b == qr.0 * b + b;
    }
  }

  /** `r * n`, as `n` additions of `r`. */
  function Times(r: real, n: nat): real {
    if n == 0 then 0.0 else Times(r, n - 1) + r
  }

  /** `Times` is the product. */
  lemma {:induction false} TimesIsProduct(r: real, n: nat)
    ensures Times(r, n) == r * n as real
  {
    if n > 0 {
      TimesIsProduct(r, n - 1);
    }
  }

  /** Whether the draw `r` passes `r < 1 / (q + 1)`, that is `r * (q + 1) < 1`. */
  predicate Accepts(r: real, q: nat) {
    Times(r, q + 1) < 1.0
  }

  /** `__call__(item)`. An item the base sampler sees, or one that fails `valid`, changes
      nothing; otherwise `processed` grows by one, and only slot `processed mod size` may
      change: it takes the transformed item when the draw is accepted and is left alone when
      it is not. */
  function Offer<I, T>(s: Sampler<T>, valid: I -> bool, transform: I -> T, item: I, r: real)
    : (t: Sampler<T>)
    requires Ready(s)
    ensures Ready(t) && t.dynamic == s.dynamic && |t.slots| == |s.slots|
    ensures !s.dynamic || !valid(item) ==> t == s
    ensures s.dynamic && valid(item) ==> t.processed == s.processed + 1
    ensures s.dynamic ==> forall i :: 0 <= i < |s.slots| && i != DivMod(s.processed, |s.slots|).1
                                      ==> t.slots[i] == s.slots[i]
    ensures s.dynamic && valid(item) ==>
              var (q, k) := DivMod(s.processed, |s.slots|);
              && (Accepts(r, q) ==> t.slots[k] == Some(transform(item)))
              && (!Accepts(r, q) ==> t.slots == s.slots)
  {
    if !s.dynamic || !valid(item) then s
    else
      var (q, k) := DivMod(s.processed, |s.slots|);
      var slots := if Accepts(r, q) then s.slots[k := Some(transform(item))] else s.slots;
      Sampler(s.dynamic, slots, s.processed + 1)
  }

  /** The present values of a slot list, in slot order: every value comes from a filled
      slot and every filled slot's value is there. */
  function Present<T>(slots: seq<Option<T>>): (xs: seq<T>)
    ensures |xs| <= |slots|
    ensures forall x :: x in xs ==> Some(x) in slots
    ensures forall i :: 0 <= i < |slots| && slots[i].Some? ==> slots[i].value in xs
  {
    if |slots| == 0 then []
    else
      var rest := Present(slots[1..]);
      assert forall i :: 0 <= i < |slots| - 1 ==> slots[1..][i] == slots[i + 1];
      match slots[0]
      case Some(v) => [v] + rest
      case None => rest
  }

  /** A single slot gives its value, or nothing when it is empty. */
  lemma PresentOne<T>(slot: Option<T>)
    ensures slot.Some? ==> Present([slot]) == [slot.value]
    ensures slot.None? ==> Present([slot]) == []
  {
    assert [slot][1..] == [];
  }

  /** The values of two runs of slots are those of the first followed by those of the second,
      so with `PresentOne` they are the filled slots' values in slot order. */
  lemma {:induction false} PresentConcat<T>(a: seq<Option<T>>, b: seq<Option<T>>)
    ensures Present(a + b) == Present(a) + Present(b)
  {
    if |a| > 0 {
      assert (a + b)[1..] == a[1..] + b;
      PresentConcat(a[1..], b);
    } else {
      assert a + b == b;
    }
  }

  /** `samples()`: the values of the filled slots, in slot order (`Present`). */
  function Samples<T>(s: Sampler<T>): (xs: seq<T>)
    ensures |xs| <= |s.slots|
    ensures forall x :: x in xs ==> Some(x) in s.slots
    ensures forall i :: 0 <= i < |s.slots| && s.slots[i].Some? ==> s.slots[i].value in xs
  {
    Present(s.slots)
  }

  /** Filled slots followed by empty ones give exactly the filled values. */
  lemma {:induction false} PresentPrefix<T>(slots: seq<Option<T>>, xs: seq<T>)
    requires |xs| <= |slots|
    requires forall i :: 0 <= i < |xs| ==> slots[i] == Some(xs[i])
    requires forall i :: |xs| <= i < |slots| ==> slots[i].None?
    ensures Present(slots) == xs
  {
    if |slots| > 0 {
      if |xs| > 0 {
        PresentPrefix(slots[1..], xs[1..]);
        assert xs == [xs[0]] + xs[1..];
      } else {
        PresentPrefix(slots[1..], xs);
      }
    }
  }

  /** The items of a stream that pass `valid`, in order. */
  function Filter<I>(valid: I -> bool, items: seq<I>): (v: seq<I>)
    ensures |v| <= |items|
  {
    if |items| == 0 then []
    else
      var init := Filter(valid, items[..|items| - 1]);
      if valid(items[|items| - 1]) then init + [items[|items| - 1]] else init
  }

  function Map<I, T>(transform: I -> T, items: seq<I>): (ts: seq<T>)
    ensures |ts| == |items|
    ensures forall i :: 0 <= i < |items| ==> ts[i] == transform(items[i])
  {
    if |items| == 0 then [] else [transform(items[0])] + Map(transform, items[1..])
  }

  /** The sampler after a stream of items, `draws[i]` being the draw made for `items[i]`. */
  function OfferAll<I, T>(s: Sampler<T>, valid: I -> bool, transform: I -> T,
                          items: seq<I>, draws: seq<real>): (t: Sampler<T>)
    requires Ready(s) && |draws| == |items|
    ensures Ready(t) && t.dynamic == s.dynamic && |t.slots| == |s.slots|
  {
    if |items| == 0 then s
    else
      var n := |items| - 1;
      Offer(OfferAll(s, valid, transform, items[..n], draws[..n]), valid, transform,
            items[n], draws[n])
  }

  /** A dynamic sampler counts exactly the valid items; a base sampler never changes. */
  lemma {:induction false} OfferAllProcessed<I, T>(s: Sampler<T>, valid: I -> bool,
                                                   transform: I -> T, items: seq<I>,
                                                   draws: seq<real>)
    requires Ready(s) && |draws| == |items|
    ensures s.dynamic ==>
              OfferAll(s, valid, transform, items, draws).processed
                == s.processed + |Filter(valid, items)|
    ensures !s.dynamic ==> OfferAll(s, valid, transform, items, draws) == s
  {
    if |items| > 0 {
      var n := |items| - 1;
      OfferAllProcessed(s, valid, transform, items[..n], draws[..n]);
    }
  }

  /** A default `BaseSampler()` has no slots and yields no samples whatever it is offered. */
  lemma BaseYieldsNothing<I, T>(valid: I -> bool, transform: I -> T, items: seq<I>,
                                draws: seq<real>)
    requires |draws| == |items|
    ensures Samples(OfferAll(New<T>(0, false), valid, transform, items, draws)) == []
  {
    OfferAllProcessed(New<T>(0, false), valid, transform, items, draws);
  }

  /** While fewer valid items have been processed than there are slots, a draw in [0, 1)
      is always accepted and the item goes into the next empty slot. */
  lemma OfferWithRoom<I, T>(s: Sampler<T>, valid: I -> bool, transform: I -> T, item: I, r: real)
    requires s.dynamic && s.processed < |s.slots| && valid(item) && 0.0 <= r < 1.0
    ensures Offer(s, valid, transform, item, r).slots == s.slots[s.processed := Some(transform(item))]
  {
    assert DivMod(s.processed, |s.slots|) == (0, s.processed);
    assert Times(r, 1) == r;
  }

  /** While there is room, every draw in [0, 1) is accepted, so the valid items fill the slots
      from slot 0 onwards in stream order and the remaining slots stay empty. */
  lemma {:induction false} FirstItemsStored<I, T>(size: nat, valid: I -> bool,
                                                  transform: I -> T, items: seq<I>,
                                                  draws: seq<real>)
    requires size > 0 && |draws| == |items|
    requires forall i :: 0 <= i < |draws| ==> 0.0 <= draws[i] < 1.0
    requires |Filter(valid, items)| <= size
    ensures var t := OfferAll(New<T>(size, true), valid, transform, items, draws);
            var v := Filter(valid, items);
            && (forall i :: 0 <= i < |v| ==> t.slots[i] == Some(transform(v[i])))
            && (forall i :: |v| <= i < size ==> t.slots[i].None?)
  {
    var s0 := New<T>(size, true);
    if |items| > 0 {
      var n := |items| - 1;
      var prev := OfferAll(s0, valid, transform, items[..n], draws[..n]);
      var t := Offer(prev, valid, transform, items[n], draws[n]);
      assert t == OfferAll(s0, valid, transform, items, draws);
      var v0 := Filter(valid, items[..n]);
      var v := Filter(valid, items);
      assert items[..|items| - 1] == items[..n];
      FirstItemsStored(size, valid, transform, items[..n], draws[..n]);
      OfferAllProcessed(s0, valid, transform, items[..n], draws[..n]);
      if valid(items[n]) {
        assert v == v0 + [items[n]];
        OfferWithRoom(prev, valid, transform, items[n], draws[n]);
        assert t.slots == prev.slots[|v0| := Some(transform(items[n]))];
        forall i | 0 <= i < |v| ensures t.slots[i] == Some(transform(v[i])) {
          if i < |v0| {
            assert v[i] == v0[i];
          }
        }
      } else {
        assert v == v0;
        assert t == prev;
      }
    }
  }

  /** Hence, until the stream has more valid items than slots, `samples()` is exactly the
      transformed valid items in stream order. */
  lemma SamplesOfShortStream<I, T>(size: nat, valid: I -> bool, transform: I -> T,
                                   items: seq<I>, draws: seq<real>)
    requires size > 0 && |draws| == |items|
    requires forall i :: 0 <= i < |draws| ==> 0.0 <= draws[i] < 1.0
    requires |Filter(valid, items)| <= size
    ensures Samples(OfferAll(New<T>(size, true), valid, transform, items, draws))
              == Map(transform, Filter(valid, items))
  {
    var t := OfferAll(New<T>(size, true), valid, transform, items, draws);
    FirstItemsStored(size, valid, transform, items, draws);
    PresentPrefix(t.slots, Map(transform, Filter(valid, items)));
  }
}

=== FILE: streams.dfy ===
/** Counts over a stream of values: changes between neighbours, maximal runs of equal
    neighbours, distinct values and occurrences. The analyzer's running counters are
    measured against these. */
module Streams {
  import opened Counts

  /** The last element of `xs`, or `prev` when `xs` is empty. */
  function LastOr<T>(prev: T, xs: seq<T>): T {
    if |xs| == 0 then prev else xs[|xs| - 1]
  }

  /** How many elements differ from the one before them, `prev` standing before the first. */
  function Changes<T(==)>(prev: T, xs: seq<T>): (n: nat)
    ensures n <= |xs|
  {
    if |xs| == 0 then 0
    else
      var m := |xs| - 1;
      Changes(prev, xs[..m]) + (if xs[m] != LastOr(prev, xs[..m]) then 1 else 0)
  }

  /** The number of maximal runs of equal consecutive elements: never more than there are
      elements, and at least one exactly when there is an element. */
  function Runs<T(==)>(xs: seq<T>): (n: nat)
    ensures n <= |xs|
    ensures n >= 1 <==> |xs| >= 1
  {
    if |xs| == 0 then 0
    else
      var m := |xs| - 1;
      Runs(xs[..m]) + (if m == 0 || xs[m] != xs[m - 1] then 1 else 0)
  }

  /** Starting from a value that never occurs, every run begins with a change. */
  lemma {:induction false} ChangesFromAbsent<T>(prev: T, xs: seq<T>)
    requires prev !in xs
    ensures Changes(prev, xs) == Runs(xs)
  {
    if |xs| > 0 {
      var m := |xs| - 1;
      assert forall i :: 0 <= i < m ==> xs[..m][i] == xs[i];
      ChangesFromAbsent(prev, xs[..m]);
    }
  }

  /** The set of values in `xs`. */
  function Elems(xs: seq<string>): (s: set<string>)
    ensures forall x :: x in s <==> x in xs
  {
    if |xs| == 0 then {}
    else
      var m := |xs| - 1;
      assert xs == xs[..m] + [xs[m]];
      Elems(xs[..m]) + {xs[m]}
  }

  /** Each run holds one value, so there are no more distinct values than runs. */
  lemma {:induction false} DistinctAtMostRuns(xs: seq<string>)
    ensures |Elems(xs)| <= Runs(xs)
  {
    if |xs| > 0 {
      var m := |xs| - 1;
      DistinctAtMostRuns(xs[..m]);
      if m > 0 && xs[m] == xs[m - 1] {
        assert xs[m] in xs[..m];
        assert Elems(xs) == Elems(xs[..m]);
      }
    }
  }

  /** A sequence without repeats has as many distinct values as elements. */
  lemma {:induction false} UniqueElems(xs: seq<string>)
    requires Unique(xs)
    ensures |Elems(xs)| == |xs|
  {
    if |xs| > 0 {
      var m := |xs| - 1;
      assert Unique(xs[..m]);
      UniqueElems(xs[..m]);
      assert xs[m] !in xs[..m];
    }
  }

  /** The number of occurrences of `x` in `xs`. */
  function Occ<T(==)>(xs: seq<T>, x: T): (n: nat)
    ensures n <= |xs|
    ensures n > 0 <==> x in xs
  {
    if |xs| == 0 then 0
    else
      var m := |xs| - 1;
      assert xs == xs[..m] + [xs[m]];
      Occ(xs[..m], x) + (if xs[m] == x then 1 else 0)
  }

  // ------------------------------------------------------------------ one more element

  lemma ChangesSnoc<T>(prev: T, xs: seq<T>, x: T)
    ensures Changes(prev, xs + [x]) == Changes(prev, xs) + (if x != LastOr(prev, xs) then 1 else 0)
    ensures LastOr(prev, xs + [x]) == x
  {
    assert (xs + [x])[..|xs|] == xs;
  }

  lemma OccSnoc<T>(xs: seq<T>, x: T, y: T)
    ensures Occ(xs + [x], y) == Occ(xs, y) + (if x == y then 1 else 0)
  {
    assert (xs + [x])[..|xs|] == xs;
  }

  lemma ElemsSnoc(xs: seq<string>, x: string)
    ensures Elems(xs + [x]) == Elems(xs) + {x}
  {
    assert (xs + [x])[..|xs|] == xs;
  }
}

=== FILE: strings.dfy ===
/** String primitives with Python semantics: whitespace classes, strip/split/join,
    first-occurrence search and replacement, code-point ordering and decimal numerals. */
module Strings {
  import opened Wrappers

  // ------------------------------------------------------------------ characters

  /** Python's `str.isspace()`; the regex class `\s` and `str.strip()` use the same set. */
  predicate IsSpace(c: char) {
    var n := c as int;
    (9 <= n <= 13) || (28 <= n <= 32) || n == 0x85 || n == 0xA0 || n == 0x1680
    || (0x2000 <= n <= 0x200A) || n == 0x2028 || n == 0x2029 || n == 0x202F
    || n == 0x205F || n == 0x3000
  }

  /** The ASCII decimal digits `0`-`9`. */
  predicate IsDigit(c: char) {
    '0' <= c <= '9'
  }

  predicate AllDigits(s: string) {
    forall i :: 0 <= i < |s| ==> IsDigit(s[i])
  }

  /** A non-empty run of digits: what `\d+` matches and `int()` accepts here. */
  predicate IsDigits(s: string) {
    |s| > 0 && AllDigits(s)
  }

  predicate NoSpace(s: string) {
    forall i :: 0 <= i < |s| ==> !IsSpace(s[i])
  }

  // ------------------------------------------------------------------ scanning

  /** Length of the longest prefix of `s` whose characters all satisfy `p`. */
  function Span(s: string, p: char -> bool): (n: nat)
    ensures n <= |s|
    ensures forall i :: 0 <= i < n ==> p(s[i])
    ensures n < |s| ==> !p(s[n])
  {
    if |s| == 0 || !p(s[0]) then 0 else 1 + Span(s[1..], p)
  }

  /** Length of the longest suffix of `s` whose characters all satisfy `p`. */
  function SpanBack(s: string, p: char -> bool): (n: nat)
    ensures n <= |s|
    ensures forall i :: |s| - n <= i < |s| ==> p(s[i])
    ensures n < |s| ==> !p(s[|s| - n - 1])
  {
    if |s| == 0 || !p(s[|s| - 1]) then 0 else 1 + SpanBack(s[..|s| - 1], p)
  }

  /** A span stops exactly where its run ends. */
  lemma SpanConcat(a: string, b: string, p: char -> bool)
    requires forall i :: 0 <= i < |a| ==> p(a[i])
    requires |b| == 0 || !p(b[0])
    ensures Span(a + b, p) == |a|
  {
    if |a| > 0 {
      assert (a + b)[1..] == a[1..] + b;
      SpanConcat(a[1..], b, p);
    } else {
      assert a + b == b;
    }
  }

  // ------------------------------------------------------------------ strip

  /** Python's `s.lstrip(chars)`, the stripped characters given as a predicate. */
  function TrimStart(s: string, p: char -> bool): string {
    s[Span(s, p)..]
  }

  /** Python's `s.rstrip(chars)`. */
  function TrimEnd(s: string, p: char -> bool): string {
    s[..|s| - SpanBack(s, p)]
  }

  /** Python's `s.strip(chars)`: what is left has no stripped character at either end,
      and it is empty exactly when every character of `s` is stripped. */
  function Strip(s: string, p: char -> bool): (r: string)
    ensures |r| <= |s|
    ensures |r| > 0 ==> !p(r[0]) && !p(r[|r| - 1])
    ensures |r| == 0 <==> forall i :: 0 <= i < |s| ==> p(s[i])
  {
    var t := TrimStart(s, p);
    var r := TrimEnd(t, p);
    assert |r| > 0 ==> r[0] == t[0] == s[Span(s, p)];
    r
  }

  /** A string that already starts and ends with kept characters is its own strip. */
  lemma StripKeeps(s: string, p: char -> bool)
    requires |s| > 0 ==> !p(s[0]) && !p(s[|s| - 1])
    ensures Strip(s, p) == s
  {
  }

  /** A stripped character added in front is stripped again. */
  lemma StripPrepend(c: char, s: string, p: char -> bool)
    requires p(c)
    ensures Strip([c] + s, p) == Strip(s, p)
  {
    assert ([c] + s)[1..] == s;
    assert TrimStart([c] + s, p) == TrimStart(s, p);
  }

  /** Appending to an all-stripped string leaves nothing after the leading strip. */
  lemma TrimStartAppendAll(s: string, c: char, p: char -> bool)
    requires p(c)
    requires Span(s, p) == |s|
    ensures TrimStart(s + [c], p) == []
  {
    var x := s + [c];
    forall i | 0 <= i < |x|
      ensures p(x[i])
    {
      if i < |s| {
        assert x[i] == s[i];
      }
    }
    SpanConcat(x, [], p);
    assert x + [] == x;
  }

  /** Once a span stops inside `s`, what follows `s` does not matter to it. */
  lemma {:induction false} SpanAppend(s: string, t: string, p: char -> bool)
    requires Span(s, p) < |s|
    ensures Span(s + t, p) == Span(s, p)
  {
    assert (s + t)[0] == s[0];
    if p(s[0]) {
      assert (s + t)[1..] == s[1..] + t;
      SpanAppend(s[1..], t, p);
    }
  }

  /** Appending after a kept character carries the character through the leading strip. */
  lemma TrimStartAppendSome(s: string, c: char, p: char -> bool)
    requires Span(s, p) < |s|
    ensures TrimStart(s + [c], p) == TrimStart(s, p) + [c]
  {
    var k := Span(s, p);
    var x := s + [c];
    SpanAppend(s, [c], p);
    assert Span(x, p) == k;
    DropAppend(s, c, k);
  }

  lemma DropAppend(s: string, c: char, k: nat)
    requires k <= |s|
    ensures (s + [c])[k..] == s[k..] + [c]
  {
  }

  lemma TrimEndAppend(t: string, c: char, p: char -> bool)
    requires p(c)
    ensures TrimEnd(t + [c], p) == TrimEnd(t, p)
  {
    assert (t + [c])[..|t|] == t;
    assert SpanBack(t + [c], p) == 1 + SpanBack(t, p);
  }

  /** A stripped character added at the end is stripped again. */
  lemma StripAppend(s: string, c: char, p: char -> bool)
    requires p(c)
    ensures Strip(s + [c], p) == Strip(s, p)
  {
    if Span(s, p) < |s| {
      TrimStartAppendSome(s, c, p);
      TrimEndAppend(TrimStart(s, p), c, p);
    } else {
      TrimStartAppendAll(s, c, p);
    }
  }

  // ------------------------------------------------------------------ count, split, join

  /** Python's `s.count(c)` for a one-character `c`. */
  function CountChar(s: string, c: char): (n: nat)
    ensures n <= |s|
    ensures n == 0 <==> c !in s
  {
    if |s| == 0 then 0 else (if s[0] == c then 1 else 0) + CountChar(s[1..], c)
  }

  lemma CountCharConcat(a: string, b: string, c: char)
    ensures CountChar(a + b, c) == CountChar(a, c) + CountChar(b, c)
  {
    if |a| > 0 {
      assert (a + b)[1..] == a[1..] + b;
      CountCharConcat(a[1..], b, c);
    } else {
      assert a + b == b;
    }
  }

  /** Python's `sep.join(parts)` for a one-character separator. */
  function Join(parts: seq<string>, sep: char): string {
    if |parts| == 0 then ""
    else if |parts| == 1 then parts[0]
    else parts[0] + [sep] + Join(parts[1..], sep)
  }

  /** Python's `s.split(sep)` for a one-character separator: one piece more than there are
      separators, no piece holds the separator, and joining the pieces gives `s` back. */
  function Split(s: string, sep: char): (parts: seq<string>)
    ensures |parts| == CountChar(s, sep) + 1
    ensures forall i :: 0 <= i < |parts| ==> sep !in parts[i]
    ensures Join(parts, sep) == s
    decreases |s|
  {
    var n := Span(s, c => c != sep);
    if n == |s| then
      [s]
    else
      var rest := Split(s[n + 1..], sep);
      assert s == s[..n] + [sep] + s[n + 1..];
      CountCharConcat(s[..n] + [sep], s[n + 1..], sep);
      CountCharConcat(s[..n], [sep], sep);
      assert ([s[..n]] + rest)[1..] == rest;
      [s[..n]] + rest
  }

  /** Splitting a join recovers the pieces when no piece holds the separator. */
  lemma {:induction false} SplitJoin(parts: seq<string>, sep: char)
    requires |parts| > 0
    requires forall i :: 0 <= i < |parts| ==> sep !in parts[i]
    ensures Split(Join(parts, sep), sep) == parts
    decreases |parts|
  {
    var p0 := parts[0];
    if |parts| == 1 {
      SpanConcat(p0, "", c => c != sep);
      assert p0 + "" == p0;
    } else {
      var s := Join(parts, sep);
      var tail := Join(parts[1..], sep);
      assert s == p0 + ([sep] + tail);
      SpanConcat(p0, [sep] + tail, c => c != sep);
      assert s[..|p0|] == p0;
      assert s[|p0| + 1..] == tail;
      SplitJoin(parts[1..], sep);
      assert [p0] + parts[1..] == parts;
    }
  }

  /** A character absent from a join is absent from every piece. */
  lemma {:induction false} JoinWithout(parts: seq<string>, sep: char, c: char)
    requires c !in Join(parts, sep)
    ensures forall i :: 0 <= i < |parts| ==> c !in parts[i]
  {
    if |parts| > 1 {
      var tail := Join(parts[1..], sep);
      assert Join(parts, sep) == parts[0] + ([sep] + tail);
      assert forall x :: x in parts[0] ==> x in Join(parts, sep);
      assert forall x :: x in tail ==> x in Join(parts, sep);
      JoinWithout(parts[1..], sep, c);
      assert forall i :: 1 <= i < |parts| ==> parts[i] == parts[1..][i - 1];
    }
  }

  /** `c * n` in Python: `n` copies of the character `c`. */
  function Repeat(c: char, n: nat): (s: string)
    ensures |s| == n
    ensures forall i :: 0 <= i < n ==> s[i] == c
  {
    if n == 0 then "" else [c] + Repeat(c, n - 1)
  }

  function Reverse<T>(xs: seq<T>): (r: seq<T>)
    ensures |r| == |xs|
    ensures forall i :: 0 <= i < |xs| ==> r[i] == xs[|xs| - 1 - i]
  {
    if |xs| == 0 then [] else Reverse(xs[1..]) + [xs[0]]
  }

  // ------------------------------------------------------------------ search and replace

  /** `pat` occurs in `s` starting at index `i`. */
  predicate OccursAt(s: string, pat: string, i: nat) {
    i + |pat| <= |s| && s[i..i + |pat|] == pat
  }

  /** Deleting the first occurrence of `pat` removes just it: putting it back gives `s`. */
  lemma ReplaceRemoves(s: string, pat: string, i: nat)
    requires Find(s, pat) == Some(i)
    ensures var u := ReplaceFirst(s, pat, "");
            && |u| == |s| - |pat|
            && u[..i] + pat + u[i..] == s
  {
    var head, tail := s[..i], s[i + |pat|..];
    SplitAt(s, pat, i);
    var u := head + tail;
    assert ReplaceFirst(s, pat, "") == head + "" + tail == u;
    assert u[..i] == head && u[i..] == tail;
  }

  /** Replacing the first `x + [c]` by `[c]` removes just `x`, and `c` follows the cut. */
  lemma ReplaceKeepsLast(s: string, x: string, c: char, i: nat)
    requires Find(s, x + [c]) == Some(i)
    ensures var u := ReplaceFirst(s, x + [c], [c]);
            && |u| == |s| - |x|
            && u[..i] + x + u[i..] == s
            && u[i] == c
  {
    var pat := x + [c];
    var head, tail := s[..i], s[i + |pat|..];
    SplitAt(s, pat, i);
    var u := head + [c] + tail;
    assert ReplaceFirst(s, pat, [c]) == u;
    assert u[..i] == head && u[i..] == [c] + tail;
    assert head + x + ([c] + tail) == head + pat + tail;
  }

  /** An occurrence splits the string around the pattern. */
  lemma SplitAt(s: string, pat: string, i: nat)
    requires OccursAt(s, pat, i)
    ensures s == s[..i] + pat + s[i + |pat|..]
  {
    assert s == s[..i] + s[i..i + |pat|] + s[i + |pat|..];
  }

  lemma PrefixOfConcat(a: string, b: string)
    ensures (a + b)[..|a|] == a && (a + b)[|a|..] == b
  {
  }

  function FindFrom(s: string, pat: string, i: nat): (r: Option<nat>)
    requires i <= |s|
    ensures r.Some? ==> i <= r.value && OccursAt(s, pat, r.value)
    ensures r.Some? ==> forall j :: i <= j < r.value ==> !OccursAt(s, pat, j)
    ensures r.None? ==> forall j :: i <= j <= |s| ==> !OccursAt(s, pat, j)
    decreases |s| - i
  {
    if i + |pat| > |s| then None
    else if |pat| == 0 || s[i..i + |pat|] == pat then Some(i)
    else FindFrom(s, pat, i + 1)
  }

  /** Python's `s.find(pat)`: the first index where `pat` occurs, if any. */
  function Find(s: string, pat: string): (r: Option<nat>)
    ensures r.Some? ==> OccursAt(s, pat, r.value)
    ensures r.Some? ==> forall j :: 0 <= j < r.value ==> !OccursAt(s, pat, j)
    ensures r.None? ==> forall j :: 0 <= j <= |s| ==> !OccursAt(s, pat, j)
  {
    FindFrom(s, pat, 0)
  }

  /** Python's `s.replace(pat, rep, 1)`: only the first occurrence is replaced. */
  function ReplaceFirst(s: string, pat: string, rep: string): string {
    match Find(s, pat)
    case None => s
    case Some(i) => s[..i] + rep + s[i + |pat|..]
  }

  /** Python's `s.partition(sep)` for a one-character separator, without the middle part:
      the text before the first `sep` and the text after it, or `s` and "" when `sep` does
      not occur. */
  function Partition(s: string, sep: char): (r: (string, string))
    ensures sep !in r.0
    ensures sep in s ==> s == r.0 + [sep] + r.1
    ensures sep !in s ==> r == (s, "")
  {
    var i := Span(s, c => c != sep);
    if i == |s| then
      assert forall k :: 0 <= k < |s| ==> s[k] != sep;
      (s, "")
    else
      assert s == s[..i] + [sep] + s[i + 1..];
      (s[..i], s[i + 1..])
  }

  /** Only the first separator counts. */
  lemma PartitionAt(a: string, sep: char, b: string)
    requires sep !in a
    ensures Partition(a + [sep] + b, sep) == (a, b)
  {
    var s := a + [sep] + b;
    var r := Partition(s, sep);
    assert s[|a|] == sep;
    assert |r.0| >= |a|;
    assert r.0 == s[..|a|] == a;
    assert r.1 == s[|a| + 1..] == b;
  }

  /** Python's `s.startswith(p)`. */
  predicate StartsWith(s: string, p: string) {
    |p| <= |s| && s[..|p|] == p
  }

  /** Python's `s.endswith(p)`. */
  predicate EndsWith(s: string, p: string) {
    |p| <= |s| && s[|s| - |p|..] == p
  }

  // ------------------------------------------------------------------ ordering

  /** Python's `<` on `str`: code-point order, a proper prefix sorting first. */
  predicate LexLess(a: string, b: string) {
    if |a| == 0 then |b| > 0
    else if |b| == 0 then false
    else if a[0] != b[0] then a[0] < b[0]
    else LexLess(a[1..], b[1..])
  }

  lemma {:induction false} LexLessIrreflexive(a: string)
    ensures !LexLess(a, a)
  {
    if |a| > 0 {
      LexLessIrreflexive(a[1..]);
    }
  }

  lemma {:induction false} LexLessTransitive(a: string, b: string, c: string)
    requires LexLess(a, b) && LexLess(b, c)
    ensures LexLess(a, c)
  {
    if |a| > 0 && |b| > 0 && |c| > 0 && a[0] == b[0] == c[0] {
      LexLessTransitive(a[1..], b[1..], c[1..]);
    }
  }

  lemma {:induction false} LexLessTotal(a: string, b: string)
    ensures a == b || LexLess(a, b) || LexLess(b, a)
  {
    if |a| > 0 && |b| > 0 && a[0] == b[0] {
      LexLessTotal(a[1..], b[1..]);
      if a[1..] == b[1..] {
        assert a == [a[0]] + a[1..] && b == [b[0]] + b[1..];
      }
    }
  }

  lemma {:induction false} LexLessAsymmetric(a: string, b: string)
    requires LexLess(a, b)
    ensures !LexLess(b, a)
  {
    if |a| > 0 && |b| > 0 && a[0] == b[0] {
      LexLessAsymmetric(a[1..], b[1..]);
    }
  }

  /** Python's `a <= b` on `str`. */
  predicate LexLessEq(a: string, b: string) {
    a == b || LexLess(a, b)
  }

  // ------------------------------------------------------------------ case

  /** `str.lower()` on one character, restricted to ASCII letters. */
  function LowerChar(c: char): char {
    if 'A' <= c <= 'Z' then (c as int + 32) as char else c
  }

  function Lower(s: string): (r: string)
    ensures |r| == |s|
    ensures forall i :: 0 <= i < |s| ==> r[i] == LowerChar(s[i])
  {
    seq(|s|, i requires 0 <= i < |s| => LowerChar(s[i]))
  }

  /** No ASCII capital letter. */
  predicate NoUpper(s: string) {
    forall i :: 0 <= i < |s| ==> !('A' <= s[i] <= 'Z')
  }

  /** Lower-casing twice is lower-casing once, and leaves a string without capitals alone. */
  lemma LowerIdempotent(s: string)
    ensures NoUpper(Lower(s))
    ensures Lower(Lower(s)) == Lower(s)
    ensures NoUpper(s) ==> Lower(s) == s
  {
  }

  /** `lower()` works character by character. */
  lemma LowerConcat(a: string, b: string)
    ensures Lower(a + b) == Lower(a) + Lower(b)
  {
  }

  // ------------------------------------------------------------------ numerals

  function DigitChar(d: nat): (c: char)
    requires d < 10
    ensures IsDigit(c)
  {
    ('0' as int + d) as char
  }

  function DigitValue(c: char): (d: nat)
    requires IsDigit(c)
    ensures d < 10
  {
    c as int - '0' as int
  }

  /** Python's `int(s)` on a string of ASCII digits. */
  function NatValue(s: string): nat
    requires AllDigits(s)
    decreases |s|
  {
    if |s| == 0 then 0 else 10 * NatValue(s[..|s| - 1]) + DigitValue(s[|s| - 1])
  }

  /** Python's `str(n)` for a non-negative integer: a digit string with no leading zero
      that `int()` reads back as `n`. */
  function NatToString(n: nat): (s: string)
    ensures IsDigits(s)
    ensures s[0] != '0' || n == 0
    ensures NatValue(s) == n
  {
    if n < 10 then
      [DigitChar(n)]
    else
      var prefix := NatToString(n / 10);
      var s := prefix + [DigitChar(n % 10)];
      assert s[..|s| - 1] == prefix;
      s
  }

  /** Distinct numbers have distinct numerals. */
  lemma NatToStringInjective(m: nat, n: nat)
    requires NatToString(m) == NatToString(n)
    ensures m == n
  {
  }
}

=== FILE: summarizer.dfy ===
/** The summary step (cdxsummary/summarizer.py): MIME types and status codes are classified
    into fixed groups, the report's MIME-by-status counts are re-bucketed into a fixed
    13 x 5 grid, and the printed tables derive their totals and the "OTHERS" row. */
module Summarizer {
  import opened Wrappers
  import opened Strings
  import opened Counts
  import opened Parser
  import opened Analyzer

  /** `CODEGROUPS`: the status code columns. */
  const CodeGroups: seq<string> := ["2XX", "3XX", "4XX", "5XX", "Other"]

  /** `MIMEMAP`: a type or subtype to its display group. */
  const MimeMap: map<string, string> := map[
    "html" := "HTML", "image" := "Image", "css" := "CSS", "javascript" := "JavaScript",
    "json" := "JSON", "xml" := "XML", "plain" := "Text", "pdf" := "PDF", "font" := "Font",
    "audio" := "Audio", "video" := "Video", "revisit" := "Revisit", "other" := "Other"]

  /** `MIMEMAP.values()` in the dictionary's order: the rows of the MIME/status grid. */
  const MimeLabels: seq<string> := [
    "HTML", "Image", "CSS", "JavaScript", "JSON", "XML", "Text", "PDF", "Font", "Audio",
    "Video", "Revisit", "Other"]

  /** Every value of the map is a label. */
  lemma MapsToLabels()
    ensures forall k :: k in MimeMap ==> MimeMap[k] in MimeLabels
  {
  }

  /** No label is listed twice, nor any code group. */
  lemma LabelsUnique()
    ensures Unique(MimeLabels) && Unique(CodeGroups)
  {
  }

  // ------------------------------------------------------------------ classification

  /** The decision of `_mime_group` once the MIME type is lower-cased and split: the subtype
      is looked up first, then the type; failing both, an `xhtml...` subtype is HTML, a
      `...+xml` or `xml-...` subtype is XML, and anything else is Other. */
  function Classify(group: string, subtype: string): (g: string)
    ensures g in MimeLabels
  {
    MapsToLabels();
    if subtype in MimeMap then MimeMap[subtype]
    else if group in MimeMap then MimeMap[group]
    else if StartsWith(subtype, "xhtml") then "HTML"
    else if EndsWith(subtype, "+xml") || StartsWith(subtype, "xml-") then "XML"
    else "Other"
  }

  /** `_mime_group`: the MIME type, lower-cased and split at its first '/', classified.
      Every result is one of the thirteen labels. */
  function MimeGroup(mime: string): (g: string)
    ensures g in MimeLabels
  {
    var parts := Partition(Lower(mime), '/');
    Classify(parts.0, parts.1)
  }

  /** Case does not matter. */
  lemma MimeGroupIgnoresCase(mime: string)
    ensures MimeGroup(Lower(mime)) == MimeGroup(mime)
  {
    LowerIdempotent(mime);
  }

  /** Lower-casing `type/subtype` lower-cases each side and keeps the first '/'. */
  lemma LowerSplits(t: string, s: string)
    requires '/' !in t
    ensures '/' !in Lower(t)
    ensures Partition(Lower(t + "/" + s), '/') == (Lower(t), Lower(s))
  {
    LowerConcat(t, "/" + s);
    LowerConcat("/", s);
    assert Lower("/") == "/";
    assert Lower(t + "/" + s) == Lower(t) + ['/'] + Lower(s) by {
      assert t + "/" + s == t + ("/" + s);
    }
    PartitionAt(Lower(t), '/', Lower(s));
  }

  /** A known subtype decides, whatever the type: `application/json` is JSON. */
  lemma SubtypeWins(t: string, s: string)
    requires '/' !in t && Lower(s) in MimeMap
    ensures MimeGroup(t + "/" + s) == MimeMap[Lower(s)]
  {
    LowerSplits(t, s);
  }

  /** An unknown subtype defers to a known type, before the XHTML and XML rules are tried. */
  lemma TypeWhenSubtypeUnknown(t: string, s: string)
    requires '/' !in t && Lower(s) !in MimeMap && Lower(t) in MimeMap
    ensures MimeGroup(t + "/" + s) == MimeMap[Lower(t)]
  {
    LowerSplits(t, s);
  }

  /** The XHTML and XML rules only decide when neither side is a map key. */
  lemma FallbackRules(t: string, s: string)
    requires '/' !in t && Lower(s) !in MimeMap && Lower(t) !in MimeMap
    ensures MimeGroup(t + "/" + s)
            == if StartsWith(Lower(s), "xhtml") then "HTML"
               else if EndsWith(Lower(s), "+xml") || StartsWith(Lower(s), "xml-") then "XML"
               else "Other"
  {
    LowerSplits(t, s);
  }

  /** Without a '/', the whole (lower-cased) MIME is the type: a key gives its label and
      anything else is Other. */
  lemma NoSubtype(mime: string)
    requires '/' !in mime
    ensures MimeGroup(mime) == if Lower(mime) in MimeMap then MimeMap[Lower(mime)] else "Other"
  {
    var low := Lower(mime);
    assert '/' !in low by {
      forall i | 0 <= i < |low| ensures low[i] != '/' {
        assert mime[i] != '/';
      }
    }
    assert Partition(low, '/') == (low, "");
    assert "" !in MimeMap;
  }

  /** `image/svg+xml` is an image: the type lookup comes before the `+xml` rule. */
  lemma SvgIsImage()
    ensures MimeGroup("image/svg+xml") == "Image"
  {
    var t, s := "image", "svg+xml";
    assert t + "/" + s == "image/svg+xml";
    LowerIdempotent(t);
    LowerIdempotent(s);
    assert s !in MimeMap;
    TypeWhenSubtypeUnknown(t, s);
  }

  /** `_valid_status`: "200" <= code < "600" in string order. */
  predicate ValidStatus(code: string) {
    LexLessEq("200", code) && LexLess(code, "600")
  }

  /** `_status_group`: the first digit and "XX" for a valid code, "Other" otherwise. */
  function StatusGroup(code: string): (g: string)
    ensures g == "Other" <==> !ValidStatus(code)
  {
    if ValidStatus(code) then [code[0]] + "XX" else "Other"
  }

  /** A status field as the parser accepts it ("-" or three digits) is valid exactly when
      its first digit is 2 to 5, and then its group is that digit's column. */
  lemma StatusGroupOfStatus(code: string)
    requires IsStatus(code)
    ensures ValidStatus(code) <==> code != "-" && '2' <= code[0] <= '5'
    ensures StatusGroup(code) in CodeGroups
    ensures code != "-" && '2' <= code[0] <= '5' ==>
              StatusGroup(code) == CodeGroups[code[0] as int - '2' as int]
  {
    if code != "-" {
      var c := code[0];
      var tail := code[1..];
      assert AllDigits(tail) by {
        forall i | 0 <= i < |tail| ensures IsDigit(tail[i]) {
          assert tail[i] == code[i + 1];
        }
      }
      AtLeastZeros(tail, "00");
      assert "600"[1..] == "00" && "200"[1..] == "00";
      assert LexLess(code, "600") <==> c <= '5' by {
        if c == '6' {
          assert LexLess(code, "600") == LexLess(tail, "00");
          if LexLess(tail, "00") {
            LexLessAsymmetric(tail, "00");
            LexLessIrreflexive(tail);
          }
        }
      }
      assert LexLessEq("200", code) <==> c >= '2' by {
        if c == '2' {
          assert LexLess("200", code) == LexLess("00", tail);
          assert "200" == code <== "00" == tail;
        }
      }
      if '2' <= c <= '5' {
        if c == '2' { assert [c] + "XX" == CodeGroups[0]; }
        else if c == '3' { assert [c] + "XX" == CodeGroups[1]; }
        else if c == '4' { assert [c] + "XX" == CodeGroups[2]; }
        else { assert [c] + "XX" == CodeGroups[3]; }
      }
    }
  }

  /** Not every string lands in a column: "6" sorts below "600", so it is "valid" and its
      group "6XX" is no column. Parsed records never carry such a status. */
  lemma StatusSixOutsideColumns()
    ensures ValidStatus("6") && StatusGroup("6") == "6XX" && "6XX" !in CodeGroups
  {
    assert "6"[1..] == "";
  }

  // ------------------------------------------------------------------ the MIME/status grid

  /** A row of zeros, one cell per code group. */
  function ZeroRow(): Counter {
    Constant(CodeGroups, 0)
  }

  /** The starting grid: every MIME group with a row of zeros. */
  function ZeroGrid(): Grid {
    Constant(MimeLabels, ZeroRow())
  }

  /** Whether `_mime_status_grid` can place every status: a group that is no column makes
      `grid[mg][sg] += count` raise `KeyError`. */
  predicate Classifiable(ms: Grid) {
    forall i, j :: 0 <= i < |ms| && 0 <= j < |ms[i].1| ==> StatusGroup(ms[i].1[j].0) in CodeGroups
  }

  /** The inner loop: one MIME type's status counts added into its group's row. */
  function AddCodes(g: Grid, mg: string, codes: Counter): Grid {
    if |codes| == 0 then g
    else
      var m := |codes| - 1;
      GridAdd(AddCodes(g, mg, codes[..m]), mg, StatusGroup(codes[m].0), codes[m].1)
  }

  /** The outer loop, over the MIME types in order. */
  function AddMimes(g: Grid, ms: Grid): Grid {
    if |ms| == 0 then g
    else
      var m := |ms| - 1;
      AddCodes(AddMimes(g, ms[..m]), MimeGroup(ms[m].0), ms[m].1)
  }

  /** The grid has every MIME group as a row, in label order, and each row has exactly the
      code groups as cells. */
  predicate Shaped(g: Grid) {
    && Keys(g) == MimeLabels
    && forall l :: l in MimeLabels ==> Get(g, l).Some? && Keys(Get(g, l).value) == CodeGroups
  }

  /** `_mime_status_grid`: `KeyError` when a status falls outside the columns; otherwise a
      grid of the fixed shape, holding every count of the input. */
  function MimeStatusGrid(ms: Grid): (r: Result<Grid>)
    ensures r.Ok? <==> Classifiable(ms)
    ensures r.Ok? ==> Shaped(r.value) && Rectangular(r.value, CodeGroups)
    ensures r.Ok? ==> GridTotal(r.value) == GridTotal(ms)
  {
    if Classifiable(ms) then
      FilledGrid(ms);
      Ok(AddMimes(ZeroGrid(), ms))
    else Err("KeyError")
  }

  /** The zero grid filled with classifiable counts keeps its shape and every count. */
  lemma FilledGrid(ms: Grid)
    requires Classifiable(ms)
    ensures var g := AddMimes(ZeroGrid(), ms);
            Shaped(g) && Rectangular(g, CodeGroups) && GridTotal(g) == GridTotal(ms)
  {
    ZeroGridShaped();
    AddMimesShaped(ZeroGrid(), ms);
    ShapedRectangular(AddMimes(ZeroGrid(), ms));
    FilledGridTotal(ms);
  }

  lemma FilledGridTotal(ms: Grid)
    ensures GridTotal(AddMimes(ZeroGrid(), ms)) == GridTotal(ms)
  {
    AddMimesTotal(ZeroGrid(), ms);
    ZeroGridTotal();
  }

  // ------------------------------------------------------------------ reference sums

  /** The counts of `codes` whose status falls in group `c`. */
  function RowBucket(codes: Counter, c: string): nat {
    if |codes| == 0 then 0
    else
      var m := |codes| - 1;
      RowBucket(codes[..m], c) + (if StatusGroup(codes[m].0) == c then codes[m].1 else 0)
  }

  /** The counts of `ms` whose MIME type falls in group `l` and status in group `c`. */
  function Bucket(ms: Grid, l: string, c: string): nat {
    if |ms| == 0 then 0
    else
      var m := |ms| - 1;
      Bucket(ms[..m], l, c) + (if MimeGroup(ms[m].0) == l then RowBucket(ms[m].1, c) else 0)
  }

  /** Each cell of the re-bucketed grid holds exactly the input counts that classify to it. */
  lemma MimeStatusGridCells(ms: Grid, l: string, c: string)
    requires MimeStatusGrid(ms).Ok?
    ensures CellCount(MimeStatusGrid(ms).value, l, c) == Bucket(ms, l, c)
  {
    AddMimesCell(ZeroGrid(), ms, l, c);
    ZeroGridCells(l, c);
  }

  lemma {:induction false} AddCodesCell(g: Grid, mg: string, codes: Counter, l: string, c: string)
    ensures CellCount(AddCodes(g, mg, codes), l, c)
            == CellCount(g, l, c) + (if l == mg then RowBucket(codes, c) else 0)
  {
    if |codes| > 0 {
      var m := |codes| - 1;
      AddCodesCell(g, mg, codes[..m], l, c);
      var sg := StatusGroup(codes[m].0);
      GridAddCell(AddCodes(g, mg, codes[..m]), mg, sg, codes[m].1, l, c);
      BucketStep(CellCount(AddCodes(g, mg, codes), l, c), CellCount(AddCodes(g, mg, codes[..m]), l, c),
                 CellCount(g, l, c), RowBucket(codes[..m], c), RowBucket(codes, c), codes[m].1,
                 l == mg, sg == c);
    }
  }

  lemma BucketStep(after: nat, before: nat, start: nat, b0: nat, b1: nat, n: nat, row: bool, hit: bool)
    requires before == start + (if row then b0 else 0)
    requires after == before + (if row && hit then n else 0)
    requires b1 == b0 + (if hit then n else 0)
    ensures after == start + (if row then b1 else 0)
  {
  }

  lemma {:induction false} AddMimesCell(g: Grid, ms: Grid, l: string, c: string)
    ensures CellCount(AddMimes(g, ms), l, c) == CellCount(g, l, c) + Bucket(ms, l, c)
  {
    if |ms| > 0 {
      var m := |ms| - 1;
      AddMimesCell(g, ms[..m], l, c);
      AddCodesCell(AddMimes(g, ms[..m]), MimeGroup(ms[m].0), ms[m].1, l, c);
    }
  }

  lemma ZeroGridCells(l: string, c: string)
    ensures CellCount(ZeroGrid(), l, c) == 0
  {
    ConstantZeroCell(MimeLabels, CodeGroups, l, c);
  }

  // ------------------------------------------------------------------ shape and total

  lemma ZeroGridShaped()
    ensures Shaped(ZeroGrid())
  {
    ConstantKeys(MimeLabels, ZeroRow());
    ConstantKeys(CodeGroups, 0);
    forall l | l in MimeLabels ensures Get(ZeroGrid(), l) == Some(ZeroRow()) {
      ConstantGet(MimeLabels, ZeroRow(), l);
    }
  }

  /** Adding a count to a cell that exists keeps the shape. */
  lemma GridAddShaped(g: Grid, mg: string, sg: string, n: nat)
    requires Shaped(g) && mg in MimeLabels && sg in CodeGroups
    ensures Shaped(GridAdd(g, mg, sg, n))
  {
    var r := GridAdd(g, mg, sg, n);
    forall l | l in MimeLabels ensures Get(r, l).Some? && Keys(Get(r, l).value) == CodeGroups {
      if l != mg {
        assert Get(r, l) == Get(g, l);
      }
    }
  }

  lemma {:induction false} AddCodesShaped(g: Grid, mg: string, codes: Counter)
    requires Shaped(g) && mg in MimeLabels
    requires forall j :: 0 <= j < |codes| ==> StatusGroup(codes[j].0) in CodeGroups
    ensures Shaped(AddCodes(g, mg, codes))
  {
    if |codes| > 0 {
      var m := |codes| - 1;
      assert forall j :: 0 <= j < m ==> codes[..m][j] == codes[j];
      AddCodesShaped(g, mg, codes[..m]);
      GridAddShaped(AddCodes(g, mg, codes[..m]), mg, StatusGroup(codes[m].0), codes[m].1);
    }
  }

  lemma {:induction false} AddMimesShaped(g: Grid, ms: Grid)
    requires Shaped(g) && Classifiable(ms)
    ensures Shaped(AddMimes(g, ms))
  {
    if |ms| > 0 {
      var m := |ms| - 1;
      assert Classifiable(ms[..m]) by {
        forall i, j | 0 <= i < m && 0 <= j < |ms[..m][i].1|
          ensures StatusGroup(ms[..m][i].1[j].0) in CodeGroups
        {
          assert ms[..m][i] == ms[i];
        }
      }
      AddMimesShaped(g, ms[..m]);
      AddCodesShaped(AddMimes(g, ms[..m]), MimeGroup(ms[m].0), ms[m].1);
    }
  }

  /** A shaped grid, read row by row, has the code groups as every row's keys. */
  lemma ShapedRectangular(g: Grid)
    requires Shaped(g)
    ensures Rectangular(g, CodeGroups)
  {
    LabelsUnique();
    forall i | 0 <= i < |g| ensures Keys(g[i].1) == CodeGroups {
      assert Keys(g)[i] == g[i].0;
      GetAt(g, i);
    }
  }

  lemma {:induction false} AddCodesTotal(g: Grid, mg: string, codes: Counter)
    ensures GridTotal(AddCodes(g, mg, codes)) == GridTotal(g) + Total(codes)
  {
    if |codes| > 0 {
      var m := |codes| - 1;
      var prev := AddCodes(g, mg, codes[..m]);
      AddCodesTotal(g, mg, codes[..m]);
      assert AddCodes(g, mg, codes) == GridAdd(prev, mg, StatusGroup(codes[m].0), codes[m].1);
      TotalLast(codes);
    }
  }

  lemma {:induction false} AddMimesTotal(g: Grid, ms: Grid)
    ensures GridTotal(AddMimes(g, ms)) == GridTotal(g) + GridTotal(ms)
  {
    if |ms| > 0 {
      var m := |ms| - 1;
      AddMimesTotal(g, ms[..m]);
      AddCodesTotal(AddMimes(g, ms[..m]), MimeGroup(ms[m].0), ms[m].1);
      GridTotalLast(ms);
    }
  }

  lemma ZeroGridTotal()
    ensures GridTotal(ZeroGrid()) == 0
  {
    ConstantZeroTotal(CodeGroups);
    ConstantGridTotal(MimeLabels, ZeroRow());
  }

  // ------------------------------------------------------------------ printed totals

  /** The numbers of `print_mimestatus_grid`: a footer per code group, the TOTAL footer
      (the report's captures) and the rows shown, each with its cells and its total. */
  datatype GridFigures = GridFigures(footers: seq<nat>, total: nat, rows: seq<(string, seq<nat>, nat)>)

  /** The column footers, `sum(codes[code] for codes in media.values())`. */
  function Footers(media: Grid, cols: seq<string>): (fs: seq<nat>)
    ensures |fs| == |cols|
    ensures forall i :: 0 <= i < |cols| ==> fs[i] == ColumnSum(media, cols[i])
  {
    if |cols| == 0 then [] else [ColumnSum(media, cols[0])] + Footers(media, cols[1..])
  }

  function Sum(xs: seq<nat>): nat {
    if |xs| == 0 then 0 else xs[0] + Sum(xs[1..])
  }

  /** The rows with a non-zero total, in order. */
  function ShownRows(media: Grid): (rows: seq<(string, seq<nat>, nat)>)
    ensures |rows| <= |media|
    ensures forall i :: 0 <= i < |rows| ==> rows[i].2 > 0
  {
    if |media| == 0 then []
    else
      var row_total := Total(media[0].1);
      var rest := ShownRows(media[1..]);
      if row_total != 0 then [(media[0].0, Values(media[0].1), row_total)] + rest else rest
  }

  /** `print_mimestatus_grid`: `codes[code]` raises `KeyError` unless every row has every
      code group. */
  function MimeStatusFigures(media: Grid, captures: nat): (r: Result<GridFigures>)
    ensures r.Ok? <==> forall i :: 0 <= i < |media| ==> forall c :: c in CodeGroups ==> c in Keys(media[i].1)
    ensures r.Ok? ==> |r.value.footers| == |CodeGroups| && r.value.total == captures
    ensures r.Ok? ==> forall j :: 0 <= j < |CodeGroups| ==> r.value.footers[j] == ColumnSum(media, CodeGroups[j])
    ensures r.Ok? ==> r.value.rows == ShownRows(media)
  {
    if forall i :: 0 <= i < |media| ==> forall c :: c in CodeGroups ==> c in Keys(media[i].1) then
      Ok(GridFigures(Footers(media, CodeGroups), captures, ShownRows(media)))
    else Err("KeyError")
  }

  /** The row totals shown add up to the grid total: only all-zero rows are skipped. */
  lemma {:induction false} ShownRowsTotal(media: Grid)
    ensures Sum(RowTotals(ShownRows(media))) == GridTotal(media)
  {
    if |media| > 0 {
      ShownRowsTotal(media[1..]);
    }
  }

  function RowTotals(rows: seq<(string, seq<nat>, nat)>): (ts: seq<nat>)
    ensures |ts| == |rows|
    ensures forall i :: 0 <= i < |rows| ==> ts[i] == rows[i].2
  {
    if |rows| == 0 then [] else [rows[0].2] + RowTotals(rows[1..])
  }

  /** A row is shown exactly when its total is not zero. */
  lemma {:induction false} ShownRowsAreNonZero(media: Grid, name: string, row: Counter)
    requires Unique(Keys(media))
    requires (name, row) in media
    ensures (name, Values(row), Total(row)) in ShownRows(media) <==> Total(row) > 0
  {
    if |media| > 0 {
      assert Keys(media) == [media[0].0] + Keys(media[1..]);
      if media[0] == (name, row) {
        assert name !in Keys(media[1..]);
        NotShownWithoutKey(media[1..], name);
      } else {
        assert media[0].0 != name by {
          var i :| 0 <= i < |media| && media[i] == (name, row);
          assert Keys(media)[i] == name && Keys(media)[0] == media[0].0;
        }
        ShownRowsAreNonZero(media[1..], name, row);
      }
    }
  }

  lemma {:induction false} NotShownWithoutKey(media: Grid, name: string)
    requires name !in Keys(media)
    ensures forall x :: x in ShownRows(media) ==> x.0 != name
  {
    if |media| > 0 {
      assert Keys(media) == [media[0].0] + Keys(media[1..]);
      NotShownWithoutKey(media[1..], name);
    }
  }

  lemma {:induction false} SumFooters(media: Grid, cols: seq<string>)
    ensures Sum(Footers(media, cols)) == ColumnsTotal(media, cols)
  {
    if |cols| > 0 {
      SumFooters(media, cols[1..]);
    }
  }

  /** A grid whose rows all have the code groups as keys lets every lookup succeed. */
  lemma FiguresExist(media: Grid, captures: nat)
    requires Rectangular(media, CodeGroups)
    ensures MimeStatusFigures(media, captures).Ok?
  {
    forall i | 0 <= i < |media| ensures forall c :: c in CodeGroups ==> c in Keys(media[i].1) {
      assert Keys(media[i].1) == CodeGroups;
    }
  }

  /** On such a grid the code group footers add up to the grid total. */
  lemma FootersAddUp(media: Grid)
    requires Rectangular(media, CodeGroups)
    ensures Sum(Footers(media, CodeGroups)) == GridTotal(media)
  {
    SumFooters(media, CodeGroups);
    assert Unique(CodeGroups);
    ColumnsTotalIsGridTotal(media, CodeGroups);
  }

  /** On a re-bucketed grid the figures exist, and the code group footers add up to the
      input total, as do the shown rows' totals. */
  lemma GridFiguresAddUp(ms: Grid, captures: nat)
    requires MimeStatusGrid(ms).Ok?
    ensures var f := MimeStatusFigures(MimeStatusGrid(ms).value, captures);
            && f.Ok?
            && Sum(f.value.footers) == GridTotal(ms)
            && Sum(RowTotals(f.value.rows)) == GridTotal(ms)
  {
    var media := MimeStatusGrid(ms).value;
    FiguresExist(media, captures);
    FootersAddUp(media);
    ShownRowsTotal(media);
  }

  // ------------------------------------------------------------------ top hosts

  /** The numbers of `print_tophosts`: the OTHERS host count, its captures, and whether
      the footer is shown. */
  datatype HostFigures = HostFigures(others: int, othersCaptures: int, footer: bool)

  /** The OTHERS line: the hosts not listed, their captures, and whether it is shown. */
  function TopHostFigures(hosts: nat, captures: nat, tophosts: Counter): HostFigures
  {
    var others := hosts - |tophosts|;
    HostFigures(others, captures - Total(tophosts), others > 0)
  }

  /** On an analyzer report the long tail is never negative. */
  lemma ReportHostFigures(samplesize: nat, maxhosts: Option<int>, lines: seq<string>,
                          draws: seq<real>)
    requires |draws| == |lines|
    ensures var rep := Analyze(samplesize, maxhosts, lines, draws);
            var f := TopHostFigures(rep.hosts, rep.captures, rep.tophosts);
            f.others >= 0 && f.othersCaptures >= 0
  {
    AnalyzeTopHosts(samplesize, maxhosts, lines, draws);
  }
}

=== FILE: webcomponent.dfy ===
/** The `<cdx-summary>` web component (webcomponent/cdxsummary.js): the numbers and decisions
    behind the rendered summary, not its markup. JSON objects are insertion-ordered mappings,
    and JavaScript numbers are exact integers or NaN. */
module WebComponent {
  import opened Wrappers
  import opened Strings
  import opened Counts
  import opened Streams
  import Parser
  import Summarizer

  const Petabox: string := "https://archive.org/download/"
  const Loading: string := "Loading summary..."
  const MissingAttribute: string :=
    "Either \"src\" or \"item\" attribute is required for the &lt;cdx-summary&gt; element!"
  const Unavailable: string :=
    "Summary data is not available! Use the <a href=\"https://github.com/internetarchive/cdx-summary\">CDX Summary CLI tool</a> instead."

  // ------------------------------------------------------------------ numbers

  /** A JavaScript number as it arises here: an integer, or NaN once `undefined` is added. */
  datatype Num = Finite(n: int) | NaN

  /** `a + b`: NaN is absorbing. */
  function Plus(a: Num, b: Num): Num {
    if a.Finite? && b.Finite? then Finite(a.n + b.n) else NaN
  }

  /** `row[c]` as a summand: the cell's count, or NaN for a missing key (`undefined`). */
  function Lookup(row: Counter, c: string): Num {
    match Get(row, c)
    case Some(n) => Finite(n)
    case None => NaN
  }

  /** `numSum(nums)`: `reduce` from 0, adding left to right. */
  function NumSum(xs: seq<int>): (s: int)
    ensures |xs| == 0 ==> s == 0
  {
    if |xs| == 0 then 0 else NumSum(xs[..|xs| - 1]) + xs[|xs| - 1]
  }

  /** Summing a concatenation is adding the two sums. */
  lemma {:induction false} NumSumConcat(a: seq<int>, b: seq<int>)
    ensures NumSum(a + b) == NumSum(a) + NumSum(b)
    decreases |b|
  {
    if |b| > 0 {
      var m := |b| - 1;
      assert (a + b)[..|a + b| - 1] == a + b[..m];
      NumSumConcat(a, b[..m]);
    } else {
      assert a + b == a;
    }
  }

  /** `numSum(Object.values(o))` is the total of the counts `o` holds. */
  lemma {:induction false} NumSumValues(c: Counter)
    ensures NumSum(Values(c)) == Total(c)
  {
    if |c| > 0 {
      NumSumValues(c[1..]);
      assert Values(c) == [c[0].1] + Values(c[1..]);
      NumSumConcat([c[0].1], Values(c[1..]));
      assert NumSum([c[0].1]) == NumSum([]) + c[0].1;
    }
  }

  // ------------------------------------------------------------------ dates

  /** `s.substring(a, b)`: both ends are clamped to the string and swapped when out of order. */
  function Substring(s: string, a: nat, b: nat): (r: string)
    ensures a <= b <= |s| ==> r == s[a..b]
    ensures |s| <= a && |s| <= b ==> r == ""
  {
    var i := if a < |s| then a else |s|;
    var j := if b < |s| then b else |s|;
    if i <= j then s[i..j] else s[j..i]
  }

  /** `toDate(dt)`: the first eight characters as YYYY-MM-DD, with no calendar check; shorter
      strings give shorter pieces, and the empty `first`/`last` of an empty report gives "--". */
  function ToDate(dt: string): (r: string)
    ensures |dt| >= 8 ==> |r| == 10 && r[4] == '-' && r[7] == '-'
    ensures |dt| >= 8 ==> r[..4] == dt[..4] && r[5..7] == dt[4..6] && r[8..] == dt[6..8]
    ensures |dt| == 0 ==> r == "--"
  {
    Substring(dt, 0, 4) + "-" + Substring(dt, 4, 6) + "-" + Substring(dt, 6, 8)
  }

  /** Splitting the date at its dashes gives back year, month and day. */
  lemma DateSplits(dt: string)
    requires |dt| >= 8 && '-' !in dt[..8]
    ensures Split(ToDate(dt), '-') == [dt[..4], dt[4..6], dt[6..8]]
  {
    var parts := [dt[..4], dt[4..6], dt[6..8]];
    assert forall c :: c in dt[..4] || c in dt[4..6] || c in dt[6..8] ==> c in dt[..8];
    assert ToDate(dt) == Join(parts, '-') by {
      assert Join(parts[2..], '-') == dt[6..8];
      assert parts[1..][1..] == parts[2..];
    }
    SplitJoin(parts, '-');
  }

  /** On a well-formed capture record the date shows the record's year, month and day. */
  lemma RecordDate(r: Parser.CdxRecord)
    requires Parser.WellFormed(r)
    ensures ToDate(r.datetime) == r.year + "-" + r.month + "-" + r.day
  {
  }

  // ------------------------------------------------------------------ grids

  /** `colSum[c] += row[c]` for each column `c` in turn (one column listed twice is added
      twice); no column is added or dropped. */
  function AddCells(sums: map<string, Num>, row: Counter, cols: seq<string>)
    : (r: map<string, Num>)
    requires forall c :: c in cols ==> c in sums
    ensures r.Keys == sums.Keys
  {
    if |cols| == 0 then sums
    else
      var n := |cols| - 1;
      var s := AddCells(sums, row, cols[..n]);
      s[cols[n] := Plus(s[cols[n]], Lookup(row, cols[n]))]
  }

  /** One listing of a column: that column's sum takes the cell, the others stay. */
  lemma AddCellsLast(sums: map<string, Num>, row: Counter, cols: seq<string>, c: string)
    requires forall c :: c in cols ==> c in sums
    requires |cols| > 0 && c in sums
    ensures var n := |cols| - 1;
            var before := AddCells(sums, row, cols[..n])[c];
            AddCells(sums, row, cols)[c] == if cols[n] == c then Plus(before, Lookup(row, c)) else before
  {
  }

  /** A row adds its cell to a column sum once for every time the column is listed. */
  lemma {:induction false} AddCellsValue(sums: map<string, Num>, row: Counter, cols: seq<string>, c: string)
    requires forall c :: c in cols ==> c in sums
    requires c in sums
    ensures AddCells(sums, row, cols)[c] == Repeated(sums[c], Lookup(row, c), Occ(cols, c))
  {
    if |cols| > 0 {
      var n := |cols| - 1;
      AddCellsValue(sums, row, cols[..n], c);
      AddCellsLast(sums, row, cols, c);
    }
  }

  /** `a + x + ... + x` with `k` copies of `x`. */
  function Repeated(a: Num, x: Num, k: nat): Num {
    if k == 0 then a else Plus(Repeated(a, x, k - 1), x)
  }

  /** `k` copies of `s` added up, that is `k * s`. */
  function Scale(k: nat, s: int): int {
    if k == 0 then 0 else Scale(k - 1, s) + s
  }

  lemma {:induction false} ScaleAdd(k: nat, s: int, v: int)
    ensures Scale(k, s) + Scale(k, v) == Scale(k, s + v)
  {
    if k > 0 {
      ScaleAdd(k - 1, s, v);
    }
  }

  /** Adding a number `k` times is adding `k` times it, unless NaN is involved. */
  lemma {:induction false} RepeatedValue(a: Num, x: Num, k: nat)
    ensures Repeated(a, x, k)
            == if k == 0 then a
               else if a.Finite? && x.Finite? then Finite(a.n + Scale(k, x.n))
               else NaN
  {
    if k > 1 {
      RepeatedValue(a, x, k - 1);
    }
  }

  /** `colSum` after the rows of `obj`: every column starts at 0 and each row adds its cells. */
  function ColSums(obj: Grid, cols: seq<string>): (sums: map<string, Num>)
    ensures forall c :: c in sums <==> c in cols
  {
    if |obj| == 0 then map c | c in cols :: Finite(0)
    else AddCells(ColSums(obj[..|obj| - 1], cols), obj[|obj| - 1].1, cols)
  }

  /** Whether every row has a cell for column `c`, checked from the last row back. */
  predicate HasColumn(obj: Grid, c: string) {
    |obj| == 0 || (HasColumn(obj[..|obj| - 1], c) && Get(obj[|obj| - 1].1, c).Some?)
  }

  lemma {:induction false} HasColumnEvery(obj: Grid, c: string)
    ensures HasColumn(obj, c) <==> forall i :: 0 <= i < |obj| ==> Get(obj[i].1, c).Some?
  {
    if |obj| > 0 {
      var n := |obj| - 1;
      HasColumnEvery(obj[..n], c);
      assert forall i :: 0 <= i < n ==> obj[..n][i] == obj[i];
    }
  }

  /** The last row's share of a column sum. */
  lemma {:induction false} ColumnSumLast(g: Grid, c: string)
    requires |g| > 0
    ensures ColumnSum(g, c) == ColumnSum(g[..|g| - 1], c) + CountFor(g[|g| - 1].1, c)
  {
    if |g| > 1 {
      ColumnSumLast(g[1..], c);
      assert g[1..][..|g| - 2] == g[..|g| - 1][1..];
    }
  }

  /** A column's footer is `k` times the sum of the column, `k` being how often it is listed,
      when every row has the column; one missing cell makes it NaN. */
  lemma {:induction false} ColSumsValue(obj: Grid, cols: seq<string>, c: string)
    requires c in cols
    ensures ColSums(obj, cols)[c]
            == if HasColumn(obj, c) then Finite(Scale(Occ(cols, c), ColumnSum(obj, c))) else NaN
  {
    var k := Occ(cols, c);
    if |obj| == 0 {
      assert ColumnSum(obj, c) == 0;
      ScaleAdd(k, 0, 0);
    } else {
      var n := |obj| - 1;
      var prev := obj[..n];
      var before := ColSums(prev, cols)[c];
      var cell := Lookup(obj[n].1, c);
      var now := ColSums(obj, cols)[c];
      AddCellsValue(ColSums(prev, cols), obj[n].1, cols, c);
      assert now == Repeated(before, cell, k);
      ColSumsValue(prev, cols, c);
      if HasColumn(obj, c) {
        var s, v := ColumnSum(prev, c), CountFor(obj[n].1, c);
        var total := ColumnSum(obj, c);
        assert now == Finite(Scale(k, total)) by {
          ColumnSumLast(obj, c);
          RepeatedFinite(before, cell, k, s, v, total);
        }
      } else {
        assert now == NaN by {
          RepeatedValue(before, cell, k);
        }
      }
    }
  }

  lemma RepeatedFinite(before: Num, cell: Num, k: nat, s: int, v: int, total: int)
    requires before == Finite(Scale(k, s)) && cell == Finite(v) && total == s + v
    ensures Repeated(before, cell, k) == Finite(Scale(k, total))
  {
    RepeatedValue(before, cell, k);
    ScaleAdd(k, s, v);
  }

  /** One rendered body row: its cells under `cols`, and its TOTAL over all of its values. */
  datatype RowView = RowView(name: string, cells: seq<Num>, total: int)

  /** The footer row: the column sums and the grand cell. */
  datatype Footer = Footer(cells: seq<Num>, grand: int)

  datatype GridView = GridView(cols: seq<string>, rows: seq<RowView>, footer: Option<Footer>)

  /** The cells of one row under the columns `cols`. */
  function Cells(row: Counter, cols: seq<string>): (r: seq<Num>)
    ensures |r| == |cols|
    ensures forall j :: 0 <= j < |cols| ==> r[j] == Lookup(row, cols[j])
  {
    if |cols| == 0 then [] else [Lookup(row, cols[0])] + Cells(row, cols[1..])
  }

  /** A row's TOTAL cell is `numSum(Object.values(row))`, which sums every value of the row,
      also those under keys that are not columns. */
  function RowOf(entry: (string, Counter), cols: seq<string>): (v: RowView)
    ensures v.name == entry.0 && v.cells == Cells(entry.1, cols)
    ensures v.total == Total(entry.1)
  {
    NumSumValues(entry.1);
    RowView(entry.0, Cells(entry.1, cols), NumSum(Values(entry.1)))
  }

  function Rows(obj: Grid, cols: seq<string>): (rows: seq<RowView>)
    ensures |rows| == |obj|
    ensures forall i :: 0 <= i < |obj| ==> rows[i] == RowOf(obj[i], cols)
  {
    if |obj| == 0 then [] else [RowOf(obj[0], cols)] + Rows(obj[1..], cols)
  }

  /** The footer's column cells, `cols.map(c => colSum[c])`. */
  function FooterCells(sums: map<string, Num>, cols: seq<string>): (r: seq<Num>)
    requires forall c :: c in cols ==> c in sums
    ensures |r| == |cols|
    ensures forall j :: 0 <= j < |cols| ==> r[j] == sums[cols[j]]
  {
    if |cols| == 0 then [] else [sums[cols[0]]] + FooterCells(sums, cols[1..])
  }

  /** `gridTable(obj, group, cols)`. Without `cols` the columns are the first row's keys, and
      an empty `obj` then throws a TypeError. The footer is there only for more than one row,
      and its grand cell shows `captures`, not a sum. */
  function GridTable(obj: Grid, cols: Option<seq<string>>, captures: nat): (r: Result<GridView>)
    ensures r.Err? <==> cols.None? && |obj| == 0
    ensures r.Ok? ==> r.value.cols == if cols.Some? then cols.value else Keys(obj[0].1)
    ensures r.Ok? ==> r.value.rows == Rows(obj, r.value.cols)
    ensures r.Ok? ==> (r.value.footer.Some? <==> |obj| > 1)
    ensures r.Ok? && r.value.footer.Some? ==>
              && r.value.footer.value.grand == captures
              && r.value.footer.value.cells == FooterCells(ColSums(obj, r.value.cols), r.value.cols)
  {
    if cols.None? && |obj| == 0 then Err("TypeError")
    else
      var cs := if cols.Some? then cols.value else Keys(obj[0].1);
      var footer := if |obj| > 1 then Some(Footer(FooterCells(ColSums(obj, cs), cs), captures))
                    else None;
      Ok(GridView(cs, Rows(obj, cs), footer))
  }

  /** Adding up a row of numbers; NaN anywhere gives NaN. */
  function SumNums(xs: seq<Num>): Num {
    if |xs| == 0 then Finite(0) else Plus(xs[0], SumNums(xs[1..]))
  }

  /** Adding up the TOTAL column. */
  function SumTotals(rows: seq<RowView>): int {
    if |rows| == 0 then 0 else rows[0].total + SumTotals(rows[1..])
  }

  lemma {:induction false} RowsTotal(obj: Grid, cols: seq<string>)
    ensures SumTotals(Rows(obj, cols)) == GridTotal(obj)
  {
    if |obj| > 0 {
      RowsTotal(obj[1..], cols);
      assert Rows(obj, cols)[1..] == Rows(obj[1..], cols);
    }
  }

  lemma {:induction false} OccUnique(xs: seq<string>, x: string)
    requires Unique(xs) && x in xs
    ensures Occ(xs, x) == 1
  {
    var m := |xs| - 1;
    assert xs == xs[..m] + [xs[m]];
    if xs[m] == x {
      assert x !in xs[..m];
    } else {
      OccUnique(xs[..m], x);
    }
  }

  /** With distinct columns that every row has, each footer cell is its column's sum. */
  lemma FooterIsColumnSums(obj: Grid, cols: seq<string>, j: nat)
    requires Rectangular(obj, cols) && Unique(cols) && j < |cols|
    ensures ColSums(obj, cols)[cols[j]] == Finite(ColumnSum(obj, cols[j]))
  {
    var c := cols[j];
    ColSumsValue(obj, cols, c);
    OccUnique(cols, c);
    assert Scale(1, ColumnSum(obj, c)) == ColumnSum(obj, c);
    forall i | 0 <= i < |obj| ensures Get(obj[i].1, c).Some? {
      assert Keys(obj[i].1) == cols;
    }
    HasColumnEvery(obj, c);
  }

  lemma {:induction false} FooterSum(obj: Grid, cells: seq<Num>, cols: seq<string>)
    requires |cells| == |cols|
    requires forall j :: 0 <= j < |cols| ==> cells[j] == Finite(ColumnSum(obj, cols[j]))
    ensures SumNums(cells) == Finite(ColumnsTotal(obj, cols))
  {
    if |cols| > 0 {
      var rest := SumNums(cells[1..]);
      assert rest == Finite(ColumnsTotal(obj, cols[1..])) by {
        FooterSum(obj, cells[1..], cols[1..]);
      }
      assert cells[0] == Finite(ColumnSum(obj, cols[0]));
    }
  }

  /** When every row has exactly the (distinct) columns, the footer cells are numbers and
      they add up to the same figure as the TOTAL column: the grid total. */
  lemma GridTotalsAgree(obj: Grid, cols: seq<string>)
    requires Rectangular(obj, cols) && Unique(cols)
    ensures SumNums(FooterCells(ColSums(obj, cols), cols)) == Finite(GridTotal(obj))
    ensures SumTotals(Rows(obj, cols)) == GridTotal(obj)
  {
    var cells := FooterCells(ColSums(obj, cols), cols);
    forall j | 0 <= j < |cols| ensures cells[j] == Finite(ColumnSum(obj, cols[j])) {
      FooterIsColumnSums(obj, cols, j);
    }
    FooterSum(obj, cells, cols);
    ColumnsTotalIsGridTotal(obj, cols);
    RowsTotal(obj, cols);
  }

  /** A row lacking a column turns that column's footer into NaN. */
  lemma MissingCellIsNaN(obj: Grid, cols: seq<string>, i: nat, c: string)
    requires i < |obj| && c in cols && Get(obj[i].1, c).None?
    ensures ColSums(obj, cols)[c] == NaN
  {
    ColSumsValue(obj, cols, c);
    HasColumnEvery(obj, c);
  }

  // ------------------------------------------------------------------ year/month columns

  /** Ascending in JavaScript's default `sort` order on strings. */
  predicate Ascending(s: seq<string>) {
    forall i, j :: 0 <= i < j < |s| ==> LexLessEq(s[i], s[j])
  }

  lemma LexLessEqTransitive(a: string, b: string, c: string)
    requires LexLessEq(a, b) && LexLessEq(b, c)
    ensures LexLessEq(a, c)
  {
    if a != b && b != c {
      LexLessTransitive(a, b, c);
    }
  }

  /** Inserting into an ascending list keeps it ascending and adds exactly `x`. */
  function Insert(x: string, s: seq<string>): (r: seq<string>)
    requires Ascending(s)
    ensures Ascending(r) && multiset(r) == multiset(s) + multiset{x}
  {
    if |s| == 0 then [x]
    else if LexLessEq(x, s[0]) then
      forall j | 0 <= j < |s| ensures LexLessEq(x, s[j]) {
        LexLessEqTransitive(x, s[0], s[j]);
      }
      [x] + s
    else
      LexLessTotal(x, s[0]);
      assert s == [s[0]] + s[1..];
      var rest := Insert(x, s[1..]);
      forall y | y in rest ensures LexLessEq(s[0], y) {
        assert y in multiset(rest);
        if y != x {
          assert y in s[1..];
        }
      }
      [s[0]] + rest
  }

  /** `keys.sort()`: an ascending permutation of `keys`. */
  function SortStrings(keys: seq<string>): (r: seq<string>)
    ensures Ascending(r) && multiset(r) == multiset(keys)
  {
    if |keys| == 0 then []
    else
      var n := |keys| - 1;
      assert keys == keys[..n] + [keys[n]];
      Insert(keys[n], SortStrings(keys[..n]))
  }

  /** The year/month grid's columns are the first year's months, sorted; with no year at all
      `Object.values(obj)[0]` is `undefined` and the lookup throws. */
  function YearMonthTable(yearmonth: Grid, captures: nat): (r: Result<GridView>)
    ensures r.Err? <==> |yearmonth| == 0
    ensures r.Ok? ==> Ascending(r.value.cols)
    ensures r.Ok? ==> multiset(r.value.cols) == multiset(Keys(yearmonth[0].1))
  {
    if |yearmonth| == 0 then Err("TypeError")
    else GridTable(yearmonth, Some(SortStrings(Keys(yearmonth[0].1))), captures)
  }

  // ------------------------------------------------------------------ top hosts

  /** The long tail under the top hosts table. */
  datatype HostsView = HostsView(otherCount: int, otherTotal: int, othersRow: bool)

  /** `topHostsTable()`: the hosts and captures not listed, and whether the OTHERS row shows. */
  function TopHostsTable(hosts: nat, captures: nat, tophosts: Counter): HostsView
  {
    var count := hosts - |Keys(tophosts)|;
    HostsView(count, captures - NumSum(Values(tophosts)), count > 0)
  }

  /** The page's long tail agrees with the command-line summary's. */
  lemma SameLongTailAsCli(hosts: nat, captures: nat, tophosts: Counter)
    ensures var v := TopHostsTable(hosts, captures, tophosts);
            var f := Summarizer.TopHostFigures(hosts, captures, tophosts);
            v.otherCount == f.others && v.otherTotal == f.othersCaptures && v.othersRow == f.footer
  {
    NumSumValues(tophosts);
  }

  // ------------------------------------------------------------------ source and message

  /** The summary URL of an archive item. */
  function ItemSummaryUrl(item: string): string {
    Petabox + item + "/" + item + ".summary.json"
  }

  /** `src.replace(/\.summary\.json$/, '.report.json.gz')`. */
  function ReportUrl(src: string): (r: string)
    ensures EndsWith(src, ".summary.json") ==> EndsWith(r, ".report.json.gz")
    ensures EndsWith(src, ".summary.json") ==> r[..|r| - 15] == src[..|src| - 13]
    ensures !EndsWith(src, ".summary.json") ==> r == src
  {
    if EndsWith(src, ".summary.json") then src[..|src| - 13] + ".report.json.gz" else src
  }

  /** An item's report sits beside its summary. */
  lemma ItemReportUrl(item: string)
    ensures ReportUrl(ItemSummaryUrl(item)) == Petabox + item + "/" + item + ".report.json.gz"
  {
    var s := ItemSummaryUrl(item);
    assert s == (Petabox + item + "/" + item) + ".summary.json";
    assert s[|s| - 13..] == ".summary.json";
  }

  /** The item can be read back from its summary URL when it holds no slash. */
  lemma ItemFromSummaryUrl(item: string)
    requires '/' !in item
    ensures Partition(ItemSummaryUrl(item)[|Petabox|..], '/').0 == item
  {
    var s := ItemSummaryUrl(item);
    assert s[|Petabox|..] == item + ['/'] + (item + ".summary.json");
    PartitionAt(item, '/', item + ".summary.json");
  }

  /** The summary JSON as the page reads it. */
  datatype Summary = Summary(
    captures: nat, urls: nat, hosts: nat, bytes: nat, first: string, last: string,
    mimestatus: Grid, pathquery: Grid, yearmonth: Grid, tophosts: Counter,
    samples: seq<(string, string)>)

  /** `this.data`: a message ("" when absent) and, once fetched, the summary. */
  datatype Data = Data(msg: string, summary: Option<Summary>)

  datatype Element = Element(src: string, data: Data)

  /** `this.getAttribute(name) || ''`. */
  function Attribute(value: Option<string>): string {
    if value.Some? then value.value else ""
  }

  /** `connectedCallback()`: an explicit `src` wins, otherwise an `item` names its summary
      file; the message says the summary is loading exactly when there is a source. */
  function Connect(srcAttr: Option<string>, itemAttr: Option<string>): (e: Element)
    ensures Attribute(srcAttr) != "" ==> e.src == Attribute(srcAttr)
    ensures Attribute(srcAttr) == "" ==>
              e.src == if Attribute(itemAttr) != "" then ItemSummaryUrl(Attribute(itemAttr)) else ""
    ensures e.data.msg == Loading <==> Attribute(srcAttr) != "" || Attribute(itemAttr) != ""
    ensures e.data.msg != Loading ==> e.data.msg == MissingAttribute
    ensures e.data.summary.None?
  {
    var src := Attribute(srcAttr);
    var item := Attribute(itemAttr);
    var src := if item != "" && src == "" then ItemSummaryUrl(item) else src;
    Element(src, Data(if src != "" then Loading else MissingAttribute, None))
  }

  /** `fetchSummary(src)`, run only when there is a source: a fetched summary replaces the
      data, a failed fetch or parse replaces the message. */
  function Fetched(e: Element, fetched: Option<Summary>): (t: Element)
    ensures t.src == e.src
    ensures e.src == "" ==> t == e
    ensures e.src != "" && fetched.Some? ==> t.data == Data("", fetched)
    ensures e.src != "" && fetched.None? ==> t.data.msg == Unavailable
  {
    if e.src == "" then e
    else if fetched.Some? then e.(data := Data("", fetched))
    else e.(data := e.data.(msg := Unavailable))
  }

  /** The figures of a rendered summary page. */
  datatype Page = Page(
    summaryUrl: string, reportUrl: string, first: string, last: string,
    mimestatus: GridView, pathquery: GridView, yearmonth: GridView,
    shownHosts: nat, tophosts: HostsView, samples: nat)

  /** What the container shows: the message alone, the page, or nothing new because
      rendering threw. */
  datatype View = Message(text: string) | Shown(page: Page) | Threw

  /** The page for a fetched summary; a grid without rows makes its column lookup throw. */
  function PageOf(s: Summary, src: string): (r: Result<Page>)
    ensures r.Ok? <==> |s.mimestatus| > 0 && |s.pathquery| > 0 && |s.yearmonth| > 0
    ensures r.Ok? ==> r.value.reportUrl == ReportUrl(src) && r.value.first == ToDate(s.first)
    ensures r.Ok? ==> r.value.summaryUrl == src && r.value.last == ToDate(s.last)
    ensures r.Ok? ==> r.value.mimestatus == GridTable(s.mimestatus, None, s.captures).value
    ensures r.Ok? ==> r.value.pathquery == GridTable(s.pathquery, None, s.captures).value
    ensures r.Ok? ==> r.value.yearmonth == YearMonthTable(s.yearmonth, s.captures).value
    ensures r.Ok? ==> r.value.tophosts == TopHostsTable(s.hosts, s.captures, s.tophosts)
    ensures r.Ok? ==> r.value.shownHosts == |s.tophosts| && r.value.samples == |s.samples|
  {
    var ms := GridTable(s.mimestatus, None, s.captures);
    var pq := GridTable(s.pathquery, None, s.captures);
    var ym := YearMonthTable(s.yearmonth, s.captures);
    if ms.Err? || pq.Err? || ym.Err? then Err("TypeError")
    else
      Ok(Page(src, ReportUrl(src), ToDate(s.first), ToDate(s.last), ms.value, pq.value,
              ym.value, |s.tophosts|, TopHostsTable(s.hosts, s.captures, s.tophosts),
              |s.samples|))
  }

  /** `renderSummary()`: a set message is shown alone; otherwise the summary's page when it
      renders, and a throw when there is no summary or a grid is empty. */
  function Render(e: Element): (v: View)
    ensures e.data.msg != "" <==> v.Message?
    ensures v.Message? ==> v.text == e.data.msg
    ensures v.Shown? ==> e.data.summary.Some?
    ensures e.data.msg == "" && e.data.summary.Some? && PageOf(e.data.summary.value, e.src).Ok? ==>
              v == Shown(PageOf(e.data.summary.value, e.src).value)
    ensures v.Threw? <==>
              e.data.msg == "" && (e.data.summary.None? || PageOf(e.data.summary.value, e.src).Err?)
  {
    if e.data.msg != "" then Message(e.data.msg)
    else if e.data.summary.None? then Threw
    else
      match PageOf(e.data.summary.value, e.src)
      case Ok(p) => Shown(p)
      case Err(_) => Threw
  }

  /** The renders of a connected element: without a source it renders once, with the
      missing-attribute message, and nothing is fetched to change the element; with one,
      "Loading summary..." first, and after the fetch the summary page or the unavailable
      message. */
  lemma Lifecycle(srcAttr: Option<string>, itemAttr: Option<string>, fetched: Option<Summary>)
    ensures var e := Connect(srcAttr, itemAttr);
            var t := Fetched(e, fetched);
            && (e.src == "" ==> Render(e) == Render(t) == Message(MissingAttribute))
            && (e.src != "" ==> Render(e) == Message(Loading))
            && (e.src != "" && fetched.None? ==> Render(t) == Message(Unavailable))
            && (e.src != "" && fetched.Some? && PageOf(fetched.value, e.src).Ok? ==>
                  Render(t) == Shown(PageOf(fetched.value, e.src).value))
  {
  }
}

=== FILE: wrappers.dfy ===
/** Failure-carrying result types shared by the whole model. */
module Wrappers {

  /** Python's None / JavaScript's null or undefined next to a present value. */
  datatype Option<+T> = None | Some(value: T) {

    /** The value, or `default` when absent (Python `or`, JavaScript `||` on a missing value). */
    function GetOr(default: T): T {
      match this
      case Some(v) => v
      case None => default
    }
  }

  /** The outcome of an operation that raises in the source: `Err` carries the message. */
  datatype Result<+T> = Ok(value: T) | Err(message: string)
}
